=== FILE: README.md ===
# Ninasu core, modelled in Dafny

Ninasu is a site where students and teachers publish mathematics exercises
and lessons, vote on them, discuss them in threaded comments and filter them
by class level, subject and chapter. Its backend is a Django REST service;
its frontend is a React application. This project models the decision logic
of both sides as pure Dafny functions over immutable data, and proves what
those functions promise:

- the vote rules: the server's user-set toggle, the database vote ledgers
  with their uniqueness constraints and score rule, and the two client vote
  widgets (`VoteSets`, `VoteLedger`, `VoteWidgets`);
- the comments: the guarded `comment` action, the delete cascade and the
  recursive serialisation on the server (`CommentServer`), and the client's
  comment forest, its sorting, mentions and indentation (`CommentTree`,
  `CommentSection`);
- the LaTeX tokenizer shared by the renderers and the home-card variant
  (`MathTokens`), and `truncateText` (`Truncate`);
- time labels: the timer, the relative age and the comment age
  (`TimeFormat`);
- filter panels and the content editor (`Selection`, `LessonsFilters`,
  `Filters`, `ContentEditor`, `ContentCards`);
- the account endpoints and the exercise tables behind the serializers
  (`Accounts`, `ExerciseStore`).

Database tables are sequences of rows; an insert that would break a
`unique` or `unique_together` constraint returns `None`, standing for the
`IntegrityError`. React state updates are functions from the old state to
the new one, and an effect is a function applied once on mount and again after each
state change that triggers it. The outcome of an asynchronous load is a boolean parameter.
The clock is an integer number of elapsed milliseconds. Django's
`authenticate`, and the NFKC and lower-casing that `create_user` applies, are
function parameters.

## Model

| member | source | states |
|---|---|---|
| VoteSets.ParseVoteType | backend/exercises/views.py:136-141 | exactly 'up', 'down' and 'none' are accepted; any other type is rejected |
| VoteSets.ApplyVote | backend/exercises/views.py:154-165 | after any vote the user is in at most one of the two sets; disjointness is kept; every other user's membership is unchanged |
| VoteSets.ApplyVoteFollowsTable | backend/exercises/views.py:154-165 | on disjoint sets the user's new standing is the one an independent 3x3 transition table gives |
| VoteSets.ApplyVoteOutcomes | backend/exercises/views.py:154-165 | from no vote or the opposite vote, 'up'/'down' leaves the user in exactly the requested set; 'none' leaves them in neither |
| VoteSets.RepeatTogglesOff | backend/exercises/views.py:154-165 | requesting the vote already held removes it |
| VoteSets.NotIdempotent | backend/exercises/views.py:154-165 | applying the same request twice can differ from applying it once |
| VoteSets.VoteOnTarget | backend/exercises/views.py:179-205 | an unknown type answers 400 and changes no set; otherwise 200 with the user in at most one set |
| VoteSets.VoteOnExercise | backend/exercises/views.py:130-167 | the type is validated first; target 'solution' without a solution answers 404 with nothing changed; otherwise the answer is 200, exactly then, and only the chosen target's sets change |
| VoteSets.PermissionCases | backend/exercises/views.py:24-28 | GET, HEAD and OPTIONS pass for anyone; POST, PUT, PATCH and DELETE pass exactly for authenticated users |
| VoteLedger.InsertVote | backend/things/models.py:71-92 | an insert fails exactly on a duplicate (user, content type, object) key and otherwise appends the row, keeping keys unique |
| VoteLedger.AtMostOneVote | backend/things/models.py:91-92 | under the constraint two rows with the same key are the same row |
| VoteLedger.VoteCountIsSignedSum | backend/things/models.py:103-105 | #UP minus #DOWN equals the sum of the signed values on the target, and its magnitude is at most the number of rows on the target |
| VoteLedger.UnvoteRowIsNeutral | backend/things/models.py:72-80 | a row with value 0 changes no score |
| VoteLedger.VoteCountLocal | backend/things/models.py:97-105 | rows on other targets never change a target's score, whatever its content type |
| VoteLedger.InsertReport | backend/things/models.py:189-198 | a report insert fails exactly on a duplicate (user, target) and keeps reports unique |
| VoteLedger.InsertKindVote | backend/exercises/models.py:74-104 | an exercise, comment or solution vote insert fails exactly on a duplicate (user, target) |
| VoteLedger.FirstVoteBy | backend/exercises/serializers.py:48-53 | `.first()` finds a row exactly when the user voted on the target, and the row is theirs |
| VoteLedger.SerializedUserVote | backend/exercises/serializers.py:48-53 | None for an anonymous viewer; otherwise the viewer's stored value, or None when they have no row |
| VoteLedger.InsertMovesScoreByOne | backend/exercises/serializers.py:45-46 | inserting a fresh 'up' vote raises the score by one and a 'down' vote lowers it by one |
| VoteWidgets.InitButtons | frontend/src/components/VoteButtons.tsx:17-21 | the score starts at `initialVotes` and the vote defaults to 'none' |
| VoteWidgets.ClickButton | frontend/src/components/VoteButtons.tsx:33-59 | a signed-out click changes nothing and only redirects; otherwise the active button clears the vote, the other sets it, `onVote` gets the new vote, and score minus vote weight is preserved |
| VoteWidgets.TwoClicksRestore | frontend/src/components/VoteButtons.tsx:42-58 | from no vote, two clicks on the same button restore vote and score |
| VoteWidgets.SyncProps | frontend/src/components/VoteButtons.tsx:25-31 | a changed `initialVotes` prop sets the score and a changed `userVote` prop sets the vote; each leaves the other field alone (the same two effects sit at VoteButtonsComment.tsx:27-33) |
| VoteWidgets.ButtonsPropAfterClick | frontend/src/components/VoteButtons.tsx:25-58 | a new `userVote` prop after a click replaces the vote but keeps the score the click moved, so score minus vote weight no longer matches the one before the click |
| VoteWidgets.ClickComment | frontend/src/components/VoteButtonsComment.tsx:35-45 | a signed-out click changes nothing; otherwise the vote becomes 0 exactly when the value repeats the current vote, `onVote` gets it, and the score never moves |
| VoteWidgets.CommentTwoClicks | frontend/src/components/VoteButtonsComment.tsx:41 | two clicks on v end at 0 from any other vote and at v from v |
| VoteWidgets.PropOverridesClick | frontend/src/components/VoteButtonsComment.tsx:27-45 | a click's vote is overwritten by the next `userVote` prop, and the click left the score as it was |
| CommentServer.CreateComment | backend/exercises/views.py:88-128 | unknown exercise 404, anonymous 401, content absent or made only of Python `isspace` characters (U+00A0 and U+3000 included) 400, unknown parent 404, parent on another exercise 400, and the database untouched on each; otherwise exactly one new row with that exercise, author, content and parent, and the table invariants kept |
| CommentServer.CommentEndpoint | backend/exercises/views.py:24-32 | the view set's permission class runs before the handler: an anonymous POST is refused with the framework's 401 or 403 before the exercise lookup and changes nothing, so a 404 only ever reaches a signed-in user and the handler's own 401 branch never answers; a signed-in request gets the handler's answer |
| CommentServer.DeleteCascade | backend/exercises/models.py:69 | deleting a comment removes exactly its reply subtree, keeps every other row unchanged and keeps the invariants |
| CommentServer.NoOrphansAfterDelete | backend/exercises/models.py:69 | after the cascade every remaining reply's parent still exists |
| CommentServer.DeleteProtected | backend/things/models.py:151 | with PROTECT a comment with replies cannot be deleted; otherwise only its row goes |
| CommentServer.Serialize | backend/exercises/serializers.py:40-43 | a serialised comment carries its id, author id and content, and exactly its replies in increasing key order, each reply a stored comment with a larger key, serialised the same way with its own replies |
| CommentServer.SerializeReplies | backend/exercises/serializers.py:40-43 | the reply list from a key on holds exactly the comments pointing to the parent from that key on, in increasing key order, each serialised with its own replies |
| CommentServer.NoRepliesIffLeaf | backend/exercises/serializers.py:40-43 | `replies` is [] exactly when no comment points to this one |
| CommentServer.ExerciseComments | backend/exercises/serializers.py:77 | an exercise's `comments` lists every comment on it, replies included, each serialised with its replies |
| CommentServer.ReplyListedTwice | backend/exercises/serializers.py:77 | a reply appears both at top level and nested under its parent |
| CommentTree.Find | frontend/src/pages/ExerciseDetail.tsx:207-225 | a node is found exactly when the id occurs at some depth, and the found node has that id |
| CommentTree.AddReply | frontend/src/pages/ExerciseDetail.tsx:207-223 | adding a reply keeps every top-level node and its id |
| CommentTree.AddComment | frontend/src/pages/ExerciseDetail.tsx:195-228 | a top-level comment is appended at the end; an unknown parent leaves the tree unchanged; removing the fresh comment again restores the tree |
| CommentTree.AddReplyAbsent | frontend/src/pages/ExerciseDetail.tsx:207-225 | with no node matching the parent id the tree is unchanged |
| CommentTree.AddReplyAppendsToParent | frontend/src/pages/ExerciseDetail.tsx:207-223 | the parent found afterwards is the old parent with the reply appended after its existing replies |
| CommentTree.AddReplyThenRemove | frontend/src/pages/ExerciseDetail.tsx:207-223 | adding a reply with a fresh id and removing it gives back the tree |
| CommentTree.Replace | frontend/src/pages/ExerciseDetail.tsx:249-262 | the top-level list keeps its length, each position keeps its id unless it held the replaced id (then it takes the new node's), and no id appears beyond the old ones and the new node's |
| CommentTree.ReplaceIsFound | frontend/src/pages/ExerciseDetail.tsx:249-262 | after replacing, looking the id up yields the new node |
| CommentTree.ReplaceAbsent | frontend/src/pages/ExerciseDetail.tsx:249-262 | replacing an id that does not occur changes nothing |
| CommentTree.ReplaceThenRemove | frontend/src/pages/ExerciseDetail.tsx:249-262 | replacement touches nothing outside the matched subtrees: removing the id afterwards gives the same forest as removing it before |
| CommentTree.Remove | frontend/src/pages/ExerciseDetail.tsx:315-325 | after removal the id occurs at no depth and no new id appears |
| CommentTree.RemoveIsFilterMap | frontend/src/pages/ExerciseDetail.tsx:315-325 | removal is the top-level filter on the id followed by the same removal inside each kept node's replies, all other fields kept |
| CommentTree.RemoveKeepsSurvivors | frontend/src/pages/ExerciseDetail.tsx:315-325 | every id outside the subtrees rooted at the removed id is still present afterwards |
| CommentTree.RemoveAbsent | frontend/src/pages/ExerciseDetail.tsx:315-325 | removing an absent id changes nothing |
| CommentTree.RemoveIdempotent | frontend/src/pages/ExerciseDetail.tsx:315-325 | removing twice is removing once |
| CommentTree.ExtractUsers | frontend/src/components/CommentSection.tsx:131-152 | the list equals an independent first-occurrence filter of the pre-order author walk: one entry per distinct author id across all reply depths, each the first occurrence of that id, in order of first appearance |
| CommentTree.FirstAuthorsSpec | frontend/src/components/CommentSection.tsx:131-152 | the first-occurrence list of any author sequence has distinct ids, carries every id of the sequence, and each entry is the first appearance of its id |
| CommentTree.Indent | frontend/src/components/CommentSection.tsx:421-424 | indentation is 16 pixels a level with depth clamped at 3, never above 48 |
| CommentSection.ParseOrder | frontend/src/components/CommentSection.tsx:50-54 | the three stored words map to their sort orders and anything else is kept as unknown |
| CommentSection.InitialSortOption | frontend/src/components/CommentSection.tsx:50-54 | no saved value (or an empty one) gives 'mostUpvoted'; otherwise the saved word is used |
| CommentSection.SortComments | frontend/src/components/CommentSection.tsx:56-68 | the result is a permutation of the comments; 'mostUpvoted' orders by non-increasing votes, 'recent' newest first, 'oldest' oldest first; an unknown option keeps the order |
| CommentSection.SortIsStable | frontend/src/components/CommentSection.tsx:56-68 | comments with equal keys keep their relative order |
| CommentSection.SortSortedIsIdentity | frontend/src/components/CommentSection.tsx:56-68 | sorting an already ordered list gives it back |
| CommentSection.LastIndexOf | frontend/src/components/CommentSection.tsx:88-89 | the last '@' of the text, or None exactly when there is none |
| CommentSection.HandleMention | frontend/src/components/CommentSection.tsx:82-99 | without '@' before the cursor the text is unchanged; otherwise text up to the last '@', then '@' + username + ' ', then the text after the cursor |
| CommentSection.MentionTrigger | frontend/src/components/CommentSection.tsx:105-129 | when the list opens, the text before the cursor ends in '@' and the filter made of word characters |
| CommentSection.MentionTriggerComplete | frontend/src/components/CommentSection.tsx:112-128 | text before the cursor ending in '@' and word characters always opens the list with those characters as filter |
| CommentSection.MentionReplacesTypedWord | frontend/src/components/CommentSection.tsx:82-128 | picking a user after typing '@' and a partial name replaces the partial name with the full one |
| CommentSection.FilteredUsers | frontend/src/components/CommentSection.tsx:225-227 | a candidate is kept exactly when its username contains the filter, ignoring the case of Basic Latin and Latin-1 letters |
| CommentSection.FilterIgnoresCase | frontend/src/components/CommentSection.tsx:225-227 | the filter's case, for Basic Latin and Latin-1 letters, does not change the candidates |
| CommentSection.AccentedFilterMatches | frontend/src/components/CommentSection.tsx:225-227 | "Élodie" matches the filter "é" |
| CommentSection.EmptyFilterListsAll | frontend/src/components/CommentSection.tsx:225-227 | an empty filter lists every user |
| MathTokens.MatchAtFull | frontend/src/pages/ExerciseDetail.tsx:40 | the scanner matches exactly the `$$…$$` or `$…$` the regular expression matches, lazy and leftmost |
| MathTokens.MatchAtSingleLine | frontend/src/components/HomeContentCard.tsx:36 | the home scanner matches exactly `$…$` with no line terminator inside |
| MathTokens.Split | frontend/src/pages/ExerciseDetail.tsx:40 | the split has odd length, its parts concatenate back to the text, and every odd-indexed part is a match delimited by '$' |
| MathTokens.JsSlice | frontend/src/lib/utils.ts:84-85 | `slice` clamps both positions into the string and gives the in-range substring |
| MathTokens.Classify | frontend/src/pages/ExerciseDetail.tsx:43-61 | '$$…$$' is block math with two characters stripped each side, otherwise '$…$' inline math with one stripped, the rest plain |
| MathTokens.UnparseClassify | frontend/src/pages/ExerciseDetail.tsx:43-61 | a classified part written back in its delimiters is the part again exactly when it is not "$", "$$" or "$$$", the three that read as empty math |
| MathTokens.UnparseRoundTrip | frontend/src/components/ContentPreview.tsx:41-61 | writing each classified part back in its delimiters reproduces the concatenated parts when none of them is "$", "$$" or "$$$" |
| MathTokens.TextRoundTrip | frontend/src/components/ContentPreview.tsx:38-63 | the segments rendered for a text, written back, give the text when no part of its split is "$", "$$" or "$$$" |
| MathTokens.RenderGuarded | frontend/src/components/ContentPreview.tsx:38-63 | empty text renders nothing; otherwise one segment per part of the split |
| MathTokens.RenderUnguarded | frontend/src/components/DualPaneEditor.tsx:16-31 | one segment per part, with no empty-text guard |
| MathTokens.EmptyEditorContent | frontend/src/components/DualPaneEditor.tsx:16-30 | empty content yields one empty plain part |
| MathTokens.LoneDollarIsEmptyInline | frontend/src/pages/ExerciseDetail.tsx:48-57 | a lone '$' part is inline math with empty content |
| MathTokens.ClassifyHome | frontend/src/components/HomeContentCard.tsx:37-40 | every part starting and ending with '$' is inline with one character stripped; there is no block case |
| MathTokens.RenderHome | frontend/src/components/HomeContentCard.tsx:35-44 | the home renderer never yields block math |
| MathTokens.HomeDoubleDollar | frontend/src/components/HomeContentCard.tsx:36-39 | '$$' is consumed as an empty inline span |
| MathTokens.HomeStopsAtNewline | frontend/src/components/HomeContentCard.tsx:36 | a line break inside '$…$' keeps it from being recognised |
| MathTokens.RenderCode | frontend/src/components/ContentEditor.tsx:182-203 | no text renders nothing; inline '$…$' is math with one character stripped, block '$$…$$' with two, anything else code |
| Truncate.TruncateText | frontend/src/lib/utils.ts:70-107 | the result is the kept body, with or without '......' after it |
| Truncate.MarkerRule | frontend/src/lib/utils.ts:70-107 | '......' is appended exactly when the text's spans overshoot a positive limit, or when the limit is negative |
| Truncate.ScanPastLimit | frontend/src/lib/utils.ts:76-100 | a scan entered short of the limit ends strictly past it exactly when the first span whose end reaches the limit ends past it and does not start on it |
| Truncate.OvershootsIff | frontend/src/lib/utils.ts:76-100 | overshooting means some span ends past the limit, does not start on it, and every earlier span ends short of it |
| Truncate.TruncateTextLoop | frontend/src/lib/utils.ts:70-107 | the loop over repeated `exec` calls computes the same string |
| Truncate.BodyShape | frontend/src/lib/utils.ts:70-106 | the result minus the marker is the prefix of length `KeptLength` of the spans (nothing for a limit of zero or less), and never ends inside a `$…$` or `$$…$$` span |
| Truncate.KeptLength | frontend/src/lib/utils.ts:76-103 | the kept length is at least the limit or the whole text if shorter, and exceeds the limit only as the end of a span that starts before the limit and ends past it |
| Truncate.ScanKeepsLength | frontend/src/lib/utils.ts:76-103 | a scan entered short of the limit keeps exactly `KeptLength` of the spans from there: the first span reaching the limit is kept whole when it starts before it, and the text is cut at the limit otherwise |
| Truncate.NoSpanPlainCut | frontend/src/lib/utils.ts:101-106 | text with no span gives its first `maxLength` characters and no marker |
| Truncate.ShortTextKept | frontend/src/lib/utils.ts:70-107 | a text no longer than the limit comes back whole |
| Truncate.MarkedThoughWhole | frontend/src/lib/utils.ts:96-106 | "$abc$" with limit 3 is kept whole and still gets '......' |
| Truncate.CutThoughUnmarked | frontend/src/lib/utils.ts:101-106 | "abcdef" with limit 4 becomes "abcd" with no marker |
| Truncate.TruncateTextCorrected | frontend/src/lib/utils.ts:70-107 | the same body, and '......' exactly when something was left out |
| Truncate.HomePreview | frontend/src/components/HomeContentCard.tsx:69 | the preview of `truncateText` as written: a content of at most 150 characters renders unchanged, and the preview never contains block math |
| TimeFormat.ShowNat | frontend/src/pages/ExerciseDetail.tsx:421 | `toString` gives a non-empty run of digits with no leading zero, one digit exactly below 10 |
| TimeFormat.ParseShow | frontend/src/pages/ExerciseDetail.tsx:421 | reading the printed numeral back gives the number |
| TimeFormat.Pad2 | frontend/src/pages/ExerciseDetail.tsx:421 | `padStart(2,'0')` leaves two or more characters alone and left-fills shorter ones with '0' |
| TimeFormat.ParsePad2 | frontend/src/pages/ExerciseDetail.tsx:421 | padding a numeral keeps its value |
| TimeFormat.ClockRoundTrip | frontend/src/pages/ExerciseDetail.tsx:418-422 | the timer label is digits, ':' and two digits; the minutes read back as seconds div 60 and the seconds as seconds mod 60 |
| TimeFormat.Split | frontend/src/lib/utils.ts:42-45 | the cascaded floors equal the elapsed time divided by one second, minute, hour and day |
| TimeFormat.RelativeTimeRanges | frontend/src/lib/utils.ts:47-57 | above 30 days the date; then days, hours or minutes by range; under a minute, future dates included, 'just now' |
| TimeFormat.AgoIsWholeUnits | frontend/src/lib/utils.ts:47-55 | "N units ago" means at least N and fewer than N+1 whole units have elapsed |
| TimeFormat.AgoInjective | frontend/src/lib/utils.ts:49-54 | different counts or units never print the same label |
| TimeFormat.TimeSinceRanges | frontend/src/components/CommentSection.tsx:448-462 | days if at least one day, else hours, else minutes, else seconds; a future date gives a negative count |
| TimeFormat.LabelsAgreeOnDays | frontend/src/components/CommentSection.tsx:448-462 | between one and thirty days both labels count the same whole days |
| Selection.RemoveAll | frontend/src/components/LessonsFilters.tsx:121-123 | every occurrence of the value is gone and every other value's membership is kept |
| Selection.Toggle | frontend/src/components/Filters.tsx:104-110 | membership flips: an absent value is appended once, a present one removed everywhere |
| Selection.ToggleTwiceFromAbsent | frontend/src/components/Filters.tsx:104-110 | toggling an absent value twice gives the list back |
| Selection.ToggleTwiceFromPresent | frontend/src/components/Filters.tsx:104-110 | toggling a present value twice leaves it once, at the end |
| LessonsFilters.ToggleFilter | frontend/src/components/LessonsFilters.tsx:118-128 | the value's membership flips in one category, by removing every occurrence or appending; the other categories are untouched |
| LessonsFilters.ToggleFilterCount | frontend/src/components/LessonsFilters.tsx:235-237 | selecting raises the active count by one and deselecting lowers it |
| LessonsFilters.ClearAll | frontend/src/components/LessonsFilters.tsx:239-245 | after clearing nothing is selected and the count is 0 |
| LessonsFilters.CountZeroIffCleared | frontend/src/components/LessonsFilters.tsx:235-245 | the count is 0 exactly for the cleared selection |
| LessonsFilters.ChapterReset | frontend/src/components/LessonsFilters.tsx:61-71 | chapters stay selected only when class levels and subjects are both non-empty |
| LessonsFilters.DeselectLastDropsChapters | frontend/src/components/LessonsFilters.tsx:61-71 | deselecting the last class level or subject drops every chapter |
| LessonsFilters.FilterName | frontend/src/components/LessonsFilters.tsx:130-136 | the first matching item's name, else the id itself |
| LessonsFilters.FirstOccurrencesSpec | frontend/src/components/LessonsFilters.tsx:86-88 | the first-occurrence ids are distinct and are exactly the input's ids |
| LessonsFilters.UniqueById | frontend/src/components/LessonsFilters.tsx:86-88 | unique ids, the same id set as the input, first-occurrence order, and the last occurrence's item for each id |
| Filters.HandleFilterChange | frontend/src/components/Filters.tsx:85-94 | an empty class level, subject or tag list is emitted as absent, everything else as is |
| Filters.EmitRestores | frontend/src/components/Filters.tsx:85-94 | the emitted filters determine the bar they came from |
| Filters.ClearFilters | frontend/src/components/Filters.tsx:96-102 | all four fields reset and `{}` emitted |
| Filters.ClearedBarEmitsNothing | frontend/src/components/Filters.tsx:85-102 | the cleared bar emits exactly `{}` |
| Filters.ToggleTag | frontend/src/components/Filters.tsx:104-110 | the tag's membership flips and nothing else changes |
| Filters.SelectionEffect | frontend/src/components/Filters.tsx:38-45 | tags are cleared whenever class level or subject is empty, and kept only while both are set and no chapters loaded |
| Filters.ClassLevelEffect | frontend/src/components/Filters.tsx:32-36 | an empty class level reloads all subjects, which resets the subject |
| Filters.LoadSubjects | frontend/src/components/Filters.tsx:59-70 | a successful load resets the chosen subject to ''; a failed one changes nothing |
| Filters.ClearingClassLevelDropsTags | frontend/src/components/Filters.tsx:32-45 | clearing the class level ends with no tags selected |
| ContentEditor.HandleSubmit | frontend/src/components/ContentEditor.tsx:147-180 | a missing class level or subject or no tag is refused first, then a title or content made only of JavaScript `trim` whitespace (U+FEFF and the line terminators included); otherwise the payload carries the form, with the solution exactly when the type is 'exercise' |
| ContentEditor.BlankTextRejected | frontend/src/components/ContentEditor.tsx:155-158 | once the selection is complete, a title or content is refused exactly when `trim` empties it, that is when every character is JavaScript whitespace or a line terminator |
| ContentEditor.ToggleTag | frontend/src/components/ContentEditor.tsx:355-361 | the tag's membership flips and nothing else in the form changes |
| ContentEditor.ClassLevelEffect | frontend/src/components/ContentEditor.tsx:60-107 | without a class level the subject is cleared (lines 60-67); when editing, an unset subject takes the first subject `loadSubjects` returns (lines 104-107) |
| ContentEditor.LoadClassLevels | frontend/src/components/ContentEditor.tsx:78-88 | when editing, a class level unset at mount takes the first loaded one, overriding the current one; nothing else changes |
| ContentEditor.EditingLosesTags | frontend/src/components/ContentEditor.tsx:55-107 | editing an item with neither class level nor subject, with the effects run on mount, after the class-level fill and after the subject fill: the form ends with the first loaded class level and subject but no tags, so submitting is refused for its selection |
| ContentEditor.EditingWithSelectionKeepsTags | frontend/src/components/ContentEditor.tsx:55-107 | editing an item that has a class level and a subject: the mount effects and the loads leave the form, tags included, as it was |
| ContentEditor.SelectionEffect | frontend/src/components/ContentEditor.tsx:69-76 | without both class level and subject the tags are cleared; with both nothing changes |
| ContentEditor.ClearedClassLevelBlocksSubmit | frontend/src/components/ContentEditor.tsx:60-76 | after clearing the class level the form cannot be submitted |
| ContentCards.DifficultyLabel | frontend/src/components/ContentPreview.tsx:79-90 | easy, medium and hard become Facile, Moyen and Difficile; anything else is returned unchanged |
| ContentCards.DifficultyColor | frontend/src/components/ContentPreview.tsx:66-77 | the grey default exactly for unknown levels |
| ContentCards.ColorDefaultIffRawLabel | frontend/src/components/ContentPreview.tsx:66-90 | colour and label agree on which levels are known |
| ContentCards.ChapterStrip | frontend/src/components/HomeContentCard.tsx:73-86 | at most two chapters shown; '+N more' exactly when there are more than two, with N the rest |
| Accounts.Get | backend/users/views.py:44-48 | `get` finds no row, the single matching row, or several (an uncaught error) |
| Accounts.Login | backend/users/views.py:33-64 | a missing identifier or password is 400; '@' selects the e-mail lookup; an unknown user or a wrong password is 401; several matches is 500; 200 exactly when one account matches and the password is accepted, with that account as the user; no other status |
| Accounts.UnknownUserLooksLikeWrongPassword | backend/users/views.py:49-61 | an unknown identifier and a wrong password give the same response |
| Accounts.Register | backend/users/views.py:73-103 | a missing field is 400; the username as given is checked before the e-mail as given; a username that collides only after NFKC normalisation hits the unique column (500); otherwise one account is added holding the normalised username and e-mail, and usernames stay unique |
| Accounts.NormalizeEmail | backend/users/views.py:96-100 | an address without '@' is stored as given; otherwise stripped, with the part after its last '@' lower-cased |
| Accounts.NormalizeEmailParts | backend/users/views.py:96-100 | a stripped address keeps its local part and has its domain lower-cased |
| Accounts.LastAtSeparates | backend/users/views.py:96-100 | when the domain holds no '@', the last '@' of `name@domain` is the one right after the local part |
| Common.TrimKeeps | backend/users/views.py:96-100 | stripping a text that starts and ends with a non-space character leaves it unchanged |
| Accounts.RegisteredAccountResolves | backend/users/views.py:73-103 | right after registering, the normalised username finds the new account; the normalised e-mail finds it too unless an older account already holds that address, in which case the lookup finds both |
| Accounts.DomainCaseDuplicatesEmail | backend/users/views.py:90-100 | "a@X" passes the check against a stored "a@x", is stored as "a@x", and logging in with "a@x" then answers 500 |
| Accounts.NormalisedUsernameCollides | backend/users/views.py:84-100 | the ligature U+FB01 passes the check against a stored "fi" and then fails on the unique column with 500 |
| Accounts.GetOrCreate | backend/users/views.py:169-172 | the existing row for (user, content) is reused, otherwise one is appended |
| Accounts.MarkViewed | backend/users/views.py:166-179 | unknown content is 404; otherwise the view count goes up by one and at most one history row per (user, content) is kept |
| Accounts.ViewTwice | backend/users/views.py:166-179 | viewing twice adds two views and keeps one history row |
| Accounts.UniqueMeansOneRow | backend/users/views.py:169-172 | a unique history holds at most one row per (user, content) |
| Accounts.MarkCompleted | backend/users/views.py:184-198 | unknown content is 404; otherwise the row for (user, content) is completed and nothing else changes |
| Accounts.CompleteIdempotent | backend/users/views.py:184-198 | completing twice is completing once |
| Accounts.ReputationAtMostTotal | backend/users/views.py:219-225 | reputation counts only UP rows on the user's exercises and never exceeds `totalUpvotes`, with equality exactly when every such row is UP |
| Accounts.CountsIgnoreOtherTargets | backend/users/views.py:140-142 | rows on other users' exercises change neither count |
| Accounts.CompletedOfKind | backend/users/views.py:130-139 | the completed count of a kind never exceeds the number of history rows |
| Accounts.CompletedAfterMark | backend/users/views.py:184-198 | marking content completed raises the user's count for its type by exactly one when its row was not completed yet, and leaves every other count unchanged (the counts of `get_user_stats`, lines 130-139) |
| ExerciseStore.InsertClassLevel | backend/exercises/models.py:6 | a class-level insert fails exactly on a taken order |
| ExerciseStore.InsertChapter | backend/exercises/models.py:21-29 | a chapter insert fails exactly on a taken (subject, order) |
| ExerciseStore.SameOrderInOtherSubject | backend/exercises/models.py:29 | two subjects may use the same order |
| ExerciseStore.SolutionOf | backend/exercises/models.py:55 | the exercise's solution position, or None when it has none |
| ExerciseStore.SetFields | backend/exercises/serializers.py:157-158 | each given title, content, difficulty or subject takes the given value and each absent one keeps its value; author, chapters and class levels are never assigned here |
| ExerciseStore.SetFieldsThen | backend/exercises/serializers.py:157-158 | two updates in a row equal one with the later fields winning, so repeating an update changes nothing more |
| ExerciseStore.CreateExercise | backend/exercises/serializers.py:129-149 | a new exercise by the requesting user; a solution exactly when the solution content is non-empty, authored by the exercise's author; existing solutions are kept in place and every other exercise's solution is unchanged; the store stays valid |
| ExerciseStore.AppendedSolutionKeepsOthers | backend/exercises/serializers.py:144-149 | adding the solution of one exercise leaves the solution found for any other exercise as it was |
| ExerciseStore.UpdateExercise | backend/exercises/serializers.py:151-175 | given scalar fields are set and absent ones kept; omitted chapters or class levels are unchanged; with solution content exactly one solution carries it; other exercises and their solutions are untouched |
| ExerciseStore.SolutionUpdateKeepsOne | backend/exercises/serializers.py:161-172 | two solution updates leave one solution, with the later content |

## Left out

- Network, sessions, CSRF and password hashing: `authenticate` is a parameter, so a correct password is whatever it accepts.
- Rendering: JSX, KaTeX and TipTap output are not modelled; only the delimiter decisions are.
- Clocks and locales: elapsed time is an integer input and `formatDate` is a string parameter of `TimeFormat.RelativeTime`.
- Asynchronous loads: success or failure is a boolean or optional parameter of the effect functions; loading flags and error messages are not modelled.
- `getFilterName` capitalises the id when the category is not one of the three; the panel only ever calls it with the three, so that branch is not modelled.
- `handleInputChange` of the dual-pane editor assigns the textarea value verbatim and holds no logic to model.
- The difficulty helpers duplicated inside the exercise page and the home card are the same mappings as `ContentCards`.
- `level_progress` in the user model uses floating-point division and is not modelled.
- Concurrency: the vote endpoints take no locks; uniqueness constraints are state invariants, not race handling.
- The three vote representations (user sets, per-kind string tables, the signed generic ledger) are modelled each on its own terms and not reconciled.
- Accounts.Login: a `MultipleObjectsReturned` is modelled as status 500, the error an uncaught exception produces.
- Content types are strings ('exercise', 'course'); queryset building and ordering of the list endpoints are not modelled.
- ExerciseStore: many-to-many relations are sets of ids, and the database round trip of `save()` is not modelled.
- CommentTree.Replace: its contract fixes the length, each position's id and the set of ids that can appear; that the other nodes' fields stay unchanged is stated through ReplaceThenRemove and ReplaceAbsent rather than node by node.
- Whitespace: Python's `str.isspace` and JavaScript's `trim` are modelled as the fixed character sets those languages define, `Common.IsPythonSpace` and `Common.IsJsWhiteSpace`. The Unicode database is not modelled beyond them.
- Accounts.Register: `normalize_username` (NFKC) and Python's `str.lower` on the e-mail domain are function parameters; the Unicode tables they apply are not modelled.
- Accounts.Register: database lookups compare strings exactly, as a case-sensitive collation does.
- CommentServer.CommentEndpoint: which of 401 and 403 the framework sends is a parameter; it depends on the authentication classes configured.
- String lengths: JavaScript strings count UTF-16 code units, while Dafny strings here count code points. For text outside the Basic Multilingual Plane, `JsSlice`, the `Truncate` members, `CommentSection.HandleMention` and `CommentSection.MentionTrigger` count and cut differently. So does `TimeFormat.Pad2`.
- In-place mutation: `removeCommentFromTree` in ExerciseDetail.tsx:321 assigns the pruned replies into the existing comment objects. `CommentTree.Remove` returns a new forest, so sharing of those objects with other state is not modelled.
- CommentSection.FilteredUsers: `toLowerCase` is modelled on the Basic Latin and Latin-1 capitals only. Other scripts (Latin Extended, Greek, Cyrillic) are not folded, and special cases such as U+0130, which lower-cases to two characters, are not modelled.
- CommentServer.Serialize: `Json` holds the id, the author's id, the content and the replies. The serializer also sends `created_at` (a clock value), the nested author object (id, username, e-mail), `vote_count` and `user_vote`; the last two are modelled by `VoteLedger.SerializedVoteCount` and `VoteLedger.SerializedUserVote`.
- `ExerciseSerializer.update` (serializers.py:100-110) is not modelled as its own member. Its `difficulty` field has `source='get_difficulty_display'`, so the validated value never reaches the difficulty column, and `subject`, `chapters` and `class_levels` are read-only. It therefore behaves as `ExerciseStore.UpdateExercise` with only title and content given and no links or solution.
- Comment order: the comment table has no declared ordering, and `replies.all()` and the exercise's comment list come back in the database's unspecified order. `CommentServer.Serialize` and `CommentServer.ExerciseComments` list comments in increasing key order, which is one admissible order.

## Findings

| source | as written | input that shows it | evidently intended | confidence | as-written member | corrected member |
|---|---|---|---|---|---|---|
| frontend/src/lib/utils.ts:96-106 | '......' is appended when the scan position passes the limit, which happens when a math span runs past it even if the span ends the text; plain text longer than the limit is cut without it | "$abc$" with limit 3 gives "$abc$......" although nothing is left out; "abcdef" with limit 4 gives "abcd" with no marker | '......' exactly when part of the text was left out | not executed; medium | Truncate.TruncateText, Truncate.MarkedThoughWhole, Truncate.CutThoughUnmarked | Truncate.TruncateTextCorrected |

=== FILE: accounts.dfy ===
/** The account endpoints: login and registration decisions, the view
    history that viewing and completing an exercise update, and the counts
    shown on a profile. User rows are a sequence indexed by user id;
    password checking is an oracle `authenticate(username, password)`. */
module Accounts {
  import opened Common
  import opened VoteLedger

  const Ok: int := 200
  const BadRequest: int := 400
  const Unauthorized: int := 401
  const NotFound: int := 404
  const ServerError: int := 500

  datatype Account = Account(username: string, email: string)

  /** Python truthiness of a request field: absent and "" are both missing. */
  predicate Missing(v: Option<string>) {
    v.None? || v.value == ""
  }

  /** The field a lookup compares. */
  function Field(a: Account, byEmail: bool): string {
    if byEmail then a.email else a.username
  }

  /** The ids of the accounts whose field equals `key`, in increasing order. */
  function MatchesFrom(users: seq<Account>, byEmail: bool, key: string, from: nat): (r: seq<nat>)
    requires from <= |users|
    ensures forall k :: k in r <==> from <= k < |users| && Field(users[k], byEmail) == key
    ensures forall k :: 0 <= k < |r| ==> from <= r[k]
    ensures forall a, b :: 0 <= a < b < |r| ==> r[a] < r[b]
    decreases |users| - from
  {
    if from == |users| then []
    else
      var rest := MatchesFrom(users, byEmail, key, from + 1);
      if Field(users[from], byEmail) == key then [from] + rest else rest
  }

  predicate TwoMatches(users: seq<Account>, byEmail: bool, key: string) {
    exists a, b :: 0 <= a < b < |users| && Field(users[a], byEmail) == key && Field(users[b], byEmail) == key
  }

  datatype Lookup = NoMatch | One(id: nat) | Several

  /** `User.objects.get(field=key)`: DoesNotExist, the one row, or
      MultipleObjectsReturned. */
  function Get(users: seq<Account>, byEmail: bool, key: string): (r: Lookup)
    ensures r == NoMatch <==> forall k :: 0 <= k < |users| ==> Field(users[k], byEmail) != key
    ensures r.One? ==> (r.id < |users| && Field(users[r.id], byEmail) == key &&
      forall k :: 0 <= k < |users| && Field(users[k], byEmail) == key ==> k == r.id)
    ensures r == Several <==> TwoMatches(users, byEmail, key)
  {
    var m := MatchesFrom(users, byEmail, key, 0);
    assert |m| > 0 ==> m[0] in m;
    if |m| == 0 then NoMatch
    else if |m| == 1 then One(m[0])
    else
      assert m[0] in m && m[1] in m;
      Several
  }

  // ---------------------------------------------------------------------
  // Login

  const CredentialsError: string := "Invalid credentials"

  datatype LoginResult = LoginResult(status: int, error: string, user: Option<nat>)

  /** `LoginView.post`. An identifier with '@' is looked up by e-mail, any
      other by username; an unknown identifier and a refused password give
      the same answer. Several accounts sharing the e-mail make the lookup
      raise, which no handler catches. */
  function Login(users: seq<Account>, identifier: Option<string>, password: Option<string>,
                 authenticate: (string, string) -> bool): (r: LoginResult)
    ensures r.status == BadRequest <==> Missing(identifier) || Missing(password)
    ensures r.status == Ok ==> (r.user.Some? && r.user.value < |users| &&
      Get(users, '@' in identifier.value, identifier.value) == One(r.user.value) &&
      authenticate(users[r.user.value].username, password.value))
    ensures r.status == Ok <==> (!Missing(identifier) && !Missing(password) &&
      var found := Get(users, '@' in identifier.value, identifier.value);
      found.One? && authenticate(users[found.id].username, password.value))
    ensures r.status in {Ok, BadRequest, Unauthorized, ServerError}
    ensures r.status != Ok ==> r.user.None?
    ensures r.status == Unauthorized ==> r.error == CredentialsError
    ensures r.status == Unauthorized <==> (!Missing(identifier) && !Missing(password) &&
      var found := Get(users, '@' in identifier.value, identifier.value);
      found == NoMatch || (found.One? && !authenticate(users[found.id].username, password.value)))
    ensures r.status == ServerError <==> (!Missing(identifier) && !Missing(password) &&
      Get(users, '@' in identifier.value, identifier.value) == Several)
  {
    if Missing(identifier) || Missing(password) then
      LoginResult(BadRequest, "Please provide email/username and password", None)
    else
      var id := identifier.value;
      match Get(users, '@' in id, id)
      case NoMatch => LoginResult(Unauthorized, CredentialsError, None)
      case Several => LoginResult(ServerError, "", None)
      case One(u) =>
        if authenticate(users[u].username, password.value) then LoginResult(Ok, "", Some(u))
        else LoginResult(Unauthorized, CredentialsError, None)
  }

  /** A caller cannot tell an unknown identifier from a wrong password. */
  lemma UnknownUserLooksLikeWrongPassword(users: seq<Account>, unknown: string, known: string,
                                         password: string, authenticate: (string, string) -> bool)
    requires unknown != "" && known != "" && password != ""
    requires Get(users, '@' in unknown, unknown) == NoMatch
    requires var f := Get(users, '@' in known, known);
      f.One? && !authenticate(users[f.id].username, password)
    ensures Login(users, Some(unknown), Some(password), authenticate) ==
            Login(users, Some(known), Some(password), authenticate)
  {
  }

  // ---------------------------------------------------------------------
  // Registration

  datatype RegisterResult = RegisterResult(status: int, error: string, users: seq<Account>)

  /** The `username` column is unique; the `email` column is not. */
  predicate UsernamesUnique(users: seq<Account>) {
    forall a, b :: 0 <= a < b < |users| ==> users[a].username != users[b].username
  }

  predicate Taken(users: seq<Account>, byEmail: bool, key: string) {
    exists k :: 0 <= k < |users| && Field(users[k], byEmail) == key
  }

  /** The last position of `c` in `s`, if any. */
  function LastIndexOf(s: string, c: char): (r: Option<nat>)
    ensures r.None? <==> c !in s
    ensures r.Some? ==> r.value < |s| && s[r.value] == c && c !in s[r.value + 1..]
  {
    if s == [] then None
    else if s[|s| - 1] == c then
      assert s[|s|..] == [];
      Some(|s| - 1)
    else
      var r := LastIndexOf(s[..|s| - 1], c);
      assert r.Some? ==> s[r.value + 1..] == s[..|s| - 1][r.value + 1..] + [s[|s| - 1]];
      r
  }

  /** `normalize_email`: the address is stripped and split at its last
      '@'; when there is one, the part after it is lower-cased by `lower`
      (Python's `str.lower`), and otherwise the address is kept as given,
      unstripped. */
  function NormalizeEmail(email: string, lower: string -> string): (r: string)
    ensures '@' !in email ==> r == email
    ensures '@' in Trim(PythonSpace, email) ==> var t := Trim(PythonSpace, email);
      exists i :: 0 <= i < |t| && t[i] == '@' && '@' !in t[i + 1..] &&
                  r == t[..i] + "@" + lower(t[i + 1..])
  {
    var t := Trim(PythonSpace, email);
    assert '@' in t ==> '@' in email by {
      if '@' in t { TrimWithin(PythonSpace, email, '@'); }
    }
    match LastIndexOf(t, '@')
    case None => email
    case Some(i) => t[..i] + "@" + lower(t[i + 1..])
  }

  /** Trimming only removes characters. */
  lemma TrimWithin(sp: Spaces, s: string, c: char)
    requires c in Trim(sp, s)
    ensures c in s
  {
    var t1 := TrimStart(sp, s);
    var t := Trim(sp, s);
    var j :| 0 <= j < |t| && t[j] == c;
    assert t1[j] == c;
    assert s[|s| - |t1| + j] == c;
  }

  /** An address already stripped, with a local part and a domain, keeps
      its local part and has its domain lower-cased. */
  lemma NormalizeEmailParts(name: string, domain: string, lower: string -> string)
    requires '@' !in domain
    requires name != [] && !IsWhitespace(PythonSpace, name[0])
    requires domain != [] && !IsWhitespace(PythonSpace, domain[|domain| - 1])
    ensures NormalizeEmail(name + "@" + domain, lower) == name + "@" + lower(domain)
  {
    var e := name + "@" + domain;
    assert e[0] == name[0] && e[|e| - 1] == domain[|domain| - 1];
    TrimKeeps(PythonSpace, e);
    LastAtSeparates(name, domain);
    assert e[|name| + 1..] == domain;
    assert e[..|name|] == name;
  }

  /** With no '@' in the domain, the last '@' is the one after the local
      part. */
  lemma LastAtSeparates(name: string, domain: string)
    requires '@' !in domain
    ensures LastIndexOf(name + "@" + domain, '@') == Some(|name|)
  {
    var e := name + "@" + domain;
    assert e[|name|] == '@';
    var i := LastIndexOf(e, '@').value;
    assert e[|name| + 1..] == domain;
  }

  /** `RegisterView.post`: the missing-field check, then the username as
      given, then the e-mail as given; then `create_user` stores the
      username through `nfkc` (`normalize_username`) and the e-mail through
      `NormalizeEmail`. A stored username equal to the normalised one
      violates the unique column and the insert raises (500); no such
      constraint guards the e-mail. */
  function Register(users: seq<Account>, username: Option<string>, email: Option<string>,
                    password: Option<string>, nfkc: string -> string,
                    lower: string -> string): (r: RegisterResult)
    ensures r.status != Ok ==> (r.status == BadRequest || r.status == ServerError) && r.users == users
    ensures Missing(username) || Missing(email) || Missing(password) ==>
      r.status == BadRequest && r.error == "Please provide all required fields"
    ensures !(Missing(username) || Missing(email) || Missing(password)) ==>
      (r.error == "Username already exists" <==> Taken(users, false, username.value)) &&
      (r.error == "Email already exists" <==>
        !Taken(users, false, username.value) && Taken(users, true, email.value))
    ensures r.status == ServerError <==>
      !(Missing(username) || Missing(email) || Missing(password)) &&
      !Taken(users, false, username.value) && !Taken(users, true, email.value) &&
      Taken(users, false, nfkc(username.value))
    ensures r.status == Ok <==>
      !(Missing(username) || Missing(email) || Missing(password)) &&
      !Taken(users, false, username.value) && !Taken(users, true, email.value) &&
      !Taken(users, false, nfkc(username.value))
    ensures r.status == Ok ==>
      r.users == users + [Account(nfkc(username.value), NormalizeEmail(email.value, lower))]
    ensures UsernamesUnique(users) ==> UsernamesUnique(r.users)
  {
    if Missing(username) || Missing(email) || Missing(password) then
      RegisterResult(BadRequest, "Please provide all required fields", users)
    else if Taken(users, false, username.value) then
      RegisterResult(BadRequest, "Username already exists", users)
    else if Taken(users, true, email.value) then
      RegisterResult(BadRequest, "Email already exists", users)
    else
      var u := nfkc(username.value);
      if Taken(users, false, u) then RegisterResult(ServerError, "", users)
      else RegisterResult(Ok, "", users + [Account(u, NormalizeEmail(email.value, lower))])
  }

  /** Right after registering, the normalised username looks up the new
      account; the normalised e-mail does too unless an older account
      already holds that address, in which case the lookup finds both. A
      username containing '@' would be looked up as an e-mail at login,
      however. */
  lemma RegisteredAccountResolves(users: seq<Account>, username: string, email: string, password: string,
                                  nfkc: string -> string, lower: string -> string)
    requires Register(users, Some(username), Some(email), Some(password), nfkc, lower).status == Ok
    ensures var after := Register(users, Some(username), Some(email), Some(password), nfkc, lower).users;
      var e := NormalizeEmail(email, lower);
      Get(after, false, nfkc(username)) == One(|users|) &&
      Get(after, true, e) == (if Taken(users, true, e) then Several else One(|users|))
  {
    var after := Register(users, Some(username), Some(email), Some(password), nfkc, lower).users;
    var e := NormalizeEmail(email, lower);
    assert after[|users|] == Account(nfkc(username), e);
    assert forall k :: 0 <= k < |users| ==> after[k] == users[k];
    if Taken(users, true, e) {
      var k :| 0 <= k < |users| && users[k].email == e;
      assert TwoMatches(after, true, e) by {
        assert after[k].email == e && after[|users|].email == e;
      }
    }
  }

  /** An address that differs from a stored one only in the case of its
      domain passes the e-mail check and is stored as the same address;
      logging in with it then finds two accounts and fails with 500. */
  lemma DomainCaseDuplicatesEmail(lower: string -> string, nfkc: string -> string, authenticate: (string, string) -> bool)
    requires lower("X") == "x" && nfkc("al") == "al"
    ensures var users := [Account("bob", "a@x")];
      var reg := Register(users, Some("al"), Some("a@X"), Some("pw"), nfkc, lower);
      reg.status == Ok && reg.users == users + [Account("al", "a@x")] &&
      Login(reg.users, Some("a@x"), Some("pw"), authenticate).status == ServerError
  {
    DomainCaseRegisters(lower, nfkc);
    SharedEmailLoginFails(authenticate);
  }

  lemma DomainCaseRegisters(lower: string -> string, nfkc: string -> string)
    requires lower("X") == "x" && nfkc("al") == "al"
    ensures var users := [Account("bob", "a@x")];
      var reg := Register(users, Some("al"), Some("a@X"), Some("pw"), nfkc, lower);
      reg.status == Ok && reg.users == users + [Account("al", "a@x")]
  {
    var users := [Account("bob", "a@x")];
    assert !Taken(users, false, "al") by { assert |users[0].username| != |"al"|; }
    assert !Taken(users, true, "a@X") by { assert users[0].email[2] != "a@X"[2]; }
    assert !Missing(Some("al")) && !Missing(Some("a@X")) && !Missing(Some("pw"));
    var reg := Register(users, Some("al"), Some("a@X"), Some("pw"), nfkc, lower);
    assert reg.status == Ok;
    UpperDomainNormalised(lower);
  }

  lemma UpperDomainNormalised(lower: string -> string)
    requires lower("X") == "x"
    ensures NormalizeEmail("a@X", lower) == "a@x"
  {
    NormalizeEmailParts("a", "X", lower);
    assert "a" + "@" + "X" == "a@X";
    assert "a" + "@" + "x" == "a@x";
  }

  /** Two accounts with one address: logging in with it raises. */
  lemma SharedEmailLoginFails(authenticate: (string, string) -> bool)
    ensures var users := [Account("bob", "a@x"), Account("al", "a@x")];
      Login(users, Some("a@x"), Some("pw"), authenticate).status == ServerError
  {
    var users := [Account("bob", "a@x"), Account("al", "a@x")];
    assert '@' == "a@x"[1];
    assert TwoMatches(users, true, "a@x") by {
      assert users[0].email == "a@x" && users[1].email == "a@x";
    }
  }

  /** A username that only matches a stored one after NFKC normalisation
      passes the username check, and the insert then fails. */
  lemma NormalisedUsernameCollides(lower: string -> string, nfkc: string -> string)
    requires nfkc("\U{FB01}") == "fi"
    ensures Register([Account("fi", "x@y")], Some("\U{FB01}"), Some("z@w"), Some("pw"), nfkc, lower).status
            == ServerError
  {
    var users := [Account("fi", "x@y")];
    assert !Taken(users, false, "\U{FB01}") by { assert |users[0].username| != |"\U{FB01}"|; }
    assert !Taken(users, true, "z@w") by { assert users[0].email[0] != "z@w"[0]; }
    assert users[0].username == nfkc("\U{FB01}");
  }

  // ---------------------------------------------------------------------
  // View history

  /** An exercise row: its type ('exercise' or 'course') and view counter. */
  datatype Content = Content(kind: string, viewCount: int)

  /** A `ViewHistory` row. */
  datatype History = History(user: UserId, content: nat, completed: bool)

  datatype Site = Site(contents: map<nat, Content>, history: seq<History>)

  /** `unique_together = ['user', 'content']`. */
  predicate HistoryUnique(h: seq<History>) {
    forall i, j :: 0 <= i < j < |h| ==> (h[i].user, h[i].content) != (h[j].user, h[j].content)
  }

  function RowsFor(h: seq<History>, u: UserId, c: nat): (r: nat)
    ensures r <= |h|
  {
    if h == [] then 0
    else RowsFor(h[..|h| - 1], u, c) + (if h[|h| - 1].user == u && h[|h| - 1].content == c then 1 else 0)
  }

  /** The position of the row for (u, c), if there is one. */
  function FindRow(h: seq<History>, u: UserId, c: nat): (r: Option<nat>)
    ensures r.Some? ==> r.value < |h| && h[r.value].user == u && h[r.value].content == c
    ensures r.None? ==> forall i :: 0 <= i < |h| ==> !(h[i].user == u && h[i].content == c)
  {
    if h == [] then None
    else if h[|h| - 1].user == u && h[|h| - 1].content == c then Some(|h| - 1)
    else FindRow(h[..|h| - 1], u, c)
  }

  /** `get_or_create`: the existing row's position, or a new row (not
      completed) appended at the end. */
  function GetOrCreate(h: seq<History>, u: UserId, c: nat): (r: (seq<History>, nat))
    ensures r.1 < |r.0| && r.0[r.1].user == u && r.0[r.1].content == c
    ensures FindRow(h, u, c).Some? ==> r.0 == h
    ensures FindRow(h, u, c).None? ==> r.0 == h + [History(u, c, false)]
    ensures HistoryUnique(h) ==> HistoryUnique(r.0)
  {
    match FindRow(h, u, c)
    case Some(i) => (h, i)
    case None => (h + [History(u, c, false)], |h|)
  }

  datatype Reply = Reply(status: int, site: Site)

  /** `mark_content_viewed`: 404 for an unknown exercise; otherwise a
      history row exists afterwards and the exercise's counter goes up by
      one, on every call. */
  function MarkViewed(s: Site, u: UserId, c: nat): (r: Reply)
    ensures c !in s.contents ==> r == Reply(NotFound, s)
    ensures c in s.contents ==> (r.status == Ok &&
      r.site.contents == s.contents[c := s.contents[c].(viewCount := s.contents[c].viewCount + 1)] &&
      FindRow(r.site.history, u, c).Some? &&
      (FindRow(s.history, u, c).Some? ==> r.site.history == s.history) &&
      (FindRow(s.history, u, c).None? ==> r.site.history == s.history + [History(u, c, false)]))
    ensures HistoryUnique(s.history) ==> HistoryUnique(r.site.history)
  {
    if c !in s.contents then Reply(NotFound, s)
    else
      var h := GetOrCreate(s.history, u, c).0;
      var prev := s.contents[c];
      FindRowOfCreated(s.history, u, c);
      Reply(Ok, Site(s.contents[c := prev.(viewCount := prev.viewCount + 1)], h))
  }

  lemma FindRowOfCreated(h: seq<History>, u: UserId, c: nat)
    ensures FindRow(GetOrCreate(h, u, c).0, u, c).Some?
  {
    var h' := GetOrCreate(h, u, c).0;
    if FindRow(h, u, c).None? {
      assert h'[|h'| - 1] == History(u, c, false);
    }
  }

  /** Viewing twice counts two views but keeps one history row. */
  lemma ViewTwice(s: Site, u: UserId, c: nat)
    requires c in s.contents
    ensures var once := MarkViewed(s, u, c).site;
            var twice := MarkViewed(once, u, c).site;
            twice.history == once.history &&
            twice.contents[c].viewCount == s.contents[c].viewCount + 2
  {
  }

  /** A unique history holds at most one row per (user, content). */
  lemma {:induction false} UniqueMeansOneRow(h: seq<History>, u: UserId, c: nat)
    requires HistoryUnique(h)
    ensures RowsFor(h, u, c) <= 1
  {
    if h != [] {
      var init := h[..|h| - 1];
      UniqueMeansOneRow(init, u, c);
      if h[|h| - 1].user == u && h[|h| - 1].content == c && RowsFor(init, u, c) == 1 {
        RowsForFind(init, u, c);
      }
    }
  }

  lemma {:induction false} RowsForFind(h: seq<History>, u: UserId, c: nat)
    requires RowsFor(h, u, c) > 0
    ensures FindRow(h, u, c).Some?
  {
    if h[|h| - 1].user != u || h[|h| - 1].content != c {
      RowsForFind(h[..|h| - 1], u, c);
    }
  }

  /** `mark_content_completed`: 404 for an unknown exercise; otherwise the
      row for (u, c) is created if needed and marked completed. The view
      counter is not touched. */
  function MarkCompleted(s: Site, u: UserId, c: nat): (r: Reply)
    ensures c !in s.contents ==> r == Reply(NotFound, s)
    ensures c in s.contents ==> (r.status == Ok && r.site.contents == s.contents &&
      |r.site.history| == |GetOrCreate(s.history, u, c).0| &&
      var i := GetOrCreate(s.history, u, c).1;
      r.site.history[i] == History(u, c, true) &&
      forall j :: 0 <= j < |r.site.history| && j != i ==> r.site.history[j] == GetOrCreate(s.history, u, c).0[j])
  {
    if c !in s.contents then Reply(NotFound, s)
    else
      var (h, i) := GetOrCreate(s.history, u, c);
      Reply(Ok, Site(s.contents, h[i := h[i].(completed := true)]))
  }

  /** Completing twice is completing once. */
  lemma CompleteIdempotent(s: Site, u: UserId, c: nat)
    requires HistoryUnique(s.history)
    ensures MarkCompleted(MarkCompleted(s, u, c).site, u, c) == MarkCompleted(s, u, c)
  {
    if c in s.contents {
      var once := MarkCompleted(s, u, c).site;
      var (h, i) := GetOrCreate(s.history, u, c);
      FindRowUnique(once.history, u, c, i);
    }
  }

  /** In a unique history the row for (u, c) is the only one. */
  lemma FindRowUnique(h: seq<History>, u: UserId, c: nat, i: nat)
    requires HistoryUnique(h) && i < |h| && h[i].user == u && h[i].content == c
    ensures FindRow(h, u, c) == Some(i)
  {
  }

  // ---------------------------------------------------------------------
  // Profile counts

  predicate OnAuthored(r: VoteRow, authored: set<nat>) {
    r.target.kind == ExerciseKind && r.target.objectId in authored
  }

  /** `totalUpvotes`: every vote row on the user's exercises, whatever its
      value. */
  function TotalUpvotes(rows: seq<VoteRow>, authored: set<nat>): nat {
    if rows == [] then 0
    else TotalUpvotes(rows[..|rows| - 1], authored) + (if OnAuthored(rows[|rows| - 1], authored) then 1 else 0)
  }

  /** The profile's `reputation`: only the UP rows on the user's exercises. */
  function Reputation(rows: seq<VoteRow>, authored: set<nat>): nat {
    if rows == [] then 0
    else
      var last := rows[|rows| - 1];
      Reputation(rows[..|rows| - 1], authored) + (if OnAuthored(last, authored) && last.value == UP then 1 else 0)
  }

  /** Reputation never exceeds `totalUpvotes`, and the two agree exactly
      when no down or cleared vote sits on the user's exercises. */
  lemma {:induction false} ReputationAtMostTotal(rows: seq<VoteRow>, authored: set<nat>)
    ensures Reputation(rows, authored) <= TotalUpvotes(rows, authored)
    ensures Reputation(rows, authored) == TotalUpvotes(rows, authored) <==>
      forall i :: 0 <= i < |rows| && OnAuthored(rows[i], authored) ==> rows[i].value == UP
  {
    if rows != [] {
      var init := rows[..|rows| - 1];
      ReputationAtMostTotal(init, authored);
      assert forall i :: 0 <= i < |init| ==> rows[i] == init[i];
    }
  }

  /** Both counts take only the user's exercises into account. */
  lemma {:induction false} CountsIgnoreOtherTargets(rows: seq<VoteRow>, authored: set<nat>, extra: VoteRow)
    requires !OnAuthored(extra, authored)
    ensures TotalUpvotes(rows + [extra], authored) == TotalUpvotes(rows, authored)
    ensures Reputation(rows + [extra], authored) == Reputation(rows, authored)
  {
    assert (rows + [extra])[..|rows|] == rows;
  }

  /** A completed row of user u on content of the given type. */
  predicate CompletedRow(contents: map<nat, Content>, u: UserId, kind: string, r: History) {
    r.user == u && r.completed && r.content in contents && contents[r.content].kind == kind
  }

  /** `exercisesCompleted` / `lessonsCompleted`: completed history rows of
      the user whose content has the given type. */
  function CompletedOfKind(s: Site, u: UserId, kind: string): (n: nat)
    ensures n <= |s.history|
  {
    Count(s.history, (r: History) => CompletedRow(s.contents, u, kind, r))
  }

  /** The row `get_or_create` would return for (u, c) is already completed. */
  predicate AlreadyCompleted(h: seq<History>, u: UserId, c: nat) {
    FindRow(h, u, c).Some? && h[FindRow(h, u, c).value].completed
  }

  /** Marking content completed raises the user's count for the content's
      type by one when its row was not completed yet, and leaves every
      other count (other types, other users, or a row already completed)
      as it was. */
  lemma CompletedAfterMark(s: Site, u: UserId, c: nat, v: UserId, kind: string)
    ensures CompletedOfKind(MarkCompleted(s, u, c).site, v, kind) == CompletedOfKind(s, v, kind) +
      (if c in s.contents && v == u && s.contents[c].kind == kind && !AlreadyCompleted(s.history, u, c)
       then 1 else 0)
  {
    if c in s.contents {
      var p := (r: History) => CompletedRow(s.contents, v, kind, r);
      var (h, i) := GetOrCreate(s.history, u, c);
      var row := h[i].(completed := true);
      CountUpdate(h, i, row, p);
      if FindRow(s.history, u, c).None? {
        CountAppend(s.history, [History(u, c, false)], p);
        assert Count([History(u, c, false)], p) == 0;
      }
    }
  }
}

=== FILE: comment_section.dfy ===
/** The comment section's pure logic: ordering the top-level comments,
    inserting an @-mention, detecting a mention being typed, and filtering
    the mention candidates. */
module CommentSection {
  import opened Common
  import opened CommentTree

  // ---------------------------------------------------------------------
  // Sorting

  /** The three orders the section offers. */
  datatype Order = MostUpvoted | Recent | Oldest

  /** The saved option is cast without validation, so any string may come
      back from storage. */
  datatype SortOption = Known(order: Order) | Unknown(raw: string)

  function ParseOrder(s: string): (r: SortOption)
    ensures r == Known(MostUpvoted) <==> s == "mostUpvoted"
    ensures r == Known(Recent) <==> s == "recent"
    ensures r == Known(Oldest) <==> s == "oldest"
    ensures r.Unknown? ==> r.raw == s
  {
    if s == "mostUpvoted" then Known(MostUpvoted)
    else if s == "recent" then Known(Recent)
    else if s == "oldest" then Known(Oldest)
    else Unknown(s)
  }

  /** The initial option: the saved string when it is non-empty, else
      'mostUpvoted'. */
  function InitialSortOption(saved: Option<string>): (r: SortOption)
    ensures saved.None? || saved == Some("") ==> r == Known(MostUpvoted)
    ensures saved.Some? && saved.value != "" ==> r == ParseOrder(saved.value)
  {
    match saved
    case None => Known(MostUpvoted)
    case Some(s) => if s == "" then Known(MostUpvoted) else ParseOrder(s)
  }

  /** The comparator of each order, as an ascending sort key: a comparator
      `(a, b) => f(a) - f(b)` sorts by `f` ascending. */
  function Key(o: Order, n: Node): int {
    match o
    case MostUpvoted => -n.voteCount
    case Recent => -n.createdAt
    case Oldest => n.createdAt
  }

  predicate SortedBy(o: Order, xs: seq<Node>) {
    forall i, j :: 0 <= i < j < |xs| ==> Key(o, xs[i]) <= Key(o, xs[j])
  }

  /** Every key in `xs` is at least `b`. */
  predicate KeysAtLeast(o: Order, xs: seq<Node>, b: int) {
    forall i :: 0 <= i < |xs| ==> b <= Key(o, xs[i])
  }

  /** Insert `x` before the first element whose key is not smaller. */
  function Insert(o: Order, x: Node, s: seq<Node>): seq<Node> {
    if s == [] then [x]
    else if Key(o, x) <= Key(o, s[0]) then [x] + s
    else [s[0]] + Insert(o, x, s[1..])
  }

  /** Insertion adds `x` and loses nothing. */
  lemma {:induction false} InsertPermutes(o: Order, x: Node, s: seq<Node>)
    ensures multiset(Insert(o, x, s)) == multiset(s) + multiset{x}
  {
    if s != [] && Key(o, x) > Key(o, s[0]) {
      InsertPermutes(o, x, s[1..]);
      assert s == [s[0]] + s[1..];
    }
  }

  lemma {:induction false} InsertKeysAtLeast(o: Order, x: Node, s: seq<Node>, b: int)
    requires KeysAtLeast(o, s, b) && b <= Key(o, x)
    ensures KeysAtLeast(o, Insert(o, x, s), b)
  {
    if s != [] && Key(o, x) > Key(o, s[0]) {
      InsertKeysAtLeast(o, x, s[1..], b);
    }
  }

  lemma {:induction false} InsertSorted(o: Order, x: Node, s: seq<Node>)
    requires SortedBy(o, s)
    ensures SortedBy(o, Insert(o, x, s))
  {
    if s != [] && Key(o, x) > Key(o, s[0]) {
      InsertSorted(o, x, s[1..]);
      InsertKeysAtLeast(o, x, s[1..], Key(o, s[0]));
    }
  }

  /** A stable insertion sort, standing for the stable `Array.prototype.sort`. */
  function SortBy(o: Order, xs: seq<Node>): (r: seq<Node>)
    ensures multiset(r) == multiset(xs)
    ensures SortedBy(o, r)
  {
    if xs == [] then []
    else
      assert xs == [xs[0]] + xs[1..];
      var sorted := SortBy(o, xs[1..]);
      InsertSorted(o, xs[0], sorted);
      InsertPermutes(o, xs[0], sorted);
      Insert(o, xs[0], sorted)
  }

  /** `sortedComments`: a sorted copy; an unknown option leaves the copy in
      its original order. */
  function SortComments(opt: SortOption, comments: seq<Node>): (r: seq<Node>)
    ensures multiset(r) == multiset(comments)
    ensures opt.Unknown? ==> r == comments
    ensures opt == Known(MostUpvoted) ==>
      forall i, j :: 0 <= i < j < |r| ==> r[i].voteCount >= r[j].voteCount
    ensures opt == Known(Recent) ==>
      forall i, j :: 0 <= i < j < |r| ==> r[i].createdAt >= r[j].createdAt
    ensures opt == Known(Oldest) ==>
      forall i, j :: 0 <= i < j < |r| ==> r[i].createdAt <= r[j].createdAt
  {
    match opt
    case Unknown(_) => comments
    case Known(o) => SortBy(o, comments)
  }

  /** The comments that share one key value. */
  function WithKey(o: Order, xs: seq<Node>, kv: int): seq<Node> {
    if xs == [] then [] else (if Key(o, xs[0]) == kv then [xs[0]] else []) + WithKey(o, xs[1..], kv)
  }

  /** Stability: comments with equal keys keep their relative order. */
  lemma {:induction false} SortIsStable(o: Order, xs: seq<Node>, kv: int)
    ensures WithKey(o, SortBy(o, xs), kv) == WithKey(o, xs, kv)
  {
    if xs != [] {
      SortIsStable(o, xs[1..], kv);
      InsertStable(o, xs[0], SortBy(o, xs[1..]), kv);
    }
  }

  /** One step of the key filter. */
  lemma WithKeyCons(o: Order, a: Node, t: seq<Node>, kv: int)
    ensures WithKey(o, [a] + t, kv) == (if Key(o, a) == kv then [a] else []) + WithKey(o, t, kv)
  {
    assert ([a] + t)[1..] == t;
  }

  /** The comment `x` contributes to the key run `kv`. */
  function Own(o: Order, x: Node, kv: int): seq<Node> {
    if Key(o, x) == kv then [x] else []
  }

  lemma {:induction false} InsertStable(o: Order, x: Node, s: seq<Node>, kv: int)
    requires SortedBy(o, s)
    ensures WithKey(o, Insert(o, x, s), kv) == Own(o, x, kv) + WithKey(o, s, kv)
  {
    if s == [] || Key(o, x) <= Key(o, s[0]) {
      assert Insert(o, x, s) == [x] + s;
      WithKeyCons(o, x, s, kv);
    } else {
      SortedTail(o, s);
      InsertStable(o, x, s[1..], kv);
      InsertStableStep(o, x, s, kv);
    }
  }

  /** The inductive step: `x` passes over `s[0]`, whose key is smaller, so
      at most one of the two joins the run of key `kv`. */
  lemma InsertStableStep(o: Order, x: Node, s: seq<Node>, kv: int)
    requires s != [] && Key(o, x) > Key(o, s[0])
    requires WithKey(o, Insert(o, x, s[1..]), kv) == Own(o, x, kv) + WithKey(o, s[1..], kv)
    ensures WithKey(o, Insert(o, x, s), kv) == Own(o, x, kv) + WithKey(o, s, kv)
  {
    var rest := Insert(o, x, s[1..]);
    var w1 := WithKey(o, s[1..], kv);
    InsertPasses(o, x, s);
    WithKeyCons(o, s[0], rest, kv);
    if Key(o, x) == kv {
      assert Own(o, s[0], kv) == [];
      assert WithKey(o, Insert(o, x, s), kv) == WithKey(o, rest, kv);
      assert WithKey(o, s, kv) == w1;
    } else {
      assert Own(o, x, kv) == [];
      assert WithKey(o, rest, kv) == w1;
      assert WithKey(o, s, kv) == Own(o, s[0], kv) + w1;
    }
  }

  /** `x` goes past a head with a smaller key. */
  lemma InsertPasses(o: Order, x: Node, s: seq<Node>)
    requires s != [] && Key(o, x) > Key(o, s[0])
    ensures Insert(o, x, s) == [s[0]] + Insert(o, x, s[1..])
  {
  }

  lemma SortedTail(o: Order, xs: seq<Node>)
    requires SortedBy(o, xs) && xs != []
    ensures SortedBy(o, xs[1..])
    ensures xs[1..] != [] ==> Key(o, xs[0]) <= Key(o, xs[1..][0])
  {
    forall i, j | 0 <= i < j < |xs[1..]| ensures Key(o, xs[1..][i]) <= Key(o, xs[1..][j]) {
      assert xs[1..][i] == xs[i + 1] && xs[1..][j] == xs[j + 1];
    }
  }

  /** An element no larger than the head is inserted in front. */
  lemma InsertAtFront(o: Order, x: Node, s: seq<Node>)
    requires s == [] || Key(o, x) <= Key(o, s[0])
    ensures Insert(o, x, s) == [x] + s
  {
  }

  lemma SortByCons(o: Order, xs: seq<Node>)
    requires xs != []
    ensures SortBy(o, xs) == Insert(o, xs[0], SortBy(o, xs[1..]))
  {
  }

  /** Sorting the same list twice changes nothing: a sorted list is its own
      sort. */
  lemma {:induction false} SortSortedIsIdentity(o: Order, xs: seq<Node>)
    requires SortedBy(o, xs)
    ensures SortBy(o, xs) == xs
  {
    if xs != [] {
      var tail := xs[1..];
      SortedTail(o, xs);
      SortSortedIsIdentity(o, tail);
      SortByCons(o, xs);
      InsertAtFront(o, xs[0], tail);
      assert xs == [xs[0]] + tail;
    }
  }

  // ---------------------------------------------------------------------
  // Mentions

  /** `\w`: ASCII letters, digits and underscore. */
  predicate IsWordChar(c: char) {
    ('a' <= c <= 'z') || ('A' <= c <= 'Z') || ('0' <= c <= '9') || c == '_'
  }

  predicate AllWord(s: string) {
    forall i :: 0 <= i < |s| ==> IsWordChar(s[i])
  }

  /** `lastIndexOf(c)`, None standing for -1. */
  function LastIndexOf(s: string, c: char): (r: Option<nat>)
    ensures r.None? <==> c !in s
    ensures r.Some? ==> r.value < |s| && s[r.value] == c && c !in s[r.value + 1..]
  {
    if s == [] then None
    else if s[|s| - 1] == c then
      assert s[|s|..] == [];
      Some(|s| - 1)
    else
      var r := LastIndexOf(s[..|s| - 1], c);
      LastIndexOfStep(s, c, r);
      r
  }

  /** Dropping a last character other than `c` keeps where `c` last occurs. */
  lemma LastIndexOfStep(s: string, c: char, r: Option<nat>)
    requires s != [] && s[|s| - 1] != c
    requires r.Some? ==> r.value < |s| - 1 && c !in s[..|s| - 1][r.value + 1..]
    ensures c in s <==> c in s[..|s| - 1]
    ensures r.Some? ==> c !in s[r.value + 1..]
  {
    assert s == s[..|s| - 1] + [s[|s| - 1]];
    if r.Some? {
      assert s[r.value + 1..] == s[..|s| - 1][r.value + 1..] + [s[|s| - 1]];
    }
  }

  /** `substring(0, cursor)` and `substring(cursor)`: the cursor is clamped
      to the text. */
  function Before(text: string, cursor: nat): (r: string)
    ensures r == text[..if cursor <= |text| then cursor else |text|]
  {
    if cursor <= |text| then text[..cursor] else text
  }

  function After(text: string, cursor: nat): (r: string)
    ensures Before(text, cursor) + r == text
  {
    if cursor <= |text| then text[cursor..] else []
  }

  /** `handleMention`: the text before the last '@' preceding the cursor,
      then '@' + username + ' ', then the text after the cursor. With no '@'
      before the cursor the content stays as it is. */
  function HandleMention(text: string, cursor: nat, username: string): (r: string)
    ensures '@' !in Before(text, cursor) ==> r == text
    ensures '@' in Before(text, cursor) ==>
      var before := Before(text, cursor);
      var at := LastIndexOf(before, '@').value;
      r == before[..at] + "@" + username + " " + After(text, cursor) &&
      '@' !in before[at + 1..]
  {
    var before := Before(text, cursor);
    match LastIndexOf(before, '@')
    case None => text
    case Some(at) => before[..at] + "@" + username + " " + After(text, cursor)
  }

  /** The regular expression `/@(\w*)$/` on the text before the cursor: the
      captured word when the text ends in '@' and word characters. */
  function MentionTrigger(text: string, cursor: nat): (r: Option<string>)
    ensures r.Some? ==>
      var before := Before(text, cursor);
      AllWord(r.value) && |r.value| < |before| &&
      before == before[..|before| - |r.value| - 1] + "@" + r.value
  {
    var before := Before(text, cursor);
    match LastIndexOf(before, '@')
    case None => None
    case Some(at) =>
      if AllWord(before[at + 1..]) then
        assert before == before[..at] + "@" + before[at + 1..];
        Some(before[at + 1..])
      else None
  }

  /** Conversely, whenever the text before the cursor is some prefix, '@'
      and word characters, the list opens with exactly those characters as
      the filter. */
  lemma MentionTriggerComplete(text: string, cursor: nat, prefix: string, word: string)
    requires Before(text, cursor) == prefix + "@" + word && AllWord(word)
    ensures MentionTrigger(text, cursor) == Some(word)
  {
    var before := Before(text, cursor);
    assert before[|prefix|] == '@';
    var at := LastIndexOf(before, '@').value;
    assert before[at + 1..] == word;
  }

  /** Picking a user while a mention is being typed replaces '@' and the
      typed word with '@' + username + ' ', and keeps the rest. */
  lemma MentionReplacesTypedWord(text: string, cursor: nat, username: string)
    requires MentionTrigger(text, cursor).Some?
    ensures var before := Before(text, cursor);
            var word := MentionTrigger(text, cursor).value;
            HandleMention(text, cursor, username) ==
              before[..|before| - |word| - 1] + "@" + username + " " + After(text, cursor)
  {
  }

  /** A capital letter of Basic Latin or Latin-1 (U+00C0 to U+00DE
      without the multiplication sign U+00D7); its small letter is 32
      code points further on. */
  predicate IsLatinCapital(c: char) {
    'A' <= c <= 'Z' || ('\U{00C0}' <= c <= '\U{00DE}' && c != '\U{00D7}')
  }

  /** `toLowerCase` on the Basic Latin and Latin-1 capitals; every other
      character is kept. */
  function Lower(c: char): (r: char)
    ensures IsLatinCapital(c) ==> r as int == c as int + 32
    ensures !IsLatinCapital(c) ==> r == c
    ensures !IsLatinCapital(r)
  {
    if IsLatinCapital(c) then (c as int + 32) as char else c
  }

  function ToLower(s: string): (r: string)
    ensures |r| == |s|
    ensures forall i :: 0 <= i < |s| ==> r[i] == Lower(s[i])
  {
    if s == [] then [] else [Lower(s[0])] + ToLower(s[1..])
  }

  /** `s` contains `t` as a contiguous piece. */
  predicate Contains(s: string, t: string) {
    exists i :: 0 <= i <= |s| && OccursAt(s, t, i)
  }

  predicate OccursAt(s: string, t: string, i: int) {
    0 <= i && i + |t| <= |s| && s[i..i + |t|] == t
  }

  predicate Matches(username: string, filter: string) {
    Contains(ToLower(username), ToLower(filter))
  }

  /** `filteredUsers`: the users whose name contains the filter, ignoring
      case, in their original order. */
  function FilteredUsers(users: seq<Author>, filter: string): (r: seq<Author>)
    ensures forall k :: 0 <= k < |r| ==> r[k] in users && Matches(r[k].username, filter)
    ensures forall k :: 0 <= k < |users| && Matches(users[k].username, filter) ==> users[k] in r
  {
    Filter(users, (a: Author) => Matches(a.username, filter))
  }

  /** Lower-casing twice is lower-casing once. */
  lemma ToLowerIdempotent(s: string)
    ensures ToLower(ToLower(s)) == ToLower(s)
  {
  }

  /** The case of the filter does not matter. */
  lemma FilterIgnoresCase(users: seq<Author>, filter: string)
    ensures FilteredUsers(users, filter) == FilteredUsers(users, ToLower(filter))
  {
    ToLowerIdempotent(filter);
    FilterCongruent(users, (a: Author) => Matches(a.username, filter),
                    (a: Author) => Matches(a.username, ToLower(filter)));
  }

  lemma {:induction false} FilterCongruent<T>(xs: seq<T>, p: T -> bool, q: T -> bool)
    requires forall x :: p(x) == q(x)
    ensures Filter(xs, p) == Filter(xs, q)
  {
    if xs != [] {
      FilterCongruent(xs[1..], p, q);
    }
  }

  /** An accented capital in the name matches its small letter in the
      filter. */
  lemma AccentedFilterMatches()
    ensures Matches("\U{00C9}lodie", "\U{00E9}")
  {
    assert ToLower("\U{00C9}lodie")[0] == '\U{00E9}';
    assert OccursAt(ToLower("\U{00C9}lodie"), ToLower("\U{00E9}"), 0);
  }

  /** The empty filter, right after typing '@', lists every user. */
  lemma EmptyFilterListsAll(users: seq<Author>)
    ensures FilteredUsers(users, "") == users
  {
    var p := (a: Author) => Matches(a.username, "");
    forall a: Author ensures p(a) {
      assert OccursAt(ToLower(a.username), ToLower(""), 0);
    }
    FilterAll(users, p);
  }

  lemma {:induction false} FilterAll<T>(xs: seq<T>, p: T -> bool)
    requires forall x :: p(x)
    ensures Filter(xs, p) == xs
  {
    if xs != [] {
      FilterAll(xs[1..], p);
      assert xs == [xs[0]] + xs[1..];
    }
  }
}

=== FILE: comment_server.dfy ===
/** The server side of comments: the comment table, the guarded `comment`
    action that inserts into it, the cascade that deleting a comment
    triggers, and the recursive serialisation of a comment with its
    replies. */
module CommentServer {
  import opened Common
  import VoteSets

  const Created: int := 201
  const BadRequest: int := 400
  const Unauthorized: int := 401
  const Forbidden: int := 403
  const NotFound: int := 404

  /** One comment row; `parent` is the nullable self-reference. */
  datatype Row = Row(exercise: nat, author: UserId, content: string, parent: Option<nat>)

  /** The exercises that exist, the comment table by primary key, and the
      next primary key the table hands out. */
  datatype Db = Db(exercises: set<nat>, comments: map<nat, Row>, next: nat)

  /** Table invariants: keys are below `next`; a parent exists, was created
      earlier and belongs to the same exercise; every comment's exercise
      exists. */
  predicate WellFormed(db: Db) {
    forall id :: id in db.comments ==>
      id < db.next &&
      db.comments[id].exercise in db.exercises &&
      (db.comments[id].parent.Some? ==>
        var p := db.comments[id].parent.value;
        p in db.comments && p < id && db.comments[p].exercise == db.comments[id].exercise)
  }

  // ---------------------------------------------------------------------
  // The `comment` action

  /** Python truthiness of the `parent` field: absent and 0 both mean none. */
  predicate ParentGiven(parent: Option<int>) {
    parent.Some? && parent.value != 0
  }

  /** `not content or not content.strip()`, with Python's whitespace. */
  predicate ContentMissing(content: Option<string>) {
    content.None? || IsBlank(PythonSpace, content.value)
  }

  datatype Outcome = Outcome(status: int, db: Db, created: Option<nat>)

  /** `ExerciseViewSet.comment`: the exercise lookup, then authentication,
      then the content check, then the parent lookup, then the insert. */
  function CreateComment(db: Db, exercise: nat, user: Option<UserId>,
                         content: Option<string>, parent: Option<int>): (r: Outcome)
    ensures r.status != Created ==> r.db == db && r.created.None?
    ensures exercise !in db.exercises ==> r.status == NotFound
    ensures exercise in db.exercises && user.None? ==> r.status == Unauthorized
    ensures exercise in db.exercises && user.Some? && ContentMissing(content) ==>
      r.status == BadRequest
    ensures exercise in db.exercises && user.Some? && !ContentMissing(content) &&
            ParentGiven(parent) && !(parent.value >= 0 && parent.value as nat in db.comments) ==>
      r.status == NotFound
    ensures exercise in db.exercises && user.Some? && !ContentMissing(content) &&
            ParentGiven(parent) && parent.value >= 0 && parent.value as nat in db.comments &&
            db.comments[parent.value as nat].exercise != exercise ==>
      r.status == BadRequest
    ensures r.status == Created <==>
      exercise in db.exercises && user.Some? && !ContentMissing(content) &&
      (ParentGiven(parent) ==>
        parent.value >= 0 && parent.value as nat in db.comments &&
        db.comments[parent.value as nat].exercise == exercise)
    ensures r.status == Created ==>
      r.created == Some(db.next) &&
      r.db.exercises == db.exercises && r.db.next == db.next + 1 &&
      r.db.comments.Keys == db.comments.Keys + {db.next} &&
      r.db.comments[db.next] == Row(exercise, user.value, content.value,
        if ParentGiven(parent) then Some(parent.value as nat) else None)
    ensures WellFormed(db) && r.status == Created ==>
      db.next !in db.comments &&
      forall id :: id in db.comments ==> r.db.comments[id] == db.comments[id]
    ensures WellFormed(db) ==> WellFormed(r.db)
  {
    if exercise !in db.exercises then Outcome(NotFound, db, None)
    else if user.None? then Outcome(Unauthorized, db, None)
    else if ContentMissing(content) then Outcome(BadRequest, db, None)
    else if ParentGiven(parent) && !(parent.value >= 0 && parent.value as nat in db.comments) then
      Outcome(NotFound, db, None)
    else if ParentGiven(parent) && db.comments[parent.value as nat].exercise != exercise then
      Outcome(BadRequest, db, None)
    else
      var p: Option<nat> := if ParentGiven(parent) then Some(parent.value as nat) else None;
      var id := db.next;
      assert WellFormed(db) ==> id !in db.comments;
      var db' := Db(db.exercises, db.comments[id := Row(exercise, user.value, content.value, p)], id + 1);
      Outcome(Created, db', Some(id))
  }

  /** The `comment` action as a request reaches it: the view set's
      `IsAuthenticatedForWriting` runs before the handler, so an anonymous
      POST is refused with `refused` (401 or 403, as the authentication
      classes decide) before the exercise is even looked up, and the
      handler's own 401 branch never answers. */
  function CommentEndpoint(db: Db, exercise: nat, user: Option<UserId>, content: Option<string>,
                           parent: Option<int>, refused: int): (r: Outcome)
    requires refused == Unauthorized || refused == Forbidden
    ensures user.None? ==> r == Outcome(refused, db, None)
    ensures user.Some? ==> r == CreateComment(db, exercise, user, content, parent)
    ensures r.status == NotFound ==> user.Some?
    ensures r.status == Unauthorized ==> user.None? && refused == Unauthorized
  {
    VoteSets.PermissionCases(user.Some?);
    if !VoteSets.HasPermission("POST", user.Some?) then Outcome(refused, db, None)
    else CreateComment(db, exercise, user, content, parent)
  }

  // ---------------------------------------------------------------------
  // Deleting a comment

  /** `x` is `a` or lies in the reply subtree of `a`: following parents
      from `x` reaches `a`. Parents have smaller keys, so the walk stops. */
  predicate InSubtree(comments: map<nat, Row>, x: nat, a: nat)
    decreases x
  {
    x == a ||
    (x in comments && comments[x].parent.Some? && comments[x].parent.value < x &&
     InSubtree(comments, comments[x].parent.value, a))
  }

  /** The `CASCADE` on `Comment.parent`: deleting a comment deletes its whole
      reply subtree, and nothing else. */
  function DeleteCascade(db: Db, id: nat): (r: Db)
    ensures r.exercises == db.exercises && r.next == db.next
    ensures id !in r.comments
    ensures forall x :: x in r.comments <==> x in db.comments && !InSubtree(db.comments, x, id)
    ensures forall x :: x in r.comments ==> r.comments[x] == db.comments[x]
    ensures WellFormed(db) ==> WellFormed(r)
  {
    var kept := map x | x in db.comments && !InSubtree(db.comments, x, id) :: db.comments[x];
    var r := Db(db.exercises, kept, db.next);
    assert WellFormed(db) ==> WellFormed(r) by {
      if WellFormed(db) {
        forall x | x in kept && kept[x].parent.Some?
          ensures kept[x].parent.value in kept
        {
        }
      }
    }
    r
  }

  /** After the cascade no reply is left whose parent is gone. */
  lemma NoOrphansAfterDelete(db: Db, id: nat, x: nat)
    requires WellFormed(db)
    requires x in DeleteCascade(db, id).comments
    ensures var r := DeleteCascade(db, id).comments;
            r[x].parent.Some? ==> r[x].parent.value in r && r[x].parent.value != id
  {
  }

  /** The same relation declared with `PROTECT` instead refuses to delete a
      comment that still has replies (None), and deletes only that row
      otherwise. */
  function DeleteProtected(db: Db, id: nat): (r: Option<Db>)
    ensures r.None? <==> exists x :: x in db.comments && db.comments[x].parent == Some(id)
    ensures r.Some? ==> r.value.comments == db.comments - {id}
    ensures WellFormed(db) && r.Some? ==> WellFormed(r.value)
  {
    if exists x :: x in db.comments && db.comments[x].parent == Some(id) then None
    else Some(db.(comments := db.comments - {id}))
  }

  // ---------------------------------------------------------------------
  // Serialisation

  /** A serialised comment: its own fields and its replies in the same shape. */
  datatype Json = Json(id: nat, author: UserId, content: string, replies: seq<Json>)

  /** The ids of a list of serialised comments. */
  function IdsOf(js: seq<Json>): set<nat> {
    if js == [] then {} else {js[0].id} + IdsOf(js[1..])
  }

  predicate IsReplyOf(db: Db, x: nat, parent: nat) {
    x in db.comments && db.comments[x].parent == Some(parent)
  }

  /** Strictly increasing ids, hence no comment twice. */
  predicate IdsIncreasing(js: seq<Json>) {
    forall k, l :: 0 <= k < l < |js| ==> js[k].id < js[l].id
  }

  /** `CommentSerializer` on the comment `id`: `get_replies` serialises the
      replies recursively, and gives [] when there are none. Replies come in
      primary-key order. */
  function Serialize(db: Db, id: nat): (r: Json)
    requires WellFormed(db) && id in db.comments
    ensures r.id == id && r.author == db.comments[id].author && r.content == db.comments[id].content
    ensures forall x :: x in IdsOf(r.replies) <==> IsReplyOf(db, x, id)
    ensures IdsIncreasing(r.replies)
    ensures forall k :: 0 <= k < |r.replies| ==>
      r.replies[k].id in db.comments && id < r.replies[k].id &&
      r.replies[k] == Serialize(db, r.replies[k].id)
    decreases db.next - id, 1, 0
  {
    var row := db.comments[id];
    var replies := SerializeReplies(db, id, id + 1);
    assert forall x :: IsReplyOf(db, x, id) ==> id + 1 <= x;
    Json(id, row.author, row.content, replies)
  }

  /** The replies of `parent` whose keys lie in [from, next), in key order. */
  function SerializeReplies(db: Db, parent: nat, from: nat): (r: seq<Json>)
    requires WellFormed(db) && parent < from <= db.next
    ensures forall x :: x in IdsOf(r) <==> IsReplyOf(db, x, parent) && from <= x
    ensures forall k :: 0 <= k < |r| ==> from <= r[k].id
    ensures IdsIncreasing(r)
    ensures forall k :: 0 <= k < |r| ==>
      r[k].id in db.comments && parent < r[k].id && r[k] == Serialize(db, r[k].id)
    decreases db.next - parent, 0, db.next - from
  {
    if from == db.next then []
    else
      var rest := SerializeReplies(db, parent, from + 1);
      if IsReplyOf(db, from, parent) then
        ConsReply(db, parent, from, rest);
        [Serialize(db, from)] + rest
      else
        rest
  }

  /** Putting the reply `from` in front of the replies that come after it
      gives the replies from it on. */
  lemma ConsReply(db: Db, parent: nat, from: nat, rest: seq<Json>)
    requires WellFormed(db) && parent < from && IsReplyOf(db, from, parent)
    requires forall x :: x in IdsOf(rest) <==> IsReplyOf(db, x, parent) && from + 1 <= x
    requires forall k :: 0 <= k < |rest| ==> from + 1 <= rest[k].id
    requires IdsIncreasing(rest)
    requires forall k :: 0 <= k < |rest| ==>
      rest[k].id in db.comments && parent < rest[k].id && rest[k] == Serialize(db, rest[k].id)
    ensures var r := [Serialize(db, from)] + rest;
      (forall x :: x in IdsOf(r) <==> IsReplyOf(db, x, parent) && from <= x) &&
      (forall k :: 0 <= k < |r| ==> from <= r[k].id) &&
      IdsIncreasing(r) &&
      (forall k :: 0 <= k < |r| ==>
        r[k].id in db.comments && parent < r[k].id && r[k] == Serialize(db, r[k].id))
    decreases db.next - parent, 0, db.next - from - 1
  {
    ConsIds(Serialize(db, from), rest);
  }

  /** Putting a comment before later ones keeps the ids increasing and
      adds its id. */
  lemma ConsIds(j: Json, rest: seq<Json>)
    requires IdsIncreasing(rest) && forall k :: 0 <= k < |rest| ==> j.id < rest[k].id
    ensures IdsOf([j] + rest) == {j.id} + IdsOf(rest)
    ensures IdsIncreasing([j] + rest)
    ensures forall k :: 1 <= k < |rest| + 1 ==> ([j] + rest)[k] == rest[k - 1]
  {
    assert ([j] + rest)[1..] == rest;
  }

  /** A serialised comment has no replies exactly when no row points to it. */
  lemma NoRepliesIffLeaf(db: Db, id: nat)
    requires WellFormed(db) && id in db.comments
    ensures Serialize(db, id).replies == [] <==> forall x :: !IsReplyOf(db, x, id)
  {
    var rs := Serialize(db, id).replies;
    if rs != [] {
      assert rs[0].id in IdsOf(rs);
    }
  }

  /** `ExerciseSerializer.comments`: every comment on the exercise, replies
      included, each serialised with its own replies, in key order. */
  function ExerciseComments(db: Db, exercise: nat): (r: seq<Json>)
    requires WellFormed(db)
    ensures forall x :: x in IdsOf(r) <==> x in db.comments && db.comments[x].exercise == exercise
    ensures forall k :: 0 <= k < |r| ==> r[k].id in db.comments && r[k] == Serialize(db, r[k].id)
    ensures IdsIncreasing(r)
  {
    CommentsFrom(db, exercise, 0)
  }

  function CommentsFrom(db: Db, exercise: nat, from: nat): (r: seq<Json>)
    requires WellFormed(db) && from <= db.next
    ensures forall x :: x in IdsOf(r) <==> x in db.comments && db.comments[x].exercise == exercise && from <= x
    ensures forall k :: 0 <= k < |r| ==>
      from <= r[k].id && r[k].id in db.comments && r[k] == Serialize(db, r[k].id)
    ensures IdsIncreasing(r)
    decreases db.next - from
  {
    if from == db.next then []
    else
      var rest := CommentsFrom(db, exercise, from + 1);
      if from in db.comments && db.comments[from].exercise == exercise then
        ConsComment(db, exercise, from, rest);
        [Serialize(db, from)] + rest
      else
        rest
  }

  /** Putting the comment `from` in front of the listing that starts after
      it gives the listing that starts at it. */
  lemma ConsComment(db: Db, exercise: nat, from: nat, rest: seq<Json>)
    requires WellFormed(db) && from in db.comments && db.comments[from].exercise == exercise
    requires forall x :: x in IdsOf(rest) <==> x in db.comments && db.comments[x].exercise == exercise && from + 1 <= x
    requires forall k :: 0 <= k < |rest| ==>
      from + 1 <= rest[k].id && rest[k].id in db.comments && rest[k] == Serialize(db, rest[k].id)
    requires IdsIncreasing(rest)
    ensures var r := [Serialize(db, from)] + rest;
      (forall x :: x in IdsOf(r) <==> x in db.comments && db.comments[x].exercise == exercise && from <= x) &&
      (forall k :: 0 <= k < |r| ==> from <= r[k].id && r[k].id in db.comments && r[k] == Serialize(db, r[k].id)) &&
      IdsIncreasing(r)
  {
    ConsIds(Serialize(db, from), rest);
  }

  lemma {:induction false} InIdsOf(js: seq<Json>, x: nat)
    requires x in IdsOf(js)
    ensures exists k :: 0 <= k < |js| && js[k].id == x
  {
    if js[0].id != x {
      InIdsOf(js[1..], x);
      var k :| 0 <= k < |js[1..]| && js[1..][k].id == x;
      assert js[k + 1].id == x;
    }
  }

  /** A reply shows up twice in the exercise payload: at top level, and
      nested under its parent. */
  lemma ReplyListedTwice(db: Db, exercise: nat, x: nat)
    requires WellFormed(db) && x in db.comments && db.comments[x].exercise == exercise
    requires db.comments[x].parent.Some?
    ensures var top := ExerciseComments(db, exercise);
            var p := db.comments[x].parent.value;
            (exists k :: 0 <= k < |top| && top[k].id == x) &&
            (exists k :: 0 <= k < |top| && top[k].id == p &&
               exists j :: 0 <= j < |top[k].replies| && top[k].replies[j].id == x)
  {
    var top := ExerciseComments(db, exercise);
    var p := db.comments[x].parent.value;
    InIdsOf(top, x);
    InIdsOf(top, p);
    var k :| 0 <= k < |top| && top[k].id == p;
    assert IsReplyOf(db, x, p);
    InIdsOf(top[k].replies, x);
  }
}

=== FILE: comment_tree.dfy ===
/** The client's copy of a discussion: a forest of comments, each carrying
    its replies. The exercise page edits it in place after each server call
    (a new reply, an edited or re-voted comment, a deleted comment), and the
    comment section reads authors and indentation from it. */
module CommentTree {
  import opened Common

  datatype Author = Author(id: UserId, username: string)

  datatype Node = Node(id: nat, author: Author, createdAt: int, voteCount: int, replies: seq<Node>)

  /** Every id in the forest, at any depth. */
  function AllIds(nodes: seq<Node>): set<nat>
    decreases nodes
  {
    if nodes == [] then {}
    else {nodes[0].id} + AllIds(nodes[0].replies) + AllIds(nodes[1..])
  }

  lemma HeadTail(s: seq<Node>)
    requires s != []
    ensures s == [s[0]] + s[1..]
  {
  }

  /** The first node with the id, in document order (a node before its
      replies, its replies before its later siblings). */
  function Find(nodes: seq<Node>, id: nat): (r: Option<Node>)
    ensures r.Some? <==> id in AllIds(nodes)
    ensures r.Some? ==> r.value.id == id
    decreases nodes
  {
    if nodes == [] then None
    else if nodes[0].id == id then Some(nodes[0])
    else
      match Find(nodes[0].replies, id)
      case Some(n) => Some(n)
      case None => Find(nodes[1..], id)
  }

  // ---------------------------------------------------------------------
  // The three edits

  /** `updateCommentsTree`: a node whose id is `parentId` gets `c` appended
      to its replies (its replies are not searched further); every other node
      has its replies searched. */
  function AddReply(nodes: seq<Node>, parentId: nat, c: Node): (r: seq<Node>)
    ensures |r| == |nodes|
    ensures forall i :: 0 <= i < |r| ==> r[i].id == nodes[i].id
    decreases nodes
  {
    if nodes == [] then []
    else
      var n := nodes[0];
      var n' := if n.id == parentId then n.(replies := n.replies + [c])
                else n.(replies := AddReply(n.replies, parentId, c));
      [n'] + AddReply(nodes[1..], parentId, c)
  }

  /** `updateCommentInTree`: a node whose id matches is replaced wholesale. */
  function Replace(nodes: seq<Node>, id: nat, u: Node): (r: seq<Node>)
    ensures |r| == |nodes|
    ensures forall i :: 0 <= i < |r| ==> r[i].id == (if nodes[i].id == id then u.id else nodes[i].id)
    ensures AllIds(r) <= AllIds(nodes) + {u.id} + AllIds(u.replies)
    decreases nodes
  {
    if nodes == [] then []
    else
      var n := nodes[0];
      var n' := if n.id == id then u else n.(replies := Replace(n.replies, id, u));
      var rest := Replace(nodes[1..], id, u);
      assert ([n'] + rest)[1..] == rest;
      [n'] + rest
  }

  /** `removeCommentFromTree`: drop every node with the id, with its subtree. */
  function Remove(nodes: seq<Node>, id: nat): (r: seq<Node>)
    ensures id !in AllIds(r)
    ensures AllIds(r) <= AllIds(nodes)
    ensures |r| <= |nodes|
    decreases nodes
  {
    if nodes == [] then []
    else if nodes[0].id == id then Remove(nodes[1..], id)
    else [nodes[0].(replies := Remove(nodes[0].replies, id))] + Remove(nodes[1..], id)
  }

  /** The ids inside the subtrees that `Remove(nodes, id)` drops: every
      node with the id, and everything under it. */
  function Doomed(nodes: seq<Node>, id: nat): set<nat>
    decreases nodes
  {
    if nodes == [] then {}
    else
      var n := nodes[0];
      (if n.id == id then {n.id} + AllIds(n.replies) else Doomed(n.replies, id)) + Doomed(nodes[1..], id)
  }

  /** Each node of a list with its replies pruned of the id. */
  function PruneEach(nodes: seq<Node>, id: nat): (r: seq<Node>)
    ensures |r| == |nodes|
    ensures forall k :: 0 <= k < |r| ==> r[k] == nodes[k].(replies := Remove(nodes[k].replies, id))
  {
    if nodes == [] then [] else [nodes[0].(replies := Remove(nodes[0].replies, id))] + PruneEach(nodes[1..], id)
  }

  /** At the top level, removal is a filter: the nodes whose id differs stay,
      in order, each with its replies pruned in the same way. */
  lemma {:induction false} RemoveIsFilterMap(nodes: seq<Node>, id: nat)
    ensures Remove(nodes, id) == PruneEach(Filter(nodes, (n: Node) => n.id != id), id)
    decreases nodes
  {
    if nodes != [] {
      var keep := (n: Node) => n.id != id;
      RemoveIsFilterMap(nodes[1..], id);
      var tail := Filter(nodes[1..], keep);
      assert Filter(nodes, keep) == (if keep(nodes[0]) then [nodes[0]] else []) + tail;
      if nodes[0].id != id {
        var xs := [nodes[0]] + tail;
        assert xs[1..] == tail;
        assert PruneEach(xs, id) == [nodes[0].(replies := Remove(nodes[0].replies, id))] + PruneEach(tail, id);
      } else {
        assert [] + tail == tail;
      }
    }
  }

  lemma AllIdsCons(n: Node, rest: seq<Node>)
    ensures AllIds([n] + rest) == {n.id} + AllIds(n.replies) + AllIds(rest)
  {
    assert ([n] + rest)[1..] == rest;
  }

  /** At every depth, an id outside the dropped subtrees survives removal. */
  lemma {:induction false} RemoveKeepsSurvivors(nodes: seq<Node>, id: nat)
    ensures AllIds(nodes) - Doomed(nodes, id) <= AllIds(Remove(nodes, id))
    decreases nodes
  {
    if nodes != [] {
      var n := nodes[0];
      RemoveKeepsSurvivors(n.replies, id);
      RemoveKeepsSurvivors(nodes[1..], id);
      if n.id != id {
        AllIdsCons(n.(replies := Remove(n.replies, id)), Remove(nodes[1..], id));
      }
    }
  }

  /** `handleAddComment` after the server answered with `c`: a top-level
      comment goes to the end of the list, a reply into the tree. Either way,
      removing the new comment again gives back the tree it was added to. */
  function AddComment(nodes: seq<Node>, parentId: Option<nat>, c: Node): (r: seq<Node>)
    ensures parentId.None? ==> r == nodes + [c]
    ensures parentId.Some? && parentId.value !in AllIds(nodes) ==> r == nodes
    ensures c.id !in AllIds(nodes) ==> Remove(r, c.id) == nodes
  {
    if parentId.Some? then
      var r := AddReply(nodes, parentId.value, c);
      assert parentId.value !in AllIds(nodes) ==> r == nodes by {
        if parentId.value !in AllIds(nodes) {
          AddReplyAbsent(nodes, parentId.value, c);
        }
      }
      assert c.id !in AllIds(nodes) ==> Remove(r, c.id) == nodes by {
        if c.id !in AllIds(nodes) {
          AddReplyThenRemove(nodes, parentId.value, c);
        }
      }
      r
    else
      assert c.id !in AllIds(nodes) ==> Remove(nodes + [c], c.id) == nodes by {
        if c.id !in AllIds(nodes) {
          RemoveAbsent(nodes, c.id);
          RemoveAppend(nodes, [c], c.id);
        }
      }
      nodes + [c]
  }

  // ---------------------------------------------------------------------
  // Properties of the edits

  lemma {:induction false} AllIdsAppend(xs: seq<Node>, ys: seq<Node>)
    ensures AllIds(xs + ys) == AllIds(xs) + AllIds(ys)
    decreases xs
  {
    if xs == [] {
      assert xs + ys == ys;
    } else {
      assert (xs + ys)[0] == xs[0];
      assert (xs + ys)[1..] == xs[1..] + ys;
      AllIdsAppend(xs[1..], ys);
    }
  }

  lemma {:induction false} RemoveAppend(xs: seq<Node>, ys: seq<Node>, id: nat)
    ensures Remove(xs + ys, id) == Remove(xs, id) + Remove(ys, id)
    decreases xs
  {
    if xs == [] {
      assert xs + ys == ys;
    } else {
      assert (xs + ys)[0] == xs[0];
      assert (xs + ys)[1..] == xs[1..] + ys;
      RemoveAppend(xs[1..], ys, id);
    }
  }

  /** Removing an id that does not occur changes nothing. */
  lemma {:induction false} RemoveAbsent(nodes: seq<Node>, id: nat)
    requires id !in AllIds(nodes)
    ensures Remove(nodes, id) == nodes
    decreases nodes
  {
    if nodes != [] {
      var n := nodes[0];
      assert n.id != id && id !in AllIds(n.replies) && id !in AllIds(nodes[1..]);
      RemoveAbsent(n.replies, id);
      RemoveAbsent(nodes[1..], id);
      assert Remove(nodes, id) == [n.(replies := n.replies)] + nodes[1..];
      assert n.(replies := n.replies) == n;
      HeadTail(nodes);
    }
  }

  /** Removal is idempotent. */
  lemma RemoveIdempotent(nodes: seq<Node>, id: nat)
    ensures Remove(Remove(nodes, id), id) == Remove(nodes, id)
  {
    RemoveAbsent(Remove(nodes, id), id);
  }

  /** With no node matching `parentId`, the tree is unchanged. */
  lemma {:induction false} AddReplyAbsent(nodes: seq<Node>, parentId: nat, c: Node)
    requires parentId !in AllIds(nodes)
    ensures AddReply(nodes, parentId, c) == nodes
    decreases nodes
  {
    if nodes != [] {
      AddReplyAbsent(nodes[0].replies, parentId, c);
      AddReplyAbsent(nodes[1..], parentId, c);
      assert nodes[0].(replies := nodes[0].replies) == nodes[0];
      assert nodes == [nodes[0]] + nodes[1..];
    }
  }

  /** Adding a reply with a fresh id and removing it again restores the
      tree: the reply is the only thing the edit adds, and nothing moves. */
  lemma {:induction false} AddReplyThenRemove(nodes: seq<Node>, parentId: nat, c: Node)
    requires c.id !in AllIds(nodes)
    ensures Remove(AddReply(nodes, parentId, c), c.id) == nodes
    decreases nodes
  {
    if nodes != [] {
      var n := nodes[0];
      assert n.id != c.id;
      var n' := if n.id == parentId then n.(replies := n.replies + [c])
                else n.(replies := AddReply(n.replies, parentId, c));
      var rest := AddReply(nodes[1..], parentId, c);
      assert AddReply(nodes, parentId, c) == [n'] + rest;
      assert Remove([n'] + rest, c.id) == [n'.(replies := Remove(n'.replies, c.id))] + Remove(rest, c.id);
      if n.id == parentId {
        RemoveAppend(n.replies, [c], c.id);
        RemoveAbsent(n.replies, c.id);
        assert Remove([c], c.id) == [];
        assert Remove(n'.replies, c.id) == n.replies;
      } else {
        AddReplyThenRemove(n.replies, parentId, c);
        assert Remove(n'.replies, c.id) == n.replies;
      }
      AddReplyThenRemove(nodes[1..], parentId, c);
      assert n'.(replies := n.replies) == n;
      assert nodes == [n] + nodes[1..];
    }
  }

  /** The first node with id `parentId` now ends with the new reply, after
      all of its earlier replies. */
  lemma {:induction false} AddReplyAppendsToParent(nodes: seq<Node>, parentId: nat, c: Node)
    requires parentId in AllIds(nodes)
    ensures var old_ := Find(nodes, parentId).value;
            Find(AddReply(nodes, parentId, c), parentId) == Some(old_.(replies := old_.replies + [c]))
    decreases nodes
  {
    var n := nodes[0];
    var r := AddReply(nodes, parentId, c);
    if n.id != parentId {
      assert r[0] == n.(replies := AddReply(n.replies, parentId, c));
      assert r[1..] == AddReply(nodes[1..], parentId, c);
      if parentId in AllIds(n.replies) {
        AddReplyAppendsToParent(n.replies, parentId, c);
      } else {
        AddReplyAbsent(n.replies, parentId, c);
        AddReplyAppendsToParent(nodes[1..], parentId, c);
      }
    }
  }

  /** Replacing a node by one with the same id and then removing that id
      gives what removing it from the original gives: every node outside the
      replaced subtree keeps its place and content. */
  lemma {:induction false} ReplaceThenRemove(nodes: seq<Node>, id: nat, u: Node)
    requires u.id == id
    ensures Remove(Replace(nodes, id, u), id) == Remove(nodes, id)
    decreases nodes
  {
    if nodes != [] {
      var n := nodes[0];
      if n.id != id {
        ReplaceThenRemove(n.replies, id, u);
      }
      ReplaceThenRemove(nodes[1..], id, u);
    }
  }

  /** After the replacement the id leads to the new node. */
  lemma {:induction false} ReplaceIsFound(nodes: seq<Node>, id: nat, u: Node)
    requires u.id == id && id in AllIds(nodes)
    ensures Find(Replace(nodes, id, u), id) == Some(u)
    decreases nodes
  {
    var n := nodes[0];
    var r := Replace(nodes, id, u);
    if n.id != id {
      assert r[0] == n.(replies := Replace(n.replies, id, u));
      assert r[1..] == Replace(nodes[1..], id, u);
      if id in AllIds(n.replies) {
        ReplaceIsFound(n.replies, id, u);
      } else {
        ReplaceAbsent(n.replies, id, u);
        ReplaceIsFound(nodes[1..], id, u);
      }
    }
  }

  lemma {:induction false} ReplaceAbsent(nodes: seq<Node>, id: nat, u: Node)
    requires id !in AllIds(nodes)
    ensures Replace(nodes, id, u) == nodes
    decreases nodes
  {
    if nodes != [] {
      var n := nodes[0];
      assert n.id != id && id !in AllIds(n.replies) && id !in AllIds(nodes[1..]);
      ReplaceAbsent(n.replies, id, u);
      ReplaceAbsent(nodes[1..], id, u);
      assert Replace(nodes, id, u) == [n.(replies := n.replies)] + nodes[1..];
      assert n.(replies := n.replies) == n;
      HeadTail(nodes);
    }
  }

  // ---------------------------------------------------------------------
  // Reading the tree

  /** Authors in document order, one per comment. */
  function Authors(nodes: seq<Node>): (r: seq<Author>)
    decreases nodes
  {
    if nodes == [] then []
    else [nodes[0].author] + Authors(nodes[0].replies) + Authors(nodes[1..])
  }

  /** The index of the first author in `xs` with the id, if any. */
  predicate IsFirstWithId(xs: seq<Author>, i: nat) {
    i < |xs| && forall j :: 0 <= j < i ==> xs[j].id != xs[i].id
  }

  /** `a` is the first entry of `xs` that carries its id. */
  ghost predicate IsFirstAppearance(xs: seq<Author>, a: Author) {
    exists i: nat :: IsFirstWithId(xs, i) && xs[i] == a
  }

  /** `seen` holds exactly the ids of `users`. */
  ghost predicate SeenIsIds(seen: set<UserId>, users: seq<Author>) {
    forall x :: x in seen <==> exists k :: 0 <= k < |users| && users[k].id == x
  }

  predicate DistinctIds(users: seq<Author>) {
    forall p, q :: 0 <= p < q < |users| ==> users[p].id != users[q].id
  }

  /** The first appearance of each author id, in the order the ids first
      appear: the entries of `xs` not preceded by one with the same id. */
  function FirstAuthors(xs: seq<Author>): (r: seq<Author>)
    ensures |r| <= |xs|
  {
    if xs == [] then []
    else
      var d := FirstAuthors(xs[..|xs| - 1]);
      var x := xs[|xs| - 1];
      if HasId(d, x.id) then d else d + [x]
  }

  /** Some entry of `users` carries the id. */
  predicate HasId(users: seq<Author>, id: UserId) {
    exists k :: 0 <= k < |users| && users[k].id == id
  }

  /** The reference list holds one entry per id of `xs`, with distinct
      ids, each entry being the first appearance of its id. */
  lemma FirstAuthorsSpec(xs: seq<Author>)
    ensures DistinctIds(FirstAuthors(xs))
    ensures forall a :: a in xs ==> HasId(FirstAuthors(xs), a.id)
    ensures forall k :: 0 <= k < |FirstAuthors(xs)| ==> IsFirstAppearance(xs, FirstAuthors(xs)[k])
  {
    FirstAuthorsCover(xs);
    FirstAuthorsDistinct(xs);
    FirstAuthorsFirst(xs);
  }

  /** Every id of `xs` is in the reference list. */
  lemma {:induction false} FirstAuthorsCover(xs: seq<Author>)
    ensures forall a :: a in xs ==> HasId(FirstAuthors(xs), a.id)
  {
    if xs != [] {
      var init := xs[..|xs| - 1];
      var x := xs[|xs| - 1];
      var d := FirstAuthors(init);
      var r := FirstAuthors(xs);
      FirstAuthorsCover(init);
      forall a | a in xs ensures HasId(r, a.id) {
        if a == x {
          if HasId(d, x.id) {
            assert r == d;
          } else {
            assert r == d + [x] && r[|d|] == x;
          }
        } else {
          assert xs == init + [x];
          assert a in init;
          var k :| 0 <= k < |d| && d[k].id == a.id;
          assert r[k] == d[k];
        }
      }
    }
  }

  /** The reference list never repeats an id. */
  lemma {:induction false} FirstAuthorsDistinct(xs: seq<Author>)
    ensures DistinctIds(FirstAuthors(xs))
  {
    if xs != [] {
      FirstAuthorsDistinct(xs[..|xs| - 1]);
    }
  }

  /** Each entry of the reference list is the first appearance of its id. */
  lemma {:induction false} FirstAuthorsFirst(xs: seq<Author>)
    ensures forall k :: 0 <= k < |FirstAuthors(xs)| ==> IsFirstAppearance(xs, FirstAuthors(xs)[k])
  {
    if xs != [] {
      var init := xs[..|xs| - 1];
      var x := xs[|xs| - 1];
      var d := FirstAuthors(init);
      var r := FirstAuthors(xs);
      assert xs == init + [x];
      FirstAuthorsFirst(init);
      forall k | 0 <= k < |d| ensures IsFirstAppearance(xs, d[k]) {
        FirstAppearanceExtends(init, x, d[k]);
      }
      if r != d {
        assert r == d + [x] && !HasId(d, x.id);
        FirstAuthorsCover(init);
        NewIdIsFirst(init, x);
        assert r[|d|] == x;
      }
    }
  }

  /** A first appearance stays one when an entry is appended. */
  lemma FirstAppearanceExtends(init: seq<Author>, x: Author, a: Author)
    requires IsFirstAppearance(init, a)
    ensures IsFirstAppearance(init + [x], a)
  {
    var i: nat :| IsFirstWithId(init, i) && init[i] == a;
    assert IsFirstWithId(init + [x], i) && (init + [x])[i] == a;
  }

  /** An appended entry whose id does not occur before is a first
      appearance. */
  lemma NewIdIsFirst(init: seq<Author>, x: Author)
    requires forall a :: a in init ==> a.id != x.id
    ensures IsFirstAppearance(init + [x], x)
  {
    var xs := init + [x];
    forall j | 0 <= j < |init| ensures xs[j].id != x.id {
      assert xs[j] == init[j] && init[j] in init;
    }
    assert IsFirstWithId(xs, |init|) && xs[|init|] == x;
  }

  /** `extractUsers`: one entry per distinct author id, in order of first
      appearance, each entry being that first appearance. */
  method ExtractUsers(nodes: seq<Node>) returns (users: seq<Author>)
    ensures users == FirstAuthors(Authors(nodes))
    ensures forall i, j :: 0 <= i < j < |users| ==> users[i].id != users[j].id
    ensures forall a :: a in Authors(nodes) ==> exists k :: 0 <= k < |users| && users[k].id == a.id
    ensures forall k :: 0 <= k < |users| ==> IsFirstAppearance(Authors(nodes), users[k])
  {
    var all := Authors(nodes);
    var seen: set<UserId> := {};
    users := [];
    var i: nat := 0;
    while i < |all|
      invariant i <= |all|
      invariant SeenIsIds(seen, users)
      invariant users == FirstAuthors(all[..i])
    {
      FirstAuthorsStep(all, i, users, seen);
      if all[i].id !in seen {
        SeenGrows(seen, users, all[i]);
        users := users + [all[i]];
        seen := seen + {all[i].id};
      }
      i := i + 1;
    }
    assert all[..i] == all;
    FirstAuthorsSpec(all);
  }

  /** One more author extends the reference list exactly when its id is
      not yet among the kept ones. */
  lemma FirstAuthorsStep(all: seq<Author>, i: nat, users: seq<Author>, seen: set<UserId>)
    requires i < |all| && users == FirstAuthors(all[..i]) && SeenIsIds(seen, users)
    ensures all[i].id !in seen ==> FirstAuthors(all[..i + 1]) == users + [all[i]]
    ensures all[i].id in seen ==> FirstAuthors(all[..i + 1]) == users
  {
    assert all[..i + 1][..i] == all[..i];
    assert all[..i + 1][i] == all[i];
  }

  /** Keeping a new author adds its id to `seen`. */
  lemma SeenGrows(seen: set<UserId>, users: seq<Author>, a: Author)
    requires SeenIsIds(seen, users)
    ensures SeenIsIds(seen + {a.id}, users + [a])
  {
    var users' := users + [a];
    forall x | x in seen + {a.id} ensures exists k :: 0 <= k < |users'| && users'[k].id == x {
      if x in seen {
        var k :| 0 <= k < |users| && users[k].id == x;
        assert users'[k] == users[k];
      } else {
        assert users'[|users|].id == x;
      }
    }
  }

  /** Reply indentation in pixels: depth clamped at 3, 16 pixels a level. */
  function Indent(depth: nat): (px: nat)
    ensures px <= 48
    ensures depth <= 3 ==> px == 16 * depth
    ensures depth >= 3 ==> px == 48
  {
    (if depth < 3 then depth else 3) * 16
  }
}

=== FILE: common.dfy ===
/** Shared vocabulary: optional values, whitespace trimming and counting.
    Python's `str.strip()` and JavaScript's `String.prototype.trim()` remove
    different sets of characters; `Trim` takes the set as a parameter. */
module Common {

  datatype Option<+T> = None | Some(value: T)

  type UserId = nat

  /** Which language's notion of whitespace a trim uses. */
  datatype Spaces = PythonSpace | JsWhiteSpace

  /** Python's `str.isspace()`: the characters whose bidirectional class is
      WS, B or S, or whose category is Zs. */
  predicate IsPythonSpace(c: char) {
    ('\U{0009}' <= c <= '\U{000D}') || ('\U{001C}' <= c <= '\U{001F}') || c == ' ' ||
    c == '\U{0085}' || c == '\U{00A0}' || c == '\U{1680}' || ('\U{2000}' <= c <= '\U{200A}') ||
    c == '\U{2028}' || c == '\U{2029}' || c == '\U{202F}' || c == '\U{205F}' || c == '\U{3000}'
  }

  /** ECMAScript's WhiteSpace and LineTerminator productions, which `trim()`
      strips: tab, vertical tab, form feed, space, no-break space, the byte
      order mark, the other Zs characters, and the four line terminators. */
  predicate IsJsWhiteSpace(c: char) {
    c == '\t' || c == '\U{000B}' || c == '\U{000C}' || c == ' ' || c == '\U{00A0}' ||
    c == '\U{FEFF}' || c == '\U{1680}' || ('\U{2000}' <= c <= '\U{200A}') ||
    c == '\U{202F}' || c == '\U{205F}' || c == '\U{3000}' ||
    c == '\n' || c == '\r' || c == '\U{2028}' || c == '\U{2029}'
  }

  predicate IsWhitespace(sp: Spaces, c: char) {
    match sp
    case PythonSpace => IsPythonSpace(c)
    case JsWhiteSpace => IsJsWhiteSpace(c)
  }

  /** True when every character is whitespace (the empty string included). */
  predicate IsBlank(sp: Spaces, s: string) {
    forall i :: 0 <= i < |s| ==> IsWhitespace(sp, s[i])
  }

  function TrimStart(sp: Spaces, s: string): (r: string)
    ensures |r| <= |s| && r == s[|s| - |r|..]
    ensures r == [] || !IsWhitespace(sp, r[0])
    ensures IsBlank(sp, s[..|s| - |r|])
  {
    if |s| > 0 && IsWhitespace(sp, s[0]) then TrimStart(sp, s[1..]) else s
  }

  function TrimEnd(sp: Spaces, s: string): (r: string)
    ensures |r| <= |s| && r == s[..|r|]
    ensures r == [] || !IsWhitespace(sp, r[|r| - 1])
    ensures IsBlank(sp, s[|r|..])
  {
    if |s| > 0 && IsWhitespace(sp, s[|s| - 1]) then
      var r := TrimEnd(sp, s[..|s| - 1]);
      assert s[|r|..] == s[..|s| - 1][|r|..] + [s[|s| - 1]];
      r
    else
      s
  }

  /** Leading and trailing whitespace removed. */
  function Trim(sp: Spaces, s: string): string {
    TrimEnd(sp, TrimStart(sp, s))
  }

  /** A string that neither starts nor ends with whitespace trims to
      itself. */
  lemma TrimKeeps(sp: Spaces, s: string)
    requires s != [] && !IsWhitespace(sp, s[0]) && !IsWhitespace(sp, s[|s| - 1])
    ensures Trim(sp, s) == s
  {
    assert TrimStart(sp, s) == s;
  }

  /** A string trims to nothing exactly when it is blank. */
  lemma TrimEmptyIffBlank(sp: Spaces, s: string)
    ensures Trim(sp, s) == [] <==> IsBlank(sp, s)
  {
    var t := TrimStart(sp, s);
    var r := TrimEnd(sp, t);
    var cut := |s| - |t|;
    if r == [] {
      assert IsBlank(sp, t[0..]);
      assert t == [];
      assert s[..cut] == s;
    } else {
      assert r[0] == t[0] == s[cut];
    }
  }

  /** The two sets differ both ways: U+001C is space to Python only, the
      byte order mark to JavaScript only; both take U+00A0 and U+3000. */
  lemma SpacesDiffer()
    ensures IsBlank(PythonSpace, "\U{001C}") && !IsBlank(JsWhiteSpace, "\U{001C}")
    ensures IsBlank(JsWhiteSpace, "\U{FEFF}") && !IsBlank(PythonSpace, "\U{FEFF}")
    ensures IsBlank(PythonSpace, "\U{00A0}\U{3000}") && IsBlank(JsWhiteSpace, "\U{00A0}\U{3000}")
  {
    assert "\U{001C}"[0] == '\U{001C}';
    assert "\U{FEFF}"[0] == '\U{FEFF}';
  }

  /** Number of elements of `xs` satisfying `p`. */
  function Count<T>(xs: seq<T>, p: T -> bool): (n: nat)
    ensures n <= |xs|
  {
    if xs == [] then 0 else (if p(xs[0]) then 1 else 0) + Count(xs[1..], p)
  }

  lemma {:induction false} CountAppend<T>(xs: seq<T>, ys: seq<T>, p: T -> bool)
    ensures Count(xs + ys, p) == Count(xs, p) + Count(ys, p)
  {
    if xs == [] {
      assert xs + ys == ys;
    } else {
      assert (xs + ys)[1..] == xs[1..] + ys;
      CountAppend(xs[1..], ys, p);
    }
  }

  /** Replacing one element changes the count by what the old and the new
      element contribute. */
  lemma CountUpdate<T>(xs: seq<T>, i: nat, y: T, p: T -> bool)
    requires i < |xs|
    ensures Count(xs[i := y], p) + (if p(xs[i]) then 1 else 0) == Count(xs, p) + (if p(y) then 1 else 0)
  {
    var ys := xs[i := y];
    assert xs == xs[..i] + [xs[i]] + xs[i + 1..];
    assert ys == xs[..i] + [y] + xs[i + 1..];
    CountAppend(xs[..i] + [xs[i]], xs[i + 1..], p);
    CountAppend(xs[..i], [xs[i]], p);
    CountAppend(xs[..i] + [y], xs[i + 1..], p);
    CountAppend(xs[..i], [y], p);
  }

  /** Elements of `xs` satisfying `p`, in order. */
  function Filter<T>(xs: seq<T>, p: T -> bool): (r: seq<T>)
    ensures |r| == Count(xs, p)
    ensures forall i :: 0 <= i < |r| ==> r[i] in xs && p(r[i])
    ensures forall i :: 0 <= i < |xs| && p(xs[i]) ==> xs[i] in r
  {
    if xs == [] then [] else (if p(xs[0]) then [xs[0]] else []) + Filter(xs[1..], p)
  }

  lemma {:induction false} FilterAppend<T>(xs: seq<T>, ys: seq<T>, p: T -> bool)
    ensures Filter(xs + ys, p) == Filter(xs, p) + Filter(ys, p)
  {
    if xs == [] {
      assert xs + ys == ys;
    } else {
      assert (xs + ys)[1..] == xs[1..] + ys;
      FilterAppend(xs[1..], ys, p);
    }
  }
}

=== FILE: content_cards.dfy ===
/** Small presentation rules of the content cards: the difficulty label
    and colour of the preview, and how many chapter tags a home card shows. */
module ContentCards {
  import opened Common

  /** `getDifficultyLabel`: the French label of a known level, the raw
      value otherwise. */
  function DifficultyLabel(level: string): (r: string)
    ensures level == "easy" ==> r == "Facile"
    ensures level == "medium" ==> r == "Moyen"
    ensures level == "hard" ==> r == "Difficile"
    ensures !IsKnownLevel(level) ==> r == level
  {
    if level == "easy" then "Facile"
    else if level == "medium" then "Moyen"
    else if level == "hard" then "Difficile"
    else level
  }

  predicate IsKnownLevel(level: string) {
    level == "easy" || level == "medium" || level == "hard"
  }

  const DefaultColor: string := "from-gray-600 to-gray-500"

  /** `getDifficultyColor`: a gradient per known level, grey otherwise. */
  function DifficultyColor(level: string): (r: string)
    ensures r == DefaultColor <==> !IsKnownLevel(level)
  {
    if level == "easy" then "from-emerald-600 to-green-600"
    else if level == "medium" then "from-amber-600 to-yellow-600"
    else if level == "hard" then "from-red-600 to-pink-600"
    else DefaultColor
  }

  /** Colour and label agree on which levels are known: outside the three
      French words themselves, the colour is the grey default exactly when
      the label is the raw value. */
  lemma ColorDefaultIffRawLabel(level: string)
    requires level != "Facile" && level != "Moyen" && level != "Difficile"
    ensures DifficultyColor(level) == DefaultColor <==> DifficultyLabel(level) == level
  {
  }

  /** The chapter strip of a home card: at most two tags, and a "+N more"
      note for the rest. */
  datatype Strip = Strip(shown: seq<string>, more: Option<nat>)

  function ChapterStrip(chapters: seq<string>): (r: Strip)
    ensures |r.shown| <= 2 && r.shown <= chapters
    ensures r.more.Some? <==> |chapters| > 2
    ensures r.more.Some? ==> |r.shown| + r.more.value == |chapters| && r.more.value >= 1
    ensures r.more.None? ==> r.shown == chapters
  {
    if |chapters| > 2 then Strip(chapters[..2], Some(|chapters| - 2)) else Strip(chapters, None)
  }
}

=== FILE: content_editor.dfy ===
/** The content editor form: its submit validation, the payload it hands
    to `onSubmit`, the tag toggle, and the resets that clear a subject
    without a class level and tags without both. */
module ContentEditor {
  import opened Common
  import opened Selection

  datatype Form = Form(title: string, content: string, contentType: string, classLevel: string,
                       subject: string, difficulty: string, tags: seq<Id>, solution: string)

  datatype Payload = Payload(title: string, content: string, contentType: string, classLevel: string,
                             subject: string, difficulty: string, solution: Option<string>, tags: seq<Id>)

  const SelectionError: string := "Please select all required fields and at least one tag"
  const TextError: string := "Title and content are required"

  /** Either an error message is shown, or the payload is submitted. */
  datatype Submit = Rejected(error: string) | Submitted(payload: Payload)

  predicate SelectionComplete(f: Form) {
    f.classLevel != "" && f.subject != "" && |f.tags| > 0
  }

  predicate TextPresent(f: Form) {
    Trim(JsWhiteSpace, f.title) != "" && Trim(JsWhiteSpace, f.content) != ""
  }

  /** `handleSubmit`: the selection check first, then the trimmed text
      check; a solution is sent only for an exercise. */
  function HandleSubmit(f: Form): (r: Submit)
    ensures r == Rejected(SelectionError) <==> !SelectionComplete(f)
    ensures r == Rejected(TextError) <==> SelectionComplete(f) && !TextPresent(f)
    ensures r.Submitted? <==> SelectionComplete(f) && TextPresent(f)
    ensures r.Submitted? ==>
      r.payload.title == f.title && r.payload.content == f.content &&
      r.payload.classLevel == f.classLevel && r.payload.subject == f.subject &&
      r.payload.tags == f.tags && r.payload.difficulty == f.difficulty &&
      r.payload.contentType == f.contentType
    ensures r.Submitted? ==>
      (r.payload.solution.Some? <==> f.contentType == "exercise") &&
      (r.payload.solution.Some? ==> r.payload.solution.value == f.solution)
  {
    if f.classLevel == "" || f.subject == "" || |f.tags| == 0 then Rejected(SelectionError)
    else if Trim(JsWhiteSpace, f.title) == "" || Trim(JsWhiteSpace, f.content) == "" then Rejected(TextError)
    else
      Submitted(Payload(f.title, f.content, f.contentType, f.classLevel, f.subject, f.difficulty,
                        if f.contentType == "exercise" then Some(f.solution) else None, f.tags))
  }

  /** A title or content made only of whitespace is refused once the
      selection is complete. */
  lemma BlankTextRejected(f: Form)
    requires SelectionComplete(f) && (IsBlank(JsWhiteSpace, f.title) || IsBlank(JsWhiteSpace, f.content))
    ensures HandleSubmit(f) == Rejected(TextError)
  {
    TrimEmptyIffBlank(JsWhiteSpace, f.title);
    TrimEmptyIffBlank(JsWhiteSpace, f.content);
  }

  /** The tag buttons toggle membership in the selected tags. */
  function ToggleTag(f: Form, tag: Id): (r: Form)
    ensures tag in r.tags <==> tag !in f.tags
    ensures forall w :: w != tag ==> (w in r.tags <==> w in f.tags)
    ensures r.(tags := f.tags) == f
  {
    f.(tags := Toggle(f.tags, tag))
  }

  /** The effect on class level: without one the subject is cleared. When
      one is chosen the subjects are reloaded; editing an existing item
      whose subject is unset then takes the first loaded subject. */
  function ClassLevelEffect(f: Form, editing: bool, loadedSubjects: Option<seq<Id>>): (r: Form)
    ensures f.classLevel == "" ==> r == f.(subject := "")
    ensures r.(subject := f.subject) == f
    ensures r.subject != f.subject ==>
      (f.classLevel == "" && r.subject == "") ||
      (editing && f.subject == "" && loadedSubjects.Some? && |loadedSubjects.value| > 0 &&
       r.subject == loadedSubjects.value[0])
  {
    if f.classLevel == "" then f.(subject := "")
    else if editing && f.subject == "" && loadedSubjects.Some? && |loadedSubjects.value| > 0 then
      f.(subject := loadedSubjects.value[0])
    else f
  }

  /** `loadClassLevels`, run once on mount: when editing, a class level
      that was unset at mount takes the first loaded one. The check reads
      the class level of the first render (`mounted`), so the fill
      replaces whatever the form holds when the load resolves. */
  function LoadClassLevels(f: Form, editing: bool, mounted: string, loaded: Option<seq<Id>>): (r: Form)
    ensures r.(classLevel := f.classLevel) == f
    ensures editing && mounted == "" && loaded.Some? && |loaded.value| > 0 ==>
      r.classLevel == loaded.value[0]
    ensures !(editing && mounted == "" && loaded.Some? && |loaded.value| > 0) ==> r == f
  {
    if editing && mounted == "" && loaded.Some? && |loaded.value| > 0 then
      f.(classLevel := loaded.value[0])
    else f
  }

  /** Editing an item that has neither a class level nor a subject, in the
      order the editor runs: both effects on mount, the class-level fill,
      both effects again while the subject is still unset, the subject
      fill, and the effects once more. The runs with a missing selection
      clear the tags, so the filled form has lost the item's tags and is
      refused for its selection. */
  lemma EditingLosesTags(f: Form, levels: seq<Id>, subjects: seq<Id>)
    requires f.classLevel == "" && f.subject == ""
    requires |levels| > 0 && |subjects| > 0 && levels[0] != "" && subjects[0] != ""
    ensures var mounted := SelectionEffect(ClassLevelEffect(f, true, None));
      var leveled := SelectionEffect(ClassLevelEffect(LoadClassLevels(mounted, true, "", Some(levels)), true, None));
      var g := SelectionEffect(ClassLevelEffect(leveled, true, Some(subjects)));
      g == f.(classLevel := levels[0], subject := subjects[0], tags := []) &&
      HandleSubmit(g) == Rejected(SelectionError)
  {
  }

  /** Editing an item that already has a class level and a subject: the
      effects on mount keep both and keep its tags, whatever the loads
      return. */
  lemma EditingWithSelectionKeepsTags(f: Form, levels: Option<seq<Id>>, subjects: Option<seq<Id>>)
    requires f.classLevel != "" && f.subject != ""
    ensures var g := SelectionEffect(ClassLevelEffect(LoadClassLevels(
      SelectionEffect(ClassLevelEffect(f, true, None)), true, f.classLevel, levels), true, subjects));
      g == f
  {
  }

  /** The effect on class level and subject: without both the tags are
      cleared; with both only the chapter options are reloaded. */
  function SelectionEffect(f: Form): (r: Form)
    ensures f.classLevel == "" || f.subject == "" ==> r.tags == []
    ensures f.classLevel != "" && f.subject != "" ==> r == f
    ensures r.(tags := f.tags) == f
  {
    if f.classLevel != "" && f.subject != "" then f else f.(tags := [])
  }

  /** After clearing the class level and letting both effects run, the
      form can only be rejected for its selection. */
  lemma ClearedClassLevelBlocksSubmit(f: Form, editing: bool, loaded: Option<seq<Id>>)
    ensures var g := SelectionEffect(ClassLevelEffect(f.(classLevel := ""), editing, loaded));
      g.subject == "" && g.tags == [] && HandleSubmit(g) == Rejected(SelectionError)
  {
  }
}

=== FILE: exercise_store.dfy ===
/** The exercise tables behind the create and update serializers: an
    exercise with its chapter and class-level links, its optional solution
    (a one-to-one relation), and the uniqueness constraints on class-level
    and chapter ordering. */
module ExerciseStore {
  import opened Common

  // ---------------------------------------------------------------------
  // Class levels and chapters

  datatype ClassLevel = ClassLevel(name: string, order: nat)

  /** `order = PositiveIntegerField(unique=True)`. */
  predicate OrdersUnique(levels: seq<ClassLevel>) {
    forall i, j :: 0 <= i < j < |levels| ==> levels[i].order != levels[j].order
  }

  /** An insert into the class-level table: None is the integrity error. */
  function InsertClassLevel(levels: seq<ClassLevel>, l: ClassLevel): (r: Option<seq<ClassLevel>>)
    ensures r.None? <==> exists i :: 0 <= i < |levels| && levels[i].order == l.order
    ensures r.Some? ==> r.value == levels + [l]
    ensures OrdersUnique(levels) && r.Some? ==> OrdersUnique(r.value)
  {
    if exists i :: 0 <= i < |levels| && levels[i].order == l.order then None else Some(levels + [l])
  }

  datatype Chapter = Chapter(name: string, subject: nat, order: nat)

  /** `unique_together = ['subject', 'order']`. */
  predicate ChapterKeysUnique(chapters: seq<Chapter>) {
    forall i, j :: 0 <= i < j < |chapters| ==>
      (chapters[i].subject, chapters[i].order) != (chapters[j].subject, chapters[j].order)
  }

  predicate OrderTaken(chapters: seq<Chapter>, subject: nat, order: nat) {
    exists i :: 0 <= i < |chapters| && chapters[i].subject == subject && chapters[i].order == order
  }

  function InsertChapter(chapters: seq<Chapter>, c: Chapter): (r: Option<seq<Chapter>>)
    ensures r.None? <==> OrderTaken(chapters, c.subject, c.order)
    ensures r.Some? ==> r.value == chapters + [c]
    ensures ChapterKeysUnique(chapters) && r.Some? ==> ChapterKeysUnique(r.value)
  {
    if OrderTaken(chapters, c.subject, c.order) then None
    else Some(chapters + [c])
  }

  /** Two subjects may both use the same order number. */
  lemma SameOrderInOtherSubject(name: string, s1: nat, s2: nat, order: nat)
    requires s1 != s2
    ensures InsertChapter([Chapter(name, s1, order)], Chapter(name, s2, order)).Some?
  {
  }

  // ---------------------------------------------------------------------
  // Exercises and solutions

  datatype Exercise = Exercise(title: string, content: string, difficulty: string, author: UserId,
                               subject: Option<nat>, chapters: set<nat>, classLevels: set<nat>)

  datatype Solution = Solution(exercise: nat, content: string, author: UserId)

  datatype Store = Store(exercises: map<nat, Exercise>, solutions: seq<Solution>, next: nat)

  /** `OneToOneField(Exercise)`: at most one solution per exercise, and
      each belongs to an existing exercise. */
  predicate Valid(s: Store) {
    (forall id :: id in s.exercises ==> id < s.next) &&
    (forall i :: 0 <= i < |s.solutions| ==> s.solutions[i].exercise in s.exercises) &&
    (forall i, j :: 0 <= i < j < |s.solutions| ==> s.solutions[i].exercise != s.solutions[j].exercise)
  }

  /** The position of the exercise's solution, if it has one. */
  function SolutionOf(sols: seq<Solution>, e: nat): (r: Option<nat>)
    ensures r.Some? ==> r.value < |sols| && sols[r.value].exercise == e
    ensures r.None? ==> forall i :: 0 <= i < |sols| ==> sols[i].exercise != e
  {
    if sols == [] then None
    else if sols[|sols| - 1].exercise == e then Some(|sols| - 1)
    else SolutionOf(sols[..|sols| - 1], e)
  }

  /** The writable scalar fields; an absent one is left as it is. */
  datatype Fields = Fields(title: Option<string>, content: Option<string>,
                           difficulty: Option<string>, subject: Option<Option<nat>>)

  function Assign<T>(current: T, given: Option<T>): (r: T)
    ensures given.Some? ==> r == given.value
    ensures given.None? ==> r == current
  {
    match given
    case None => current
    case Some(v) => v
  }

  /** `setattr` for every field present in the validated data: a given
      field takes the given value, an absent one keeps its value. */
  function SetFields(e: Exercise, f: Fields): (r: Exercise)
    ensures r.author == e.author && r.chapters == e.chapters && r.classLevels == e.classLevels
    ensures f.title.Some? ==> r.title == f.title.value
    ensures f.title.None? ==> r.title == e.title
    ensures f.content.Some? ==> r.content == f.content.value
    ensures f.content.None? ==> r.content == e.content
    ensures f.difficulty.Some? ==> r.difficulty == f.difficulty.value
    ensures f.difficulty.None? ==> r.difficulty == e.difficulty
    ensures f.subject.Some? ==> r.subject == f.subject.value
    ensures f.subject.None? ==> r.subject == e.subject
    ensures f == Fields(None, None, None, None) ==> r == e
  {
    e.(title := Assign(e.title, f.title), content := Assign(e.content, f.content),
       difficulty := Assign(e.difficulty, f.difficulty), subject := Assign(e.subject, f.subject))
  }

  /** Field sets applied one after the other: a field of the later set
      wins, and otherwise the earlier one's. */
  function Then(f: Fields, g: Fields): Fields {
    Fields(if g.title.Some? then g.title else f.title,
           if g.content.Some? then g.content else f.content,
           if g.difficulty.Some? then g.difficulty else f.difficulty,
           if g.subject.Some? then g.subject else f.subject)
  }

  /** Two updates in a row are one update with the later fields winning;
      in particular repeating an update changes nothing more. */
  lemma SetFieldsThen(e: Exercise, f: Fields, g: Fields)
    ensures SetFields(SetFields(e, f), g) == SetFields(e, Then(f, g))
    ensures SetFields(SetFields(e, f), f) == SetFields(e, f)
  {
    assert Then(f, f) == f;
  }

  datatype Created = Created(store: Store, id: nat)

  /** `ExerciseCreateSerializer.create`: the exercise by the requesting
      user, its links when given, and a solution by the same author exactly
      when `solution_content` is non-empty. */
  function CreateExercise(s: Store, author: UserId, title: string, content: string, difficulty: string,
                          subject: Option<nat>, chapters: set<nat>, classLevels: set<nat>,
                          solutionContent: Option<string>): (r: Created)
    ensures r.id == s.next && r.store.next == s.next + 1
    ensures r.store.exercises == s.exercises[r.id := Exercise(title, content, difficulty, author,
                                                              subject, chapters, classLevels)]
    ensures Valid(s) ==> r.id !in s.exercises && Valid(r.store)
    ensures Valid(s) ==> (SolutionOf(r.store.solutions, r.id).Some? <==>
      solutionContent.Some? && solutionContent.value != "")
    ensures Valid(s) && SolutionOf(r.store.solutions, r.id).Some? ==>
      r.store.solutions[SolutionOf(r.store.solutions, r.id).value] ==
        Solution(r.id, solutionContent.value, author)
    ensures |s.solutions| <= |r.store.solutions| <= |s.solutions| + 1 && r.store.solutions[..|s.solutions|] == s.solutions
    ensures forall x :: x != r.id ==> SolutionContent(r.store, x) == SolutionContent(s, x)
  {
    var id := s.next;
    var e := Exercise(title, content, difficulty, author, subject, chapters, classLevels);
    var sols := if solutionContent.Some? && solutionContent.value != "" then
      s.solutions + [Solution(id, solutionContent.value, author)] else s.solutions;
    assert Valid(s) ==> SolutionOf(s.solutions, id).None?;
    var st := Store(s.exercises[id := e], sols, id + 1);
    assert forall x :: x != id ==> SolutionContent(st, x) == SolutionContent(s, x) by {
      if sols != s.solutions {
        forall x | x != id ensures SolutionContent(st, x) == SolutionContent(s, x) {
          AppendedSolutionKeepsOthers(s.solutions, Solution(id, solutionContent.value, author), x);
        }
      }
    }
    Created(st, id)
  }

  /** A solution appended for one exercise leaves the lookup of every other
      exercise as it was. */
  lemma AppendedSolutionKeepsOthers(sols: seq<Solution>, n: Solution, x: nat)
    requires n.exercise != x
    ensures SolutionOf(sols + [n], x) == SolutionOf(sols, x)
  {
    assert (sols + [n])[..|sols|] == sols;
  }

  /** `ExerciseCreateSerializer.update`: present fields are set, the links
      are replaced only when given, and a given `solution_content` ends up
      on the exercise's one solution, created with the exercise's author
      if missing. Other exercises and their solutions are left alone. */
  function UpdateExercise(s: Store, id: nat, f: Fields, chapters: Option<set<nat>>,
                          classLevels: Option<set<nat>>, solutionContent: Option<string>): (r: Store)
    requires id in s.exercises
    ensures r.next == s.next && r.exercises.Keys == s.exercises.Keys
    ensures forall x :: x in s.exercises && x != id ==> r.exercises[x] == s.exercises[x]
    ensures r.exercises[id].author == s.exercises[id].author
    ensures r.exercises[id].title == (if f.title.Some? then f.title.value else s.exercises[id].title)
    ensures r.exercises[id].content == (if f.content.Some? then f.content.value else s.exercises[id].content)
    ensures r.exercises[id].difficulty ==
      (if f.difficulty.Some? then f.difficulty.value else s.exercises[id].difficulty)
    ensures r.exercises[id].subject == (if f.subject.Some? then f.subject.value else s.exercises[id].subject)
    ensures forall x :: x != id ==> SolutionContent(r, x) == SolutionContent(s, x)
    ensures r.exercises[id].chapters == Assign(s.exercises[id].chapters, chapters)
    ensures r.exercises[id].classLevels == Assign(s.exercises[id].classLevels, classLevels)
    ensures solutionContent.None? ==> r.solutions == s.solutions
    ensures Valid(s) ==> Valid(r)
    ensures Valid(s) && solutionContent.Some? ==>
      SolutionOf(r.solutions, id).Some? &&
      r.solutions[SolutionOf(r.solutions, id).value].content == solutionContent.value
  {
    var e := SetFields(s.exercises[id], f);
    var e' := e.(chapters := Assign(e.chapters, chapters), classLevels := Assign(e.classLevels, classLevels));
    var sols := match solutionContent
      case None => s.solutions
      case Some(c) => SetSolution(s.solutions, id, e'.author, c);
    var r := Store(s.exercises[id := e'], sols, s.next);
    assert Valid(s) ==> Valid(r) by {
      if Valid(s) && solutionContent.Some? {
        SetSolutionValid(s, id, e', solutionContent.value);
      }
    }
    assert forall x :: x != id ==> SolutionContent(r, x) == SolutionContent(s, x) by {
      if solutionContent.Some? {
        forall x | x != id ensures SolutionContent(r, x) == SolutionContent(s, x) {
          SetSolutionOthers(s.solutions, id, e'.author, solutionContent.value, x);
        }
      }
    }
    assert Valid(s) && solutionContent.Some? ==>
      SolutionOf(r.solutions, id).Some? && r.solutions[SolutionOf(r.solutions, id).value].content == solutionContent.value by {
      if Valid(s) && solutionContent.Some? {
        SetSolutionFound(s.solutions, id, e'.author, solutionContent.value);
      }
    }
    r
  }

  /** `Solution.objects.get_or_create(exercise=…)` followed by setting its
      content. */
  function SetSolution(sols: seq<Solution>, e: nat, author: UserId, content: string): (r: seq<Solution>)
    ensures SolutionOf(sols, e).Some? ==> (|r| == |sols| &&
      r[SolutionOf(sols, e).value] == sols[SolutionOf(sols, e).value].(content := content) &&
      forall i :: 0 <= i < |sols| && i != SolutionOf(sols, e).value ==> r[i] == sols[i])
    ensures SolutionOf(sols, e).None? ==> r == sols + [Solution(e, content, author)]
  {
    match SolutionOf(sols, e)
    case Some(i) => sols[i := sols[i].(content := content)]
    case None => sols + [Solution(e, content, author)]
  }

  /** Setting one exercise's solution leaves the solution of every other
      exercise as it was. */
  lemma SetSolutionOthers(sols: seq<Solution>, e: nat, author: UserId, content: string, x: nat)
    requires x != e
    ensures var r := SetSolution(sols, e, author, content);
      SolutionOf(r, x) == SolutionOf(sols, x) &&
      (SolutionOf(sols, x).Some? ==> r[SolutionOf(sols, x).value] == sols[SolutionOf(sols, x).value])
  {
    var r := SetSolution(sols, e, author, content);
    match SolutionOf(sols, e)
    case Some(i) =>
      SolutionOfSameExercises(r, sols, x);
    case None =>
      assert r[..|sols|] == sols;
  }

  /** The lookup reads only the exercise of each solution. */
  lemma {:induction false} SolutionOfSameExercises(a: seq<Solution>, b: seq<Solution>, x: nat)
    requires |a| == |b| && forall i :: 0 <= i < |a| ==> a[i].exercise == b[i].exercise
    ensures SolutionOf(a, x) == SolutionOf(b, x)
  {
    if a != [] {
      SolutionOfSameExercises(a[..|a| - 1], b[..|b| - 1], x);
    }
  }

  /** Setting the solution of an existing exercise keeps one solution per
      exercise, each on an existing exercise. */
  lemma SetSolutionValid(s: Store, id: nat, e: Exercise, content: string)
    requires Valid(s) && id in s.exercises
    ensures Valid(Store(s.exercises[id := e], SetSolution(s.solutions, id, e.author, content), s.next))
  {
    var sols := SetSolution(s.solutions, id, e.author, content);
    match SolutionOf(s.solutions, id)
    case Some(k) =>
      assert forall i :: 0 <= i < |sols| ==> sols[i].exercise == s.solutions[i].exercise;
    case None =>
      assert forall i :: 0 <= i < |s.solutions| ==> sols[i] == s.solutions[i];
  }

  /** With unique solutions, the updated one is the one found afterwards. */
  lemma SetSolutionFound(sols: seq<Solution>, e: nat, author: UserId, content: string)
    requires forall i, j :: 0 <= i < j < |sols| ==> sols[i].exercise != sols[j].exercise
    ensures var r := SetSolution(sols, e, author, content);
      SolutionOf(r, e).Some? && r[SolutionOf(r, e).value].content == content
  {
    var r := SetSolution(sols, e, author, content);
    var k := SolutionOf(r, e).value;
    match SolutionOf(sols, e)
    case Some(i) =>
      assert r[i].exercise == e;
      assert k == i;
    case None =>
      assert r[|sols|].exercise == e;
      assert k == |sols|;
  }

  /** Setting the solution twice keeps one solution, with the later
      content. */
  lemma SolutionUpdateKeepsOne(s: Store, id: nat, c1: string, c2: string)
    requires Valid(s) && id in s.exercises
    ensures var none := Fields(None, None, None, None);
      var s1 := UpdateExercise(s, id, none, None, None, Some(c1));
      var s2 := UpdateExercise(s1, id, none, None, None, Some(c2));
      |s2.solutions| == |s1.solutions| && |s1.solutions| <= |s.solutions| + 1 &&
      Valid(s2) && SolutionContent(s2, id) == Some(c2)
  {
    var none := Fields(None, None, None, None);
    var s1 := UpdateExercise(s, id, none, None, None, Some(c1));
    assert SolutionOf(s1.solutions, id).Some?;
  }

  /** The content of the exercise's solution, if it has one. */
  function SolutionContent(s: Store, id: nat): Option<string> {
    match SolutionOf(s.solutions, id)
    case None => None
    case Some(i) => Some(s.solutions[i].content)
  }
}

=== FILE: filters.dfy ===
/** The exercise filter bar: one class level, one subject, a list of
    chapter tags and a difficulty; what it hands to its parent, and the
    resets that keep the tags consistent with the chosen class level and
    subject. The empty string stands for "nothing chosen". */
module Filters {
  import opened Common
  import opened Selection

  datatype FilterBar = FilterBar(classLevel: string, subject: string, tags: seq<Id>, difficulty: Option<string>)

  /** What `onFilterChange` receives; None is an absent (undefined) field. */
  datatype Emitted = Emitted(classLevel: Option<string>, subject: Option<string>,
                             tags: Option<seq<Id>>, difficulty: Option<string>)

  const NoFilters: Emitted := Emitted(None, None, None, None)

  /** An empty choice becomes absent; anything else passes through. */
  function OrAbsent<T>(present: bool, v: T): (r: Option<T>)
    ensures r.Some? <==> present
    ensures r.Some? ==> r.value == v
  {
    if present then Some(v) else None
  }

  /** `handleFilterChange`. */
  function HandleFilterChange(b: FilterBar): (r: Emitted)
    ensures r.classLevel.None? <==> b.classLevel == ""
    ensures r.classLevel.Some? ==> r.classLevel.value == b.classLevel
    ensures r.subject.None? <==> b.subject == ""
    ensures r.subject.Some? ==> r.subject.value == b.subject
    ensures r.tags.None? <==> b.tags == []
    ensures r.tags.Some? ==> r.tags.value == b.tags
    ensures r.difficulty == b.difficulty
  {
    Emitted(OrAbsent(b.classLevel != "", b.classLevel), OrAbsent(b.subject != "", b.subject),
            OrAbsent(|b.tags| > 0, b.tags), b.difficulty)
  }

  /** Reading the emitted filters back gives the bar they came from: no
      choice is lost by turning empty ones into absent ones. */
  function Restore(e: Emitted): FilterBar {
    FilterBar(match e.classLevel case None => "" case Some(c) => c,
              match e.subject case None => "" case Some(s) => s,
              match e.tags case None => [] case Some(t) => t,
              e.difficulty)
  }

  lemma EmitRestores(b: FilterBar)
    ensures Restore(HandleFilterChange(b)) == b
  {
  }

  /** `clearFilters`: every field reset and `{}` emitted. */
  function ClearFilters(b: FilterBar): (r: (FilterBar, Emitted))
    ensures r.1 == NoFilters
    ensures r.0.classLevel == "" && r.0.subject == "" && r.0.tags == [] && r.0.difficulty.None?
  {
    (FilterBar("", "", [], None), NoFilters)
  }

  /** The cleared bar emits exactly what clearing emitted. */
  lemma ClearedBarEmitsNothing(b: FilterBar)
    ensures HandleFilterChange(ClearFilters(b).0) == ClearFilters(b).1
  {
  }

  /** `toggleTag`. */
  function ToggleTag(b: FilterBar, tag: Id): (r: FilterBar)
    ensures tag in r.tags <==> tag !in b.tags
    ensures forall w :: w != tag ==> (w in r.tags <==> w in b.tags)
    ensures r.classLevel == b.classLevel && r.subject == b.subject && r.difficulty == b.difficulty
  {
    b.(tags := Toggle(b.tags, tag))
  }

  /** The effect on class level and subject: with both chosen the chapters
      are reloaded, and a successful load clears the tags; with either one
      missing the tags are cleared at once. `loaded` is whether the chapter
      request succeeded. */
  function SelectionEffect(b: FilterBar, loaded: bool): (r: FilterBar)
    ensures r.classLevel == b.classLevel && r.subject == b.subject && r.difficulty == b.difficulty
    ensures (b.classLevel == "" || b.subject == "") ==> r.tags == []
    ensures r.tags == [] || r.tags == b.tags
    ensures r.tags != [] ==> b.classLevel != "" && b.subject != "" && !loaded
  {
    if b.classLevel != "" && b.subject != "" then
      if loaded then b.(tags := []) else b
    else
      b.(tags := [])
  }

  /** The effect on class level: when it becomes empty every subject is
      reloaded, and a successful load resets the chosen subject. */
  function ClassLevelEffect(b: FilterBar, loaded: bool): (r: FilterBar)
    ensures r.classLevel == b.classLevel && r.tags == b.tags && r.difficulty == b.difficulty
    ensures b.classLevel == "" && loaded ==> r.subject == ""
    ensures !(b.classLevel == "" && loaded) ==> r.subject == b.subject
  {
    if b.classLevel == "" then LoadSubjects(b, loaded) else b
  }

  /** `loadSubjects`: on success the chosen subject is reset. */
  function LoadSubjects(b: FilterBar, loaded: bool): (r: FilterBar)
    ensures loaded ==> r.subject == ""
    ensures r.classLevel == b.classLevel && r.tags == b.tags && r.difficulty == b.difficulty
    ensures !loaded ==> r == b
  {
    if loaded then b.(subject := "") else b
  }

  /** Clearing the class level ends, once both effects have run, with no
      tags chosen, whether or not the loads succeed. */
  lemma ClearingClassLevelDropsTags(b: FilterBar, subjectsLoaded: bool, chaptersLoaded: bool)
    ensures var b1 := ClassLevelEffect(b.(classLevel := ""), subjectsLoaded);
            SelectionEffect(b1, chaptersLoaded).tags == []
  {
  }
}

=== FILE: lessons_filters.dfy ===
/** The lesson filter panel: three categories of selected ids, each
    toggled with the shared membership toggle, a count of active filters,
    the chapter reset, display names, and the de-duplication of the lists
    the panel loads. */
module LessonsFilters {
  import opened Common
  import opened Selection

  datatype Category = ClassLevels | Subjects | Chapters

  datatype Selected = Selected(classLevels: seq<Id>, subjects: seq<Id>, chapters: seq<Id>)

  function Get(s: Selected, c: Category): seq<Id> {
    match c
    case ClassLevels => s.classLevels
    case Subjects => s.subjects
    case Chapters => s.chapters
  }

  /** `toggleFilter`: the value's membership flips in one category; other
      values of that category and the other categories are untouched. */
  function ToggleFilter(s: Selected, c: Category, v: Id): (r: Selected)
    ensures v in Get(r, c) <==> v !in Get(s, c)
    ensures forall w :: w != v ==> (w in Get(r, c) <==> w in Get(s, c))
    ensures v !in Get(s, c) ==> Get(r, c) == Get(s, c) + [v]
    ensures v in Get(s, c) ==> Get(r, c) == RemoveAll(Get(s, c), v)
    ensures forall d :: d != c ==> Get(r, d) == Get(s, d)
  {
    match c
    case ClassLevels => s.(classLevels := Toggle(s.classLevels, v))
    case Subjects => s.(subjects := Toggle(s.subjects, v))
    case Chapters => s.(chapters := Toggle(s.chapters, v))
  }

  /** `getActiveFiltersCount`. */
  function ActiveCount(s: Selected): nat {
    |s.classLevels| + |s.subjects| + |s.chapters|
  }

  /** A toggle adds one to the count when it selects, and lowers it when it
      deselects (by the number of copies removed). */
  lemma ToggleFilterCount(s: Selected, c: Category, v: Id)
    ensures v !in Get(s, c) ==> ActiveCount(ToggleFilter(s, c, v)) == ActiveCount(s) + 1
    ensures v in Get(s, c) ==> ActiveCount(ToggleFilter(s, c, v)) < ActiveCount(s)
  {
  }

  /** `clearAllFilters`: nothing selected, so nothing counted. */
  function ClearAll(): (r: Selected)
    ensures ActiveCount(r) == 0
    ensures forall c :: Get(r, c) == []
  {
    Selected([], [], [])
  }

  /** A selection counts zero exactly when it is the cleared one. */
  lemma CountZeroIffCleared(s: Selected)
    ensures ActiveCount(s) == 0 <==> s == ClearAll()
  {
  }

  /** The effect on class levels and subjects: chapter options only make
      sense with both chosen, so otherwise the chapters are emptied. */
  function ChapterReset(s: Selected): (r: Selected)
    ensures r.classLevels == s.classLevels && r.subjects == s.subjects
    ensures r.chapters != [] ==> s.classLevels != [] && s.subjects != []
    ensures s.classLevels != [] && s.subjects != [] ==> r == s
  {
    if |s.classLevels| > 0 && |s.subjects| > 0 then s else s.(chapters := [])
  }

  /** Deselecting the last class level or subject also drops the chapters. */
  lemma DeselectLastDropsChapters(s: Selected, c: Category, v: Id)
    requires c != Chapters && Get(s, c) == [v]
    ensures ChapterReset(ToggleFilter(s, c, v)).chapters == []
  {
    assert Get(ToggleFilter(s, c, v), c) == [];
  }

  // ---------------------------------------------------------------------
  // Loaded option lists

  datatype Item = Item(id: Id, name: string)

  /** `k` is the first position of `items` carrying `id`. */
  predicate IsFirstWith(items: seq<Item>, k: int, id: Id) {
    0 <= k < |items| && items[k].id == id && forall j :: 0 <= j < k ==> items[j].id != id
  }

  /** `getFilterName` for the three categories: the name of the first item
      with that id, else the id itself. */
  function FilterName(items: seq<Item>, id: Id): (r: string)
    ensures (forall k :: 0 <= k < |items| ==> items[k].id != id) ==> r == id
    ensures forall k :: IsFirstWith(items, k, id) ==> r == items[k].name
  {
    if items == [] then id
    else if items[0].id == id then items[0].name
    else
      FirstWithTail(items, id);
      FilterName(items[1..], id)
  }

  /** Past a head without the id, the first position moves down by one. */
  lemma FirstWithTail(items: seq<Item>, id: Id)
    requires items != [] && items[0].id != id
    ensures forall k :: IsFirstWith(items, k, id) ==> IsFirstWith(items[1..], k - 1, id)
    ensures (forall k :: 0 <= k < |items[1..]| ==> items[1..][k].id != id) ==>
      forall k :: 0 <= k < |items| ==> items[k].id != id
  {
    forall k | IsFirstWith(items, k, id) ensures IsFirstWith(items[1..], k - 1, id) {
      assert k != 0;
    }
    if forall k :: 0 <= k < |items[1..]| ==> items[1..][k].id != id {
      forall k | 0 <= k < |items| ensures items[k].id != id {
        if k > 0 { assert items[k] == items[1..][k - 1]; }
      }
    }
  }

  /** The ids of a list, in order. */
  function Ids(xs: seq<Item>): (r: seq<Id>)
    ensures |r| == |xs| && forall k :: 0 <= k < |xs| ==> r[k] == xs[k].id
  {
    if xs == [] then [] else Ids(xs[..|xs| - 1]) + [xs[|xs| - 1].id]
  }

  /** The distinct ids of a list in order of first occurrence. */
  function FirstOccurrences(xs: seq<Item>): seq<Id> {
    if xs == [] then []
    else
      var d := FirstOccurrences(xs[..|xs| - 1]);
      if xs[|xs| - 1].id in d then d else d + [xs[|xs| - 1].id]
  }

  /** The last item of the list carrying the id, if any. */
  function LastWith(xs: seq<Item>, id: Id): (r: Option<Item>)
    ensures r.Some? ==> r.value in xs && r.value.id == id
    ensures r.None? <==> id !in Ids(xs)
  {
    if xs == [] then None
    else if xs[|xs| - 1].id == id then Some(xs[|xs| - 1])
    else
      var r := LastWith(xs[..|xs| - 1], id);
      assert Ids(xs) == Ids(xs[..|xs| - 1]) + [xs[|xs| - 1].id];
      r
  }

  predicate Distinct(ids: seq<Id>) {
    forall a, b :: 0 <= a < b < |ids| ==> ids[a] != ids[b]
  }

  /** The first-occurrence list has no repeats and names exactly the ids
      of the input. */
  lemma {:induction false} FirstOccurrencesSpec(xs: seq<Item>)
    ensures Distinct(FirstOccurrences(xs))
    ensures forall id :: id in FirstOccurrences(xs) <==> id in Ids(xs)
  {
    if xs != [] {
      var init := xs[..|xs| - 1];
      FirstOccurrencesSpec(init);
      assert Ids(xs) == Ids(init) + [xs[|xs| - 1].id];
    }
  }

  /** The first-occurrence list of any prefix is a prefix of the whole
      one: an id is placed when it first appears and never moved. */
  lemma {:induction false} FirstOccurrencesPrefix(xs: seq<Item>, i: nat)
    requires i <= |xs|
    ensures FirstOccurrences(xs[..i]) <= FirstOccurrences(xs)
    decreases |xs| - i
  {
    if i < |xs| {
      FirstOccurrencesPrefix(xs, i + 1);
      assert xs[..i + 1][..i] == xs[..i];
    } else {
      assert xs[..i] == xs;
    }
  }

  /** One more item: its id is placed if new, and it becomes the last
      item for its id. */
  lemma PrefixStep(xs: seq<Item>, i: nat)
    requires i < |xs|
    ensures FirstOccurrences(xs[..i + 1]) ==
      FirstOccurrences(xs[..i]) + (if xs[i].id in FirstOccurrences(xs[..i]) then [] else [xs[i].id])
  {
    assert xs[..i + 1][..i] == xs[..i];
  }

  lemma LastWithStep(xs: seq<Item>, i: nat, id: Id)
    requires i < |xs|
    ensures LastWith(xs[..i + 1], id) == if xs[i].id == id then Some(xs[i]) else LastWith(xs[..i], id)
  {
    assert xs[..i + 1][..i] == xs[..i];
  }

  /** The Map built from the items: its keys in insertion order, and the
      value each key was last given. */
  method BuildIndex(xs: seq<Item>) returns (keys: seq<Id>, vals: map<Id, Item>)
    ensures keys == FirstOccurrences(xs)
    ensures forall id :: id in vals <==> id in keys
    ensures forall id :: id in vals ==> LastWith(xs, id) == Some(vals[id])
  {
    keys := [];
    vals := map[];
    var i := 0;
    while i < |xs|
      invariant 0 <= i <= |xs|
      invariant keys == FirstOccurrences(xs[..i])
      invariant forall id :: id in vals <==> id in keys
      invariant forall id :: id in vals ==> LastWith(xs[..i], id) == Some(vals[id])
    {
      var x := xs[i];
      PrefixStep(xs, i);
      var vals' := vals[x.id := x];
      forall id | id in vals'
        ensures LastWith(xs[..i + 1], id) == Some(vals'[id])
      {
        LastWithStep(xs, i, id);
      }
      if x.id !in vals {
        keys := keys + [x.id];
      }
      vals := vals';
      i := i + 1;
    }
    assert xs[..i] == xs;
  }

  /** `map.values()`: the values in key order. */
  method ValuesInOrder(keys: seq<Id>, vals: map<Id, Item>) returns (r: seq<Item>)
    requires forall id :: id in keys ==> id in vals
    ensures |r| == |keys| && forall j :: 0 <= j < |r| ==> r[j] == vals[keys[j]]
  {
    r := [];
    var k := 0;
    while k < |keys|
      invariant 0 <= k <= |keys|
      invariant |r| == k && forall j :: 0 <= j < k ==> r[j] == vals[keys[j]]
    {
      r := r + [vals[keys[k]]];
      k := k + 1;
    }
  }

  /** `getUniqueById`: `new Map(items.map(i => [i.id, i])).values()`. A Map
      keeps a key where it was first inserted and the value it was last
      given: one item per id, ids in order of first occurrence, each the
      last item carrying that id. */
  method UniqueById(xs: seq<Item>) returns (r: seq<Item>)
    ensures |r| == |FirstOccurrences(xs)|
    ensures forall k :: 0 <= k < |r| ==>
      r[k].id == FirstOccurrences(xs)[k] && LastWith(xs, r[k].id) == Some(r[k])
    ensures Distinct(Ids(r))
    ensures forall id :: id in Ids(r) <==> id in Ids(xs)
  {
    var keys, vals := BuildIndex(xs);
    r := ValuesInOrder(keys, vals);
    forall j | 0 <= j < |r| ensures r[j].id == keys[j] && LastWith(xs, r[j].id) == Some(r[j]) {
      assert LastWith(xs, keys[j]) == Some(vals[keys[j]]);
    }
    FirstOccurrencesSpec(xs);
    assert Ids(r) == keys;
  }
}

=== FILE: math_tokens.dfy ===
/** Splitting text into plain runs and LaTeX math, as the renderers do with
    `text.split(regex)`. Two regular expressions are in use:

      full:        (\$\$[\s\S]*?\$\$|\$[\s\S]*?\$)   exercise page, preview, editor
      single-line: (\$.*?\$)                          home cards

    Each is written out as an explicit matcher at one position, next to a
    declarative statement of what the regular expression accepts there.
    `split` with a capturing group returns the text runs and the matches
    alternately, so the list always has odd length. */
module MathTokens {
  import opened Common

  datatype Flavour = Full | SingleLine

  /** The characters `.` does not match. */
  predicate IsLineTerminator(c: char) {
    c == '\n' || c == '\r' || c == '\U{2028}' || c == '\U{2029}'
  }

  /** "$$" starts at k. */
  predicate PairAt(s: string, k: int) {
    0 <= k && k + 1 < |s| && s[k] == '$' && s[k + 1] == '$'
  }

  // ---------------------------------------------------------------------
  // What the regular expressions accept at position q, ending at e

  /** `\$\$[\s\S]*?\$\$`: the lazy body stops at the first "$$". */
  predicate BlockMatch(s: string, q: int, e: int) {
    0 <= q && q + 4 <= e <= |s| && PairAt(s, q) && PairAt(s, e - 2) &&
    forall k :: q + 2 <= k < e - 2 ==> !PairAt(s, k)
  }

  /** `\$[\s\S]*?\$`: the lazy body stops at the first '$'. */
  predicate InlineMatch(s: string, q: int, e: int) {
    0 <= q && q + 2 <= e <= |s| && s[q] == '$' && s[e - 1] == '$' &&
    forall k :: q + 1 <= k < e - 1 ==> s[k] != '$'
  }

  /** `\$.*?\$`: as above, but no line terminator may occur in the body. */
  predicate LineMatch(s: string, q: int, e: int) {
    InlineMatch(s, q, e) && forall k :: q + 1 <= k < e - 1 ==> !IsLineTerminator(s[k])
  }

  // ---------------------------------------------------------------------
  // The matchers

  /** The first "$$" at or after `from`. */
  function FindPair(s: string, from: nat): (r: Option<nat>)
    ensures r.Some? ==> (from <= r.value && PairAt(s, r.value) &&
      forall k :: from <= k < r.value ==> !PairAt(s, k))
    ensures r.None? ==> forall k :: from <= k ==> !PairAt(s, k)
    decreases |s| - from
  {
    if from + 1 >= |s| then None
    else if PairAt(s, from) then Some(from)
    else FindPair(s, from + 1)
  }

  /** The first '$' at or after `from`; with `stopAtLine`, the search
      fails at a line terminator. */
  function FindDollar(s: string, from: nat, stopAtLine: bool): (r: Option<nat>)
    ensures r.Some? ==> (from <= r.value < |s| && s[r.value] == '$' &&
      forall k :: from <= k < r.value ==> s[k] != '$' && (stopAtLine ==> !IsLineTerminator(s[k])))
    ensures r.None? && !stopAtLine ==> forall k :: from <= k < |s| ==> s[k] != '$'
    ensures r.None? && stopAtLine ==> forall j :: from <= j < |s| && s[j] == '$' ==>
      exists k :: from <= k < j && IsLineTerminator(s[k])
    decreases |s| - from
  {
    if from >= |s| then None
    else if s[from] == '$' then Some(from)
    else if stopAtLine && IsLineTerminator(s[from]) then None
    else FindDollar(s, from + 1, stopAtLine)
  }

  /** The end of the match starting exactly at q, if any. The full
      expression tries the "$$" alternative first. */
  function MatchAt(f: Flavour, s: string, q: nat): (r: Option<nat>)
    ensures r.Some? ==> q + 2 <= r.value <= |s| && s[q] == '$' && s[r.value - 1] == '$'
  {
    if q >= |s| || s[q] != '$' then None
    else
      match f
      case Full =>
        var pair := if PairAt(s, q) then FindPair(s, q + 2) else None;
        if pair.Some? then Some(pair.value + 2)
        else
          var d := FindDollar(s, q + 1, false);
          if d.Some? then Some(d.value + 1)
          else
            None
      case SingleLine =>
        var d := FindDollar(s, q + 1, true);
        if d.Some? then Some(d.value + 1)
        else
          None
  }

  /** The full matcher accepts exactly what the regular expression accepts:
      the block alternative when it matches, else the inline one. */
  lemma MatchAtFull(s: string, q: nat)
    ensures var r := MatchAt(Full, s, q);
      (r.Some? ==> BlockMatch(s, q, r.value) ||
                   (InlineMatch(s, q, r.value) && forall e :: !BlockMatch(s, q, e))) &&
      (r.None? ==> forall e :: !BlockMatch(s, q, e) && !InlineMatch(s, q, e))
  {
  }

  /** A '$' where the full expression fails has no '$' anywhere after it. */
  lemma FullFailureIsFinal(s: string, q: nat)
    requires q < |s| && s[q] == '$' && MatchAt(Full, s, q).None?
    ensures forall j :: q < j < |s| ==> s[j] != '$'
  {
    assert FindDollar(s, q + 1, false).None?;
  }

  /** The single-line matcher accepts exactly what `\$.*?\$` accepts. */
  lemma MatchAtSingleLine(s: string, q: nat)
    ensures var r := MatchAt(SingleLine, s, q);
      (r.Some? ==> LineMatch(s, q, r.value)) &&
      (r.None? ==> forall e :: !LineMatch(s, q, e))
  {
    var r := MatchAt(SingleLine, s, q);
    if r.None? && q < |s| && s[q] == '$' {
      forall e | LineMatch(s, q, e) ensures false {
      }
    }
  }

  /** The leftmost match at or after p. */
  function NextMatch(f: Flavour, s: string, p: nat): (r: Option<(nat, nat)>)
    ensures r.Some? ==> p <= r.value.0 && MatchAt(f, s, r.value.0) == Some(r.value.1)
    ensures r.Some? ==> forall i :: p <= i < r.value.0 ==> MatchAt(f, s, i).None?
    ensures r.None? ==> forall i :: p <= i ==> MatchAt(f, s, i).None?
    decreases |s| - p
  {
    if p >= |s| then None
    else
      match MatchAt(f, s, p)
      case Some(e) => Some((p, e))
      case None => NextMatch(f, s, p + 1)
  }

  function Concat(parts: seq<string>): string {
    if parts == [] then [] else parts[0] + Concat(parts[1..])
  }

  /** A part the split returned as a match. */
  predicate IsToken(t: string) {
    |t| >= 2 && t[0] == '$' && t[|t| - 1] == '$'
  }

  /** Fewer than two '$' characters. */
  predicate AtMostOneDollar(t: string) {
    forall i, j :: 0 <= i < j < |t| ==> !(t[i] == '$' && t[j] == '$')
  }

  /** The result of a split, kept as the text runs and the matches between
      them; there is always one more run than there are matches. */
  datatype Pieces = Pieces(runs: seq<string>, tokens: seq<string>)

  /** The array `split` returns: runs and matches alternately. */
  function Parts(pc: Pieces): (r: seq<string>)
    requires |pc.runs| == |pc.tokens| + 1
    ensures |r| == 2 * |pc.tokens| + 1
    decreases pc.tokens
  {
    if pc.tokens == [] then [pc.runs[0]]
    else [pc.runs[0], pc.tokens[0]] + Parts(Pieces(pc.runs[1..], pc.tokens[1..]))
  }

  /** Runs sit at the even positions of the array, matches at the odd ones. */
  lemma {:induction false} PartsIndex(pc: Pieces)
    requires |pc.runs| == |pc.tokens| + 1
    ensures forall k :: 0 <= k < |pc.runs| ==> Parts(pc)[2 * k] == pc.runs[k]
    ensures forall k :: 0 <= k < |pc.tokens| ==> Parts(pc)[2 * k + 1] == pc.tokens[k]
    decreases pc.tokens
  {
    if pc.tokens != [] {
      var tail := Pieces(pc.runs[1..], pc.tokens[1..]);
      PartsIndex(tail);
      var r := Parts(pc);
      assert r == [pc.runs[0], pc.tokens[0]] + Parts(tail);
      assert forall k :: 1 <= k < |pc.runs| ==> r[2 * k] == Parts(tail)[2 * (k - 1)];
      assert forall k :: 1 <= k < |pc.tokens| ==> r[2 * k + 1] == Parts(tail)[2 * (k - 1) + 1];
    }
  }

  lemma PartsCons(a: string, b: string, rest: Pieces)
    requires |rest.runs| == |rest.tokens| + 1
    ensures Parts(Pieces([a] + rest.runs, [b] + rest.tokens)) == [a, b] + Parts(rest)
  {
    var r := Pieces([a] + rest.runs, [b] + rest.tokens);
    assert r.runs[1..] == rest.runs && r.tokens[1..] == rest.tokens;
  }

  lemma ConcatCons2(a: string, b: string, rest: seq<string>)
    ensures Concat([a, b] + rest) == a + b + Concat(rest)
  {
    var r := [a, b] + rest;
    assert r[1..] == [b] + rest;
    assert r[1..][1..] == rest;
  }

  /** `s.slice(p).split(regex)`. */
  function SplitFrom(f: Flavour, s: string, p: nat): (r: Pieces)
    requires p <= |s|
    ensures |r.runs| == |r.tokens| + 1
    decreases |s| - p
  {
    match NextMatch(f, s, p)
    case None => Pieces([s[p..]], [])
    case Some((q, e)) =>
      var rest := SplitFrom(f, s, e);
      Pieces([s[p..q]] + rest.runs, [s[q..e]] + rest.tokens)
  }

  lemma SliceThree(s: string, p: nat, q: nat, e: nat)
    requires p <= q <= e <= |s|
    ensures s[p..] == s[p..q] + s[q..e] + s[e..]
  {
  }

  /** The runs and matches, concatenated in order, give back the text. */
  lemma {:induction false} SplitFromConcat(f: Flavour, s: string, p: nat)
    requires p <= |s|
    ensures Concat(Parts(SplitFrom(f, s, p))) == s[p..]
    decreases |s| - p
  {
    match NextMatch(f, s, p)
    case None =>
      assert Concat([s[p..]]) == s[p..] + Concat([]);
    case Some((q, e)) =>
      var rest := SplitFrom(f, s, e);
      SplitFromConcat(f, s, e);
      PartsCons(s[p..q], s[q..e], rest);
      ConcatCons2(s[p..q], s[q..e], Parts(rest));
      SliceThree(s, p, q, e);
  }

  /** Every match is delimited by '$' on both sides. */
  lemma {:induction false} SplitFromTokens(f: Flavour, s: string, p: nat)
    requires p <= |s|
    ensures forall k :: 0 <= k < |SplitFrom(f, s, p).tokens| ==> IsToken(SplitFrom(f, s, p).tokens[k])
    decreases |s| - p
  {
    match NextMatch(f, s, p)
    case None =>
    case Some((q, e)) =>
      SplitFromTokens(f, s, e);
      TokensCons(s[q..e], SplitFrom(f, s, e).tokens);
  }

  lemma TokensCons(t: string, rest: seq<string>)
    requires IsToken(t) && forall k :: 0 <= k < |rest| ==> IsToken(rest[k])
    ensures forall k :: 0 <= k < |[t] + rest| ==> IsToken(([t] + rest)[k])
  {
  }

  /** With the full expression, '$' never occurs in a text run except in
      the last one, and at most once there: a '$' with another '$' after it
      always opens a match. */
  lemma {:induction false} FullTextRunsHaveNoDollar(s: string, p: nat)
    requires p <= |s|
    ensures var r := SplitFrom(Full, s, p);
      (forall k :: 0 <= k < |r.runs| - 1 ==> '$' !in r.runs[k]) &&
      AtMostOneDollar(r.runs[|r.runs| - 1])
    decreases |s| - p
  {
    var r := SplitFrom(Full, s, p);
    match NextMatch(Full, s, p)
    case None =>
      forall i, j | 0 <= i < j < |s[p..]| ensures !(s[p..][i] == '$' && s[p..][j] == '$') {
        if s[p + i] == '$' {
          FullFailureIsFinal(s, p + i);
        }
      }
    case Some((q, e)) =>
      FullTextRunsHaveNoDollar(s, e);
      var rest := SplitFrom(Full, s, e);
      assert r.runs == [s[p..q]] + rest.runs;
      forall i | p <= i < q ensures s[i] != '$' {
        if s[i] == '$' {
          FullFailureIsFinal(s, i);
        }
      }
  }

  /** `text.split(regex)`: odd length, the text back when concatenated,
      and every odd-indexed part a '$'-delimited match. */
  function Split(f: Flavour, s: string): (r: seq<string>)
    ensures Concat(r) == s
    ensures exists n: nat :: |r| == 2 * n + 1
    ensures forall k :: 0 <= k < |r| / 2 ==> IsToken(r[2 * k + 1])
  {
    var pc := SplitFrom(f, s, 0);
    var r := Parts(pc);
    SplitFromConcat(f, s, 0);
    SplitFromTokens(f, s, 0);
    PartsIndex(pc);
    assert |r| / 2 == |pc.tokens|;
    forall k | 0 <= k < |r| / 2 ensures IsToken(r[2 * k + 1]) {
      assert r[2 * k + 1] == pc.tokens[k];
    }
    r
  }

  // ---------------------------------------------------------------------
  // Classifying the parts

  datatype Segment = Block(math: string) | Inline(math: string) | Plain(text: string)

  predicate StartsWith(s: string, t: string) {
    |t| <= |s| && s[..|t|] == t
  }

  predicate EndsWith(s: string, t: string) {
    |t| <= |s| && s[|s| - |t|..] == t
  }

  /** `String.prototype.slice(start, end)`: negative positions count from
      the end, positions are clamped to the string, and a range that runs
      backwards is empty. */
  function JsSlice(s: string, start: int, end: int): (r: string)
    ensures 0 <= start && 0 <= |s| + end && start <= |s| + end && end < 0 ==>
      r == s[start..|s| + end]
    ensures 0 <= start <= end && start <= |s| ==> r == s[start..if end <= |s| then end else |s|]
  {
    var from := if start < 0 then (if |s| + start < 0 then 0 else |s| + start)
                else if start > |s| then |s| else start;
    var to := if end < 0 then (if |s| + end < 0 then 0 else |s| + end)
              else if end > |s| then |s| else end;
    if from >= to then [] else s[from..to]
  }

  /** A text that starts and ends with the delimiter `d`, and is long
      enough for both, is `d`, the slice between them, and `d` again. */
  lemma Unwrap(t: string, d: string)
    requires d != [] && StartsWith(t, d) && EndsWith(t, d) && 2 * |d| <= |t|
    ensures t == d + JsSlice(t, |d|, -|d|) + d
  {
    assert JsSlice(t, |d|, -|d|) == t[|d|..|t| - |d|];
    assert t == t[..|d|] + t[|d|..|t| - |d|] + t[|t| - |d|..];
  }

  /** A part of the full split: "$$…$$" is block math with two characters
      stripped each side, else "$…$" is inline math with one stripped, else
      plain text. */
  function Classify(part: string): (r: Segment)
    ensures r.Block? <==> StartsWith(part, "$$") && EndsWith(part, "$$")
    ensures r.Block? && |part| >= 4 ==> part == "$$" + r.math + "$$"
    ensures r.Block? && |part| < 4 ==> r.math == ""
    ensures r.Inline? <==> !r.Block? && StartsWith(part, "$") && EndsWith(part, "$")
    ensures r.Inline? && |part| >= 2 ==> part == "$" + r.math + "$"
    ensures r.Inline? && |part| < 2 ==> r.math == ""
    ensures r.Plain? ==> r.text == part
  {
    if StartsWith(part, "$$") && EndsWith(part, "$$") then
      var m := JsSlice(part, 2, -2);
      assert |part| >= 4 ==> part == "$$" + m + "$$" by { if |part| >= 4 { Unwrap(part, "$$"); } }
      Block(m)
    else if StartsWith(part, "$") && EndsWith(part, "$") then
      var m := JsSlice(part, 1, -1);
      assert |part| >= 2 ==> part == "$" + m + "$" by { if |part| >= 2 { Unwrap(part, "$"); } }
      Inline(m)
    else Plain(part)
  }

  /** A segment written back in the delimiters it was read from. */
  function Unparse(seg: Segment): string {
    match seg
    case Block(m) => "$$" + m + "$$"
    case Inline(m) => "$" + m + "$"
    case Plain(t) => t
  }

  function MapClassify(parts: seq<string>): (r: seq<Segment>)
    ensures |r| == |parts|
    ensures forall k :: 0 <= k < |r| ==> r[k] == Classify(parts[k])
  {
    if parts == [] then [] else [Classify(parts[0])] + MapClassify(parts[1..])
  }

  /** `renderMathContent` of the exercise page and of the content preview:
      empty text renders nothing (None); otherwise one segment per part. */
  function RenderGuarded(text: string): (r: Option<seq<Segment>>)
    ensures r.None? <==> text == ""
    ensures r.Some? ==> r.value == MapClassify(Split(Full, text))
  {
    if text == "" then None else Some(MapClassify(Split(Full, text)))
  }

  /** `renderMathContent` of the dual-pane editor, which has no guard. */
  function RenderUnguarded(text: string): (r: seq<Segment>)
    ensures text != "" ==> Some(r) == RenderGuarded(text)
  {
    MapClassify(Split(Full, text))
  }

  /** A part written back after classification is the part again, except
      for the three that read as empty math: "$" (inline), "$$" and "$$$"
      (block). */
  lemma UnparseClassify(part: string)
    ensures Unparse(Classify(part)) == part <==> part != "$" && part != "$$" && part != "$$$"
  {
    if part == "$$$" {
      assert JsSlice(part, 2, -2) == "";
    }
  }

  /** Classifying the parts and unparsing the segments gives back the
      text, provided no part is one of the three that read as empty math. */
  lemma {:induction false} UnparseRoundTrip(parts: seq<string>)
    requires forall k :: 0 <= k < |parts| ==> parts[k] != "$" && parts[k] != "$$" && parts[k] != "$$$"
    ensures Concat(MapUnparse(MapClassify(parts))) == Concat(parts)
  {
    if parts != [] {
      UnparseClassify(parts[0]);
      UnparseRoundTrip(parts[1..]);
      assert MapClassify(parts)[1..] == MapClassify(parts[1..]);
    }
  }

  /** The same for the parts of a text: the segments rendered for the
      exercise page, written back, are the text. */
  lemma TextRoundTrip(s: string)
    requires forall k :: 0 <= k < |Split(Full, s)| ==>
      Split(Full, s)[k] != "$" && Split(Full, s)[k] != "$$" && Split(Full, s)[k] != "$$$"
    ensures Concat(MapUnparse(MapClassify(Split(Full, s)))) == s
  {
    UnparseRoundTrip(Split(Full, s));
  }

  function MapUnparse(segs: seq<Segment>): (r: seq<string>)
    ensures |r| == |segs|
    ensures forall k :: 0 <= k < |r| ==> r[k] == Unparse(segs[k])
  {
    if segs == [] then [] else [Unparse(segs[0])] + MapUnparse(segs[1..])
  }

  /** The editor renders empty content as one empty plain span. */
  lemma EmptyEditorContent()
    ensures RenderUnguarded("") == [Plain("")]
  {
    assert Split(Full, "") == [""];
  }

  /** A lone '$' is classified as empty inline math. */
  lemma LoneDollarIsEmptyInline()
    ensures RenderUnguarded("$") == [Inline("")]
  {
    assert MatchAt(Full, "$", 0).None?;
    assert NextMatch(Full, "$", 0).None?;
    assert Split(Full, "$") == ["$"];
  }

  // ---------------------------------------------------------------------
  // The home card's variant

  /** Any part starting and ending with '$' is inline math; there is no
      block case. */
  function ClassifyHome(part: string): (r: Segment)
    ensures !r.Block?
    ensures r.Inline? <==> StartsWith(part, "$") && EndsWith(part, "$")
    ensures r.Inline? && |part| >= 2 ==> part == "$" + r.math + "$"
    ensures r.Plain? ==> r.text == part
  {
    if StartsWith(part, "$") && EndsWith(part, "$") then
      var m := JsSlice(part, 1, -1);
      assert |part| >= 2 ==> part == "$" + m + "$" by { if |part| >= 2 { Unwrap(part, "$"); } }
      Inline(m)
    else Plain(part)
  }

  function MapClassifyHome(parts: seq<string>): (r: seq<Segment>)
    ensures |r| == |parts|
    ensures forall k :: 0 <= k < |r| ==> r[k] == ClassifyHome(parts[k])
  {
    if parts == [] then [] else [ClassifyHome(parts[0])] + MapClassifyHome(parts[1..])
  }

  /** The home card's `renderMathContent`. */
  function RenderHome(text: string): (r: seq<Segment>)
    ensures forall k :: 0 <= k < |r| ==> !r[k].Block?
    ensures |r| == |Split(SingleLine, text)|
  {
    MapClassifyHome(Split(SingleLine, text))
  }

  lemma HomeDoubleDollarPieces()
    ensures SplitFrom(SingleLine, "$$", 0) == Pieces(["", ""], ["$$"])
  {
    var s := "$$";
    assert NextMatch(SingleLine, s, 2).None?;
    assert SplitFrom(SingleLine, s, 2) == Pieces([""], []);
    assert NextMatch(SingleLine, s, 0) == Some((0, 2)) by {
      assert MatchAt(SingleLine, s, 0) == Some(2);
    }
    assert s[0..0] == "" && s[0..2] == "$$";
  }

  /** "$$" is consumed as an empty inline span. */
  lemma HomeDoubleDollar()
    ensures Split(SingleLine, "$$") == ["", "$$", ""]
    ensures RenderHome("$$") == [Plain(""), Inline(""), Plain("")]
  {
    HomeDoubleDollarPieces();
    assert Parts(Pieces(["", ""], ["$$"])) == ["", "$$", ""] by {
      assert Parts(Pieces([""], [])) == [""];
    }
    assert ClassifyHome("$$") == Inline("") by {
      assert JsSlice("$$", 1, -1) == "";
    }
    assert MapClassifyHome(["", "$$", ""]) == [Plain(""), Inline(""), Plain("")] by {
      var xs := ["", "$$", ""];
      assert xs[1..] == ["$$", ""] && xs[1..][1..] == [""] && xs[1..][1..][1..] == [];
    }
  }

  /** A line break inside "$…$" keeps it from being matched. */
  lemma HomeStopsAtNewline()
    ensures Split(SingleLine, "$a\nb$") == ["$a\nb$"]
  {
    var s := "$a\nb$";
    assert MatchAt(SingleLine, s, 0).None? by {
      assert FindDollar(s, 1, true).None?;
    }
    assert MatchAt(SingleLine, s, 4).None?;
    assert NextMatch(SingleLine, s, 0).None? by {
      assert NextMatch(SingleLine, s, 4).None?;
    }
  }

  // ---------------------------------------------------------------------
  // The editor preview's code renderer

  datatype Rendered = Nothing | InlineMath(math: string) | DisplayMath(math: string)
                    | InlineCode(code: string) | CodeBlock(code: string)

  /** `renderLatexInPreview`: no text renders nothing; inline code "$…$" is
      inline math, a code block "$$…$$" is display math, anything else stays
      code. */
  function RenderCode(isInline: bool, children: Option<string>): (r: Rendered)
    ensures children.None? || children == Some("") <==> r == Nothing
    ensures isInline && r.InlineMath? ==> children == Some("$" + r.math + "$") || children == Some("$")
    ensures !isInline && r.DisplayMath? ==>
      children == Some("$$" + r.math + "$$") ||
      (children.Some? && r.math == "" && |children.value| < 4)
    ensures isInline ==> !r.DisplayMath? && !r.CodeBlock?
    ensures !isInline ==> !r.InlineMath? && !r.InlineCode?
    ensures r.InlineCode? ==> children == Some(r.code) && !(StartsWith(r.code, "$") && EndsWith(r.code, "$"))
    ensures r.CodeBlock? ==> children == Some(r.code) && !(StartsWith(r.code, "$$") && EndsWith(r.code, "$$"))
  {
    match children
    case None => Nothing
    case Some(text) =>
      if text == "" then Nothing
      else if isInline then RenderInlineCode(text)
      else RenderCodeBlock(text)
  }

  function RenderInlineCode(text: string): (r: Rendered)
    ensures r.InlineMath? || r.InlineCode?
    ensures r.InlineMath? ==> text == "$" + r.math + "$" || text == "$"
    ensures r.InlineCode? ==> r.code == text && !(StartsWith(text, "$") && EndsWith(text, "$"))
  {
    if StartsWith(text, "$") && EndsWith(text, "$") then
      var m := JsSlice(text, 1, -1);
      assert |text| >= 2 ==> text == "$" + m + "$" by { if |text| >= 2 { Unwrap(text, "$"); } }
      InlineMath(m)
    else InlineCode(text)
  }

  function RenderCodeBlock(text: string): (r: Rendered)
    ensures r.DisplayMath? || r.CodeBlock?
    ensures r.DisplayMath? ==> text == "$$" + r.math + "$$" || (r.math == "" && |text| < 4)
    ensures r.CodeBlock? ==> r.code == text && !(StartsWith(text, "$$") && EndsWith(text, "$$"))
  {
    if StartsWith(text, "$$") && EndsWith(text, "$$") then
      var m := JsSlice(text, 2, -2);
      assert |text| >= 4 ==> text == "$$" + m + "$$" by { if |text| >= 4 { Unwrap(text, "$$"); } }
      DisplayMath(m)
    else CodeBlock(text)
  }
}

=== FILE: selection.dfy ===
/** The membership toggle that every filter panel and the content editor
    apply to a list of selected ids: a present id is removed (every copy of
    it), an absent id is appended at the end. */
module Selection {

  /** Selected ids are strings in every panel. */
  type Id = string

  /** `xs` with every occurrence of `v` removed. */
  function RemoveAll(xs: seq<Id>, v: Id): (r: seq<Id>)
    ensures v !in r
    ensures forall w :: w != v ==> (w in r <==> w in xs)
    ensures |r| <= |xs|
  {
    if xs == [] then []
    else if xs[0] == v then RemoveAll(xs[1..], v)
    else [xs[0]] + RemoveAll(xs[1..], v)
  }

  lemma {:induction false} RemoveAllAbsent(xs: seq<Id>, v: Id)
    requires v !in xs
    ensures RemoveAll(xs, v) == xs
  {
    if xs != [] {
      assert xs[0] != v;
      RemoveAllAbsent(xs[1..], v);
      assert xs == [xs[0]] + xs[1..];
    }
  }

  function Toggle(xs: seq<Id>, v: Id): (r: seq<Id>)
    ensures v in r <==> v !in xs
    ensures forall w :: w != v ==> (w in r <==> w in xs)
    ensures v !in xs ==> r == xs + [v]
    ensures v in xs ==> |r| < |xs|
  {
    if v in xs then
      var r := RemoveAll(xs, v);
      RemoveAllShrinks(xs, v);
      r
    else
      xs + [v]
  }

  lemma {:induction false} RemoveAllShrinks(xs: seq<Id>, v: Id)
    requires v in xs
    ensures |RemoveAll(xs, v)| < |xs|
  {
    if xs[0] != v {
      RemoveAllShrinks(xs[1..], v);
    }
  }

  /** Toggling an absent id twice gives back the very same list. */
  lemma ToggleTwiceFromAbsent(xs: seq<Id>, v: Id)
    requires v !in xs
    ensures Toggle(Toggle(xs, v), v) == xs
  {
    RemoveAllAbsent(xs, v);
    RemoveAllAppend(xs, [v], v);
    assert RemoveAll([v], v) == [];
  }

  lemma {:induction false} RemoveAllAppend(xs: seq<Id>, ys: seq<Id>, v: Id)
    ensures RemoveAll(xs + ys, v) == RemoveAll(xs, v) + RemoveAll(ys, v)
  {
    if xs == [] {
      assert xs + ys == ys;
    } else {
      assert (xs + ys)[1..] == xs[1..] + ys;
      RemoveAllAppend(xs[1..], ys, v);
    }
  }

  /** Toggling a present id twice leaves it once, at the end. */
  lemma ToggleTwiceFromPresent(xs: seq<Id>, v: Id)
    requires v in xs
    ensures Toggle(Toggle(xs, v), v) == RemoveAll(xs, v) + [v]
  {
  }
}

=== FILE: time_format.dfy ===
/** Time labels: the exercise timer's "MM:SS", the relative age of a
    content item ("3 days ago") and the short age of a comment ("3d ago").
    The clock is a parameter: every label is a function of the elapsed
    milliseconds, and `Math.floor` of a division by a positive constant is
    Dafny's `/`. */
module TimeFormat {
  // ---------------------------------------------------------------------
  // Decimal numerals

  predicate IsDigit(c: char) {
    '0' <= c <= '9'
  }

  predicate AllDigits(s: string) {
    forall i :: 0 <= i < |s| ==> IsDigit(s[i])
  }

  function DigitChar(d: nat): (c: char)
    requires d < 10
    ensures IsDigit(c) && c as int - '0' as int == d
  {
    ['0', '1', '2', '3', '4', '5', '6', '7', '8', '9'][d]
  }

  /** `Number.prototype.toString()` on a non-negative integer. */
  function ShowNat(n: nat): (r: string)
    ensures |r| >= 1 && AllDigits(r)
    ensures n < 10 <==> |r| == 1
    ensures n < 100 ==> |r| <= 2
    ensures r[0] == '0' ==> n == 0
  {
    if n < 10 then [DigitChar(n)] else ShowNat(n / 10) + [DigitChar(n % 10)]
  }

  /** `toString()` on any integer: a minus sign before the magnitude. */
  function ShowInt(i: int): (r: string)
    ensures i >= 0 ==> r == ShowNat(i)
    ensures i < 0 ==> |r| >= 2 && r[0] == '-' && r[1..] == ShowNat(-i)
  {
    if i < 0 then "-" + ShowNat(-i) else ShowNat(i)
  }

  /** The value of a string of decimal digits (leading zeros allowed). */
  function ParseNat(s: string): nat
    requires AllDigits(s)
  {
    if s == [] then 0 else ParseNat(s[..|s| - 1]) * 10 + (s[|s| - 1] as int - '0' as int)
  }

  lemma {:induction false} ParseShow(n: nat)
    ensures ParseNat(ShowNat(n)) == n
  {
    if n >= 10 {
      var s := ShowNat(n);
      assert s[..|s| - 1] == ShowNat(n / 10);
      ParseShow(n / 10);
    }
  }

  lemma {:induction false} ParseLeadingZero(s: string)
    requires AllDigits(s)
    ensures AllDigits("0" + s) && ParseNat("0" + s) == ParseNat(s)
    decreases |s|
  {
    if s != [] {
      assert ("0" + s)[..|s|] == "0" + s[..|s| - 1];
      ParseLeadingZero(s[..|s| - 1]);
    }
  }

  /** `padStart(2, '0')`. */
  function Pad2(s: string): (r: string)
    ensures |s| >= 2 ==> r == s
    ensures |s| < 2 ==> |r| == 2 && r[2 - |s|..] == s
    ensures forall i :: 0 <= i < |r| - |s| ==> r[i] == '0'
    decreases 2 - |s|
  {
    if |s| >= 2 then s else Pad2("0" + s)
  }

  lemma {:induction false} ParsePad2(n: nat)
    ensures AllDigits(Pad2(ShowNat(n)))
    ensures ParseNat(Pad2(ShowNat(n))) == n
  {
    ParseShow(n);
    var s := ShowNat(n);
    if |s| < 2 {
      assert Pad2(s) == "0" + s;
      ParseLeadingZero(s);
    }
  }

  // ---------------------------------------------------------------------
  // The exercise timer

  /** `formatTime`: minutes, a colon, and seconds, each padded to two digits. */
  function FormatTime(seconds: nat): string {
    Pad2(ShowNat(seconds / 60)) + ":" + Pad2(ShowNat(seconds % 60))
  }

  /** The label always ends in a colon and two digits of seconds, the
      minutes before it are digits, and reading both back gives the timer. */
  lemma ClockRoundTrip(seconds: nat)
    ensures var r := FormatTime(seconds);
      |r| >= 5 && r[|r| - 3] == ':' &&
      AllDigits(r[..|r| - 3]) && AllDigits(r[|r| - 2..]) &&
      ParseNat(r[..|r| - 3]) * 60 + ParseNat(r[|r| - 2..]) == seconds
  {
    var m := Pad2(ShowNat(seconds / 60));
    var s := Pad2(ShowNat(seconds % 60));
    var r := FormatTime(seconds);
    ParsePad2(seconds / 60);
    ParsePad2(seconds % 60);
    assert |s| == 2;
    assert r[..|r| - 3] == m;
    assert r[|r| - 2..] == s;
  }

  // ---------------------------------------------------------------------
  // Relative ages

  const SecondMs: int := 1000
  const MinuteMs: int := 60 * SecondMs
  const HourMs: int := 60 * MinuteMs
  const DayMs: int := 24 * HourMs

  /** The cascaded floors of the source: seconds, minutes, hours, days. */
  datatype Elapsed = Elapsed(seconds: int, minutes: int, hours: int, days: int)

  function Split(diffMs: int): (e: Elapsed)
    ensures e.seconds == diffMs / SecondMs && e.minutes == diffMs / MinuteMs
    ensures e.hours == diffMs / HourMs && e.days == diffMs / DayMs
  {
    var s := diffMs / 1000;
    var m := s / 60;
    var h := m / 60;
    var d := h / 24;
    Elapsed(s, m, h, d)
  }

  datatype Unit = Day | Hour | Minute

  function UnitMs(u: Unit): int {
    match u
    case Day => DayMs
    case Hour => HourMs
    case Minute => MinuteMs
  }

  function UnitName(u: Unit): string {
    match u
    case Day => "day"
    case Hour => "hour"
    case Minute => "minute"
  }

  /** "N unit ago", with the plural 's' exactly when N is above one. */
  function Ago(n: nat, u: Unit): string {
    ShowNat(n) + " " + UnitPhrase(n, u)
  }

  function UnitPhrase(n: nat, u: Unit): string {
    UnitName(u) + (if n > 1 then "s ago" else " ago")
  }

  /** `formatRelativeTime`; `date` is what `formatDate` prints for the same
      timestamp (a locale-dependent rendering). */
  function RelativeTime(diffMs: int, date: string): string {
    var e := Split(diffMs);
    if e.days > 30 then date
    else if e.days > 0 then Ago(e.days, Day)
    else if e.hours > 0 then Ago(e.hours, Hour)
    else if e.minutes > 0 then Ago(e.minutes, Minute)
    else "just now"
  }

  /** The label by ranges of the elapsed time: the date from 31 days on,
      then whole days, whole hours, whole minutes; "just now" below one
      minute, a time in the future included. */
  lemma RelativeTimeRanges(diffMs: int, date: string)
    ensures 31 * DayMs <= diffMs ==> RelativeTime(diffMs, date) == date
    ensures DayMs <= diffMs < 31 * DayMs ==> RelativeTime(diffMs, date) == Ago(diffMs / DayMs, Day)
    ensures HourMs <= diffMs < DayMs ==> RelativeTime(diffMs, date) == Ago(diffMs / HourMs, Hour)
    ensures MinuteMs <= diffMs < HourMs ==> RelativeTime(diffMs, date) == Ago(diffMs / MinuteMs, Minute)
    ensures diffMs < MinuteMs ==> RelativeTime(diffMs, date) == "just now"
  {
    var e := Split(diffMs);
    FloorPositiveIff(diffMs, DayMs);
    FloorPositiveIff(diffMs, HourMs);
    FloorPositiveIff(diffMs, MinuteMs);
    FloorAbove(diffMs, DayMs, 30);
  }

  lemma FloorPositiveIff(x: int, d: int)
    requires d > 0
    ensures x / d > 0 <==> x >= d
  {
    FloorBracket(x, d);
  }

  lemma FloorAbove(x: int, d: int, k: nat)
    requires d > 0
    ensures x / d > k <==> x >= (k + 1) * d
  {
    FloorBracket(x, d);
    var q := x / d;
    if q > k {
      MulMono(d, k + 1, q);
      assert (k + 1) * d == d * (k + 1);
    } else {
      MulMono(d, q, k);
      assert d * k + d == (k + 1) * d;
    }
  }

  /** Multiplying by a non-negative factor keeps the order. */
  lemma MulMono(d: int, a: int, b: int)
    requires d >= 0 && a <= b
    ensures d * a <= d * b
  {
    assert d * b - d * a == d * (b - a);
  }

  /** "N units ago" never overstates: N whole units have elapsed, and not
      N + 1. */
  lemma FloorBracket(x: int, d: int)
    requires d > 0
    ensures d * (x / d) <= x < d * (x / d + 1)
  {
  }

  lemma AgoIsWholeUnits(diffMs: int, date: string, n: nat, u: Unit)
    requires MinuteMs <= diffMs < 31 * DayMs
    requires RelativeTime(diffMs, date) == Ago(n, u)
    ensures n >= 1 && n * UnitMs(u) <= diffMs < (n + 1) * UnitMs(u)
  {
    var v := RangeUnit(diffMs);
    var d := UnitMs(v);
    RangeUnitLabel(diffMs, date);
    AgoInjective(n, u, diffMs / d, v);
    WholeUnits(diffMs, d, n);
  }

  /** The quotient of at least one unit is at least one, and brackets the
      dividend between it and the next multiple. */
  lemma WholeUnits(x: int, d: int, n: nat)
    requires 0 < d <= x && n == x / d
    ensures n >= 1 && n * d <= x < (n + 1) * d
  {
    FloorBracket(x, d);
    FloorPositiveIff(x, d);
    assert n * d == d * n && (n + 1) * d == d * (n + 1);
  }

  function RangeUnit(diffMs: int): Unit {
    if diffMs >= DayMs then Day else if diffMs >= HourMs then Hour else Minute
  }

  /** Between a minute and 31 days the label counts the largest unit that
      fits. */
  lemma RangeUnitLabel(diffMs: int, date: string)
    requires MinuteMs <= diffMs < 31 * DayMs
    ensures UnitMs(RangeUnit(diffMs)) <= diffMs
    ensures RelativeTime(diffMs, date) == Ago(diffMs / UnitMs(RangeUnit(diffMs)), RangeUnit(diffMs))
  {
    RelativeTimeRanges(diffMs, date);
  }

  lemma ShorterNumeralDiffers(sn: string, x: string, sm: string, y: string)
    requires AllDigits(sm) && |sn| < |sm|
    ensures sn + " " + x != sm + " " + y
  {
    assert (sn + " " + x)[|sn|] == ' ';
    assert (sm + " " + y)[|sn|] == sm[|sn|];
  }

  /** A numeral ends at the first space. */
  lemma NumeralPrefix(sn: string, x: string, sm: string, y: string)
    requires AllDigits(sn) && AllDigits(sm)
    requires sn + " " + x == sm + " " + y
    ensures sn == sm && x == y
  {
    var a, b := sn + " " + x, sm + " " + y;
    if |sn| < |sm| {
      ShorterNumeralDiffers(sn, x, sm, y);
      assert false;
    } else if |sm| < |sn| {
      ShorterNumeralDiffers(sm, y, sn, x);
      assert false;
    } else {
      assert sn == a[..|sn|];
      assert sm == b[..|sm|];
      assert x == a[|sn| + 1..];
      assert y == b[|sm| + 1..];
    }
  }

  /** Different counts or units never print the same label. */
  lemma AgoInjective(n: nat, u: Unit, m: nat, v: Unit)
    requires Ago(n, u) == Ago(m, v)
    ensures n == m && u == v
  {
    var x, y := UnitPhrase(n, u), UnitPhrase(m, v);
    NumeralPrefix(ShowNat(n), x, ShowNat(m), y);
    ParseShow(n);
    ParseShow(m);
    assert x[0] == y[0];
  }

  /** `formatTimeSince` in the comment list: the largest non-zero unit among
      days, hours and minutes, else the (possibly negative) seconds. */
  function TimeSince(diffMs: int): string {
    var e := Split(diffMs);
    if e.days > 0 then ShowInt(e.days) + "d ago"
    else if e.hours > 0 then ShowInt(e.hours) + "h ago"
    else if e.minutes > 0 then ShowInt(e.minutes) + "m ago"
    else ShowInt(e.seconds) + "s ago"
  }

  /** The short label by ranges of the elapsed time; a comment dated in
      the future shows a negative number of seconds. */
  lemma TimeSinceRanges(diffMs: int)
    ensures DayMs <= diffMs ==> TimeSince(diffMs) == ShowNat(diffMs / DayMs) + "d ago"
    ensures HourMs <= diffMs < DayMs ==> TimeSince(diffMs) == ShowNat(diffMs / HourMs) + "h ago"
    ensures MinuteMs <= diffMs < HourMs ==> TimeSince(diffMs) == ShowNat(diffMs / MinuteMs) + "m ago"
    ensures diffMs < MinuteMs ==> TimeSince(diffMs) == ShowInt(diffMs / SecondMs) + "s ago"
    ensures diffMs <= -SecondMs ==> TimeSince(diffMs)[0] == '-'
  {
    FloorPositiveIff(diffMs, DayMs);
    FloorPositiveIff(diffMs, HourMs);
    FloorPositiveIff(diffMs, MinuteMs);
    FloorAbove(diffMs, SecondMs, 0);
    if diffMs <= -SecondMs {
      FloorBracket(diffMs, SecondMs);
    }
  }

  /** Both labels count the same whole days between one and thirty. */
  lemma LabelsAgreeOnDays(diffMs: int, date: string)
    requires DayMs <= diffMs < 31 * DayMs
    ensures var n := diffMs / DayMs;
      RelativeTime(diffMs, date) == Ago(n, Day) && TimeSince(diffMs) == ShowNat(n) + "d ago"
  {
    RelativeTimeRanges(diffMs, date);
    TimeSinceRanges(diffMs);
  }
}

=== FILE: truncate.dfy ===
/** `truncateText`: shorten a text to about `maxLength` characters without
    cutting a `$…$` or `$$…$$` span, appending "......" when the scan ran
    past the limit. The regular expression is scanned with the full matcher
    of `MathTokens`, resuming after each match as a global `exec` does. */
module Truncate {
  import opened Common
  import opened MathTokens

  const Ellipsis: string := "......"

  /** The scan state after the loop: the text kept so far and the position
      reached (`currentLength`). */
  datatype Scan = Scan(body: string, pos: nat)

  /** One pass of the loop body for the match [q, e), entered with
      `currentLength == p`: the text up to the match, cut at the limit, then
      the match itself if the limit is not yet reached. Starting from the
      prefix up to p, the kept text stays a prefix and the position moves
      to the match's start or end. */
  function Step(text: string, max: int, p: nat, body: string, q: nat, e: nat): (r: Scan)
    requires p <= q < e <= |text|
    ensures body == text[..p] && p >= max ==> r == Scan(body, p)
    ensures body == text[..p] && p < max <= q ==> r == Scan(text[..max], q)
    ensures body == text[..p] && p <= q < max ==> r == Scan(text[..e], e)
    ensures r.pos < max ==> r.pos == e
  {
    var body1 := if p < max then body + JsSlice(text[p..q], 0, max - p) else body;
    var cur1 := if p < max then q else p;
    var body2 := if cur1 < max then body1 + text[q..e] else body1;
    var cur2 := if cur1 < max then cur1 + (e - q) else cur1;
    assert body == text[..p] && p < max ==> body1 == text[..if q < max then q else max] by {
      if body == text[..p] && p < max {
        assert text[..p] + text[p..q][..if q < max then q - p else max - p]
          == text[..if q < max then q else max];
      }
    }
    assert body == text[..p] && p <= q < max ==> body2 == text[..e] by {
      if body == text[..p] && p <= q < max {
        assert text[..q] + text[q..e] == text[..e];
      }
    }
    Scan(body2, cur2)
  }

  /** The loop: one step per match, stopping once the position is at or
      past the limit. A step that does not stop ends at the match's end. */
  function ScanFrom(text: string, max: int, p: nat, body: string): (r: Scan)
    requires p <= |text|
    ensures p <= r.pos <= |text|
    decreases |text| - p
  {
    match NextMatch(Full, text, p)
    case None => Scan(body, p)
    case Some((q, e)) =>
      var st := Step(text, max, p, body, q, e);
      if st.pos >= max then st
      else ScanFrom(text, max, e, st.body)
  }

  /** After the loop: the rest of the text up to the limit, if the position
      is still short of it. */
  function FinalBody(text: string, max: int, sc: Scan): string {
    if sc.pos < max then sc.body + JsSlice(text, sc.pos, max) else sc.body
  }

  function Body(text: string, max: int): string {
    FinalBody(text, max, ScanFrom(text, max, 0, ""))
  }

  /** `truncateText` as written: "......" iff the position ended strictly
      past the limit. */
  function TruncateText(text: string, max: int): (r: string)
    ensures r == Body(text, max) || r == Body(text, max) + Ellipsis
  {
    var sc := ScanFrom(text, max, 0, "");
    FinalBody(text, max, sc) + (if sc.pos > max then Ellipsis else "")
  }

  /** The same loop written imperatively over repeated `exec` calls. */
  method TruncateTextLoop(text: string, max: int) returns (r: string)
    ensures r == TruncateText(text, max)
  {
    var body := "";
    var cur: nat := 0;
    var last: nat := 0;
    var done := false;
    while !done
      invariant last <= |text|
      invariant !done ==> cur == last && ScanFrom(text, max, 0, "") == ScanFrom(text, max, last, body)
      invariant done ==> ScanFrom(text, max, 0, "") == Scan(body, cur)
      decreases |text| - last, !done
    {
      var m := NextMatch(Full, text, last);
      if m.None? {
        done := true;
      } else {
        var q := m.value.0;
        var e := m.value.1;
        if cur < max {
          var before := text[cur..q];
          body := body + JsSlice(before, 0, max - cur);
          cur := cur + |before|;
        }
        if cur < max {
          body := body + text[q..e];
          cur := cur + (e - q);
        }
        last := e;
        if cur >= max {
          done := true;
        }
      }
    }
    if cur < max {
      body := body + JsSlice(text, cur, max);
    }
    r := body + (if cur > max then Ellipsis else "");
  }

  // ---------------------------------------------------------------------
  // What the result looks like

  /** The spans the scan meets from p on, as (start, end) pairs. */
  function SpansFrom(text: string, p: nat): (r: seq<(nat, nat)>)
    requires p <= |text|
    ensures forall k :: 0 <= k < |r| ==> p <= r[k].0 < r[k].1 <= |text|
    decreases |text| - p
  {
    match NextMatch(Full, text, p)
    case None => []
    case Some((q, e)) => [(q, e)] + SpansFrom(text, e)
  }

  /** What the scan from p keeps, the tail after the loop included. */
  function KeptFrom(text: string, max: int, p: nat, body: string): string
    requires p <= |text|
  {
    FinalBody(text, max, ScanFrom(text, max, p, body))
  }

  /** The kept text is a prefix of the input reaching at least p. */
  lemma {:induction false} KeptIsPrefix(text: string, max: int, p: nat, body: string)
    requires p <= |text| && body == text[..p]
    requires p == 0 || p < max
    ensures p <= |KeptFrom(text, max, p, body)| <= |text|
    ensures KeptFrom(text, max, p, body) == text[..|KeptFrom(text, max, p, body)|]
    decreases |text| - p
  {
    match NextMatch(Full, text, p)
    case None =>
      if p < max {
        var m := if max <= |text| then max else |text|;
        assert text[..p] + text[p..m] == text[..m];
      }
    case Some((q, e)) =>
      if q < max && e < max {
        KeptIsPrefix(text, max, e, text[..e]);
      }
  }

  /** No span is cut: the kept text ends before each span starts or after
      it ends. */
  lemma {:induction false} KeptCutsNoSpan(text: string, max: int, p: nat, body: string)
    requires p <= |text| && body == text[..p]
    requires p == 0 || p < max
    ensures forall k :: 0 <= k < |SpansFrom(text, p)| ==>
      !(SpansFrom(text, p)[k].0 < |KeptFrom(text, max, p, body)| < SpansFrom(text, p)[k].1)
    decreases |text| - p
  {
    match NextMatch(Full, text, p)
    case None =>
    case Some((q, e)) =>
      var spans := SpansFrom(text, p);
      var rest := SpansFrom(text, e);
      assert spans == [(q, e)] + rest;
      var L := |KeptFrom(text, max, p, body)|;
      if q < max && e < max {
        assert KeptFrom(text, max, p, body) == KeptFrom(text, max, e, text[..e]) by {
          assert Step(text, max, p, body, q, e) == Scan(text[..e], e);
        }
        KeptIsPrefix(text, max, e, text[..e]);
        KeptCutsNoSpan(text, max, e, text[..e]);
        ShiftedSpans(spans, rest, e, L);
      } else {
        KeptAtHeadSpan(text, max, p, body, q, e);
      }
  }

  /** Spans after the first one all start at or after its end, so a length
      that cuts none of the later spans and reaches the first one's end cuts
      none of them. */
  lemma ShiftedSpans(spans: seq<(nat, nat)>, rest: seq<(nat, nat)>, e: nat, L: nat)
    requires |spans| > 0 && spans[1..] == rest && spans[0].1 == e && e <= L
    requires forall k :: 0 <= k < |rest| ==> !(rest[k].0 < L < rest[k].1)
    ensures forall k :: 0 <= k < |spans| ==> !(spans[k].0 < L < spans[k].1)
  {
    forall k | 1 <= k < |spans| ensures !(spans[k].0 < L < spans[k].1) {
      assert spans[k] == rest[k - 1];
    }
  }

  /** When the first span from p starts or ends at or past the limit, the
      scan stops there: it keeps up to the span's end when the span starts
      short of the limit, and up to the limit (or nothing) otherwise. */
  lemma KeptAtHeadSpan(text: string, max: int, p: nat, body: string, q: nat, e: nat)
    requires p <= |text| && body == text[..p] && (p == 0 || p < max)
    requires NextMatch(Full, text, p) == Some((q, e)) && !(q < max && e < max)
    ensures var L := |KeptFrom(text, max, p, body)|;
      (q < max ==> L == e) && (q >= max && p < max ==> L == max) && (p >= max ==> L == 0)
  {
    var st := Step(text, max, p, body, q, e);
    assert ScanFrom(text, max, p, body) == st;
  }

  /** How much text the loop keeps, read off the spans alone: the first
      span whose end reaches the limit decides. It is kept whole when it
      starts short of the limit, and the text is cut at the limit
      otherwise; with no such span the text is cut at the limit or kept
      whole if shorter. Never less than the limit allows, and past the
      limit only to the end of a span that straddles it. */
  function KeptLength(spans: seq<(nat, nat)>, max: nat, n: nat): (r: nat)
    ensures r >= (if max <= n then max else n)
    ensures r > max ==> exists k :: 0 <= k < |spans| && spans[k].0 < max < spans[k].1 == r
  {
    if spans == [] then (if max <= n then max else n)
    else if spans[0].1 >= max then (if spans[0].0 < max then spans[0].1 else max)
    else
      var r := KeptLength(spans[1..], max, n);
      assert r > max ==> exists k :: 0 <= k < |spans| && spans[k].0 < max < spans[k].1 == r by {
        if r > max {
          var k :| 0 <= k < |spans[1..]| && spans[1..][k].0 < max < spans[1..][k].1 == r;
          assert spans[k + 1] == spans[1..][k];
        }
      }
      r
  }

  /** A scan entered short of the limit keeps exactly `KeptLength` of the
      spans from there. */
  lemma {:induction false} ScanKeepsLength(text: string, max: int, p: nat, body: string)
    requires p <= |text| && body == text[..p] && p < max
    ensures |KeptFrom(text, max, p, body)| == KeptLength(SpansFrom(text, p), max, |text|)
    decreases |text| - p
  {
    match NextMatch(Full, text, p)
    case None =>
      var m := if max <= |text| then max else |text|;
      assert |JsSlice(text, p, max)| == m - p;
    case Some((q, e)) =>
      var spans := SpansFrom(text, p);
      assert spans == [(q, e)] + SpansFrom(text, e);
      assert spans[1..] == SpansFrom(text, e);
      if e < max {
        assert Step(text, max, p, body, q, e) == Scan(text[..e], e);
        ScanKeepsLength(text, max, e, text[..e]);
      }
  }

  /** The kept text is the prefix of length `KeptLength` (nothing for a
      limit of zero or less), and it never ends strictly inside a span. */
  lemma BodyShape(text: string, max: int)
    ensures |Body(text, max)| <= |text| && Body(text, max) == text[..|Body(text, max)|]
    ensures |Body(text, max)| == if max <= 0 then 0 else KeptLength(SpansFrom(text, 0), max, |text|)
    ensures forall k :: 0 <= k < |SpansFrom(text, 0)| ==>
      !(SpansFrom(text, 0)[k].0 < |Body(text, max)| < SpansFrom(text, 0)[k].1)
  {
    KeptIsPrefix(text, max, 0, "");
    KeptCutsNoSpan(text, max, 0, "");
    if max > 0 {
      ScanKeepsLength(text, max, 0, "");
    } else {
      assert ScanFrom(text, max, 0, "").body == "";
    }
  }

  /** Without any span the text is cut at the limit and never marked. */
  lemma NoSpanPlainCut(text: string, max: nat)
    requires NextMatch(Full, text, 0).None?
    ensures TruncateText(text, max) == text[..if max <= |text| then max else |text|]
  {
    var sc := ScanFrom(text, max, 0, "");
    assert sc == Scan("", 0);
    assert TruncateText(text, max) == FinalBody(text, max, sc);
    if max > 0 {
      assert FinalBody(text, max, sc) == "" + JsSlice(text, 0, max);
    }
  }

  /** A text no longer than the limit comes back whole. */
  lemma ShortTextKept(text: string, max: int)
    requires |text| <= max
    ensures TruncateText(text, max) == text
  {
    ShortScan(text, max, 0, "");
  }

  lemma {:induction false} ShortScan(text: string, max: int, p: nat, body: string)
    requires p <= |text| <= max && body == text[..p]
    ensures var sc := ScanFrom(text, max, p, body);
      sc.pos <= max && FinalBody(text, max, sc) == text
    decreases |text| - p
  {
    match NextMatch(Full, text, p)
    case None =>
      if p < max {
        assert JsSlice(text, p, max) == text[p..];
        assert text[..p] + text[p..] == text;
      }
    case Some((q, e)) =>
      assert Step(text, max, p, body, q, e) == Scan(text[..e], e);
      if e < max {
        ShortScan(text, max, e, text[..e]);
      } else {
        assert text[..e] == text;
      }
  }

  // ---------------------------------------------------------------------
  // The marker is not tied to omission

  /** A span that runs past the limit is kept whole and still marked, even
      when nothing was left out. */
  lemma MarkedThoughWhole()
    ensures Body("$abc$", 3) == "$abc$"
    ensures TruncateText("$abc$", 3) == "$abc$......"
  {
    var s := "$abc$";
    assert PairAt(s, 0) == false;
    assert FindDollar(s, 1, false) == Some(4);
    assert MatchAt(Full, s, 0) == Some(5);
    assert NextMatch(Full, s, 0) == Some((0, 5));
    assert JsSlice(s[0..0], 0, 3) == "";
    assert ScanFrom(s, 3, 0, "") == Scan(s[0..5], 5);
  }

  /** Plain text is cut without the marker. */
  lemma CutThoughUnmarked()
    ensures TruncateText("abcdef", 4) == "abcd"
  {
    var s := "abcdef";
    NoDollarNoMatch(s, 0);
    NoSpanPlainCut(s, 4);
  }

  lemma {:induction false} NoDollarNoMatch(s: string, p: nat)
    requires '$' !in s
    ensures NextMatch(Full, s, p).None?
    decreases |s| - p
  {
    if p < |s| {
      assert s[p] != '$';
      NoDollarNoMatch(s, p + 1);
    }
  }

  /** The intended rule: the marker exactly when text was left out. */
  function TruncateTextCorrected(text: string, max: int): (r: string)
    ensures var b := Body(text, max);
      |b| <= |text| && b == text[..|b|] &&
      (|b| < |text| ==> r == b + Ellipsis) && (|b| == |text| ==> r == text)
    ensures |text| <= max ==> r == text
  {
    BodyShape(text, max);
    var b := Body(text, max);
    assert |b| == |text| ==> b == text;
    assert |text| <= max ==> b == text by {
      if |text| <= max { ShortTextKept(text, max); }
    }
    b + (if |b| < |text| then Ellipsis else "")
  }

  // ---------------------------------------------------------------------
  // When the marker appears

  /** Read off the spans alone: the first span whose end reaches the limit
      decides, and it overshoots when it ends past the limit without
      starting exactly on it. */
  predicate Overshoots(spans: seq<(nat, nat)>, max: int) {
    if spans == [] then false
    else if spans[0].1 >= max then spans[0].1 > max && spans[0].0 != max
    else Overshoots(spans[1..], max)
  }

  /** The same as an existential over the span list. */
  lemma {:induction false} OvershootsIff(spans: seq<(nat, nat)>, max: int)
    ensures Overshoots(spans, max) <==>
      exists k :: 0 <= k < |spans| && spans[k].1 > max && spans[k].0 != max &&
                  forall j :: 0 <= j < k ==> spans[j].1 < max
  {
    if spans != [] && spans[0].1 < max {
      var rest := spans[1..];
      OvershootsIff(rest, max);
      if Overshoots(spans, max) {
        var k :| 0 <= k < |rest| && rest[k].1 > max && rest[k].0 != max &&
          forall j :: 0 <= j < k ==> rest[j].1 < max;
        assert forall j :: 1 <= j < k + 1 ==> spans[j] == rest[j - 1];
        assert spans[k + 1].1 > max;
      }
    }
  }

  /** The marker rule: with a positive limit, "......" exactly when the
      spans overshoot it; with a limit of zero or less, exactly when the
      limit is negative, whatever the text. */
  predicate Marked(text: string, max: int) {
    if max <= 0 then max < 0 else Overshoots(SpansFrom(text, 0), max)
  }

  /** A scan entered short of the limit ends past it exactly when the spans
      from there overshoot. */
  lemma {:induction false} ScanPastLimit(text: string, max: int, p: nat, body: string)
    requires p <= |text| && body == text[..p] && p < max
    ensures ScanFrom(text, max, p, body).pos > max <==> Overshoots(SpansFrom(text, p), max)
    decreases |text| - p
  {
    match NextMatch(Full, text, p)
    case None =>
    case Some((q, e)) =>
      var spans := SpansFrom(text, p);
      assert spans == [(q, e)] + SpansFrom(text, e);
      assert spans[1..] == SpansFrom(text, e);
      if q < max && e < max {
        assert Step(text, max, p, body, q, e) == Scan(text[..e], e);
        ScanPastLimit(text, max, e, text[..e]);
      }
  }

  lemma MarkerRule(text: string, max: int)
    ensures TruncateText(text, max) == Body(text, max) + (if Marked(text, max) then Ellipsis else "")
  {
    if max > 0 {
      ScanPastLimit(text, max, 0, "");
    }
  }

  /** The home card's preview: `truncateText(content, 150)` as written,
      rendered with the single-line tokenizer. */
  function HomePreview(content: string): (r: seq<Segment>)
    ensures |content| <= 150 ==> r == RenderHome(content)
    ensures forall k :: 0 <= k < |r| ==> !r[k].Block?
  {
    var t := TruncateText(content, 150);
    assert |content| <= 150 ==> t == content by {
      if |content| <= 150 { ShortTextKept(content, 150); }
    }
    RenderHome(t)
  }
}

=== FILE: vote_ledger.dfy ===
/** Vote ledgers as database tables: rows carrying a compound unique key, an
    insert that raises the integrity error a `unique_together` constraint
    raises, and the scores computed over the rows.

    Two ledgers live here: the generic signed-integer ledger keyed by
    (user, content type, object id), and the per-kind 'up'/'down' tables
    (ExerciseVote, CommentVote, SolutionVote) keyed by (user, target). */
module VoteLedger {
  import opened Common

  // ---------------------------------------------------------------------
  // The generic ledger

  /** The content types that mix in the vote count. */
  datatype ContentKind = ExerciseKind | SolutionKind | CommentKind | LessonKind | ExamKind

  /** A polymorphic pointer: content type plus object id. */
  datatype ContentRef = ContentRef(kind: ContentKind, objectId: nat)

  const UP: int := 1
  const DOWN: int := -1
  const UNVOTE: int := 0

  /** The declared choices of `Vote.value`. */
  type VoteValue = v: int | v == UP || v == DOWN || v == UNVOTE

  datatype VoteRow = VoteRow(user: UserId, target: ContentRef, value: VoteValue)

  /** The compound key of `unique_together = ('user', 'content_type', 'object_id')`. */
  function VoteKey(r: VoteRow): (UserId, ContentRef) {
    (r.user, r.target)
  }

  predicate VoteKeysUnique(rows: seq<VoteRow>) {
    forall i, j :: 0 <= i < j < |rows| ==> VoteKey(rows[i]) != VoteKey(rows[j])
  }

  predicate HasVoteKey(rows: seq<VoteRow>, k: (UserId, ContentRef)) {
    exists i :: 0 <= i < |rows| && VoteKey(rows[i]) == k
  }

  /** An insert into the table: fails (None) on a duplicate key. */
  function InsertVote(rows: seq<VoteRow>, row: VoteRow): (r: Option<seq<VoteRow>>)
    ensures r.None? <==> HasVoteKey(rows, VoteKey(row))
    ensures r.Some? ==> r.value == rows + [row]
    ensures VoteKeysUnique(rows) && r.Some? ==> VoteKeysUnique(r.value)
  {
    if HasVoteKey(rows, VoteKey(row)) then None else Some(rows + [row])
  }

  /** At most one row per (user, target) once the constraint holds. */
  lemma AtMostOneVote(rows: seq<VoteRow>, i: nat, j: nat)
    requires VoteKeysUnique(rows)
    requires i < |rows| && j < |rows| && VoteKey(rows[i]) == VoteKey(rows[j])
    ensures i == j
  {
  }

  /** `VotableMixin.vote_count`: #UP rows minus #DOWN rows on the target. */
  function VoteCount(rows: seq<VoteRow>, t: ContentRef): int {
    Count(rows, (r: VoteRow) => r.target == t && r.value == UP)
      - Count(rows, (r: VoteRow) => r.target == t && r.value == DOWN)
  }

  /** Number of rows on the target, whatever their value. */
  function RowsOn(rows: seq<VoteRow>, t: ContentRef): nat {
    Count(rows, (r: VoteRow) => r.target == t)
  }

  /** The ledger read as a fold: the sum of the signed values on the target. */
  function SignedSum(rows: seq<VoteRow>, t: ContentRef): int {
    if rows == [] then 0
    else (if rows[0].target == t then rows[0].value else 0) + SignedSum(rows[1..], t)
  }

  /** The count the mixin computes is the fold of the signed values, so an
      UNVOTE row contributes nothing, and |vote_count| is at most the number
      of rows on the target. */
  lemma {:induction false} VoteCountIsSignedSum(rows: seq<VoteRow>, t: ContentRef)
    ensures VoteCount(rows, t) == SignedSum(rows, t)
    ensures -(RowsOn(rows, t) as int) <= VoteCount(rows, t) <= RowsOn(rows, t)
  {
    if rows != [] {
      VoteCountIsSignedSum(rows[1..], t);
    }
  }

  /** Adding an UNVOTE row leaves every score as it was. */
  lemma UnvoteRowIsNeutral(rows: seq<VoteRow>, u: UserId, t: ContentRef, s: ContentRef)
    ensures VoteCount(rows + [VoteRow(u, t, UNVOTE)], s) == VoteCount(rows, s)
  {
    var p := (r: VoteRow) => r.target == s && r.value == UP;
    var q := (r: VoteRow) => r.target == s && r.value == DOWN;
    CountAppend(rows, [VoteRow(u, t, UNVOTE)], p);
    CountAppend(rows, [VoteRow(u, t, UNVOTE)], q);
  }

  /** Only the rows on a target matter to its score: the rule is the same for
      every content kind, and rows on other targets never move it. */
  lemma {:induction false} VoteCountLocal(rows: seq<VoteRow>, extra: seq<VoteRow>, t: ContentRef)
    requires forall i :: 0 <= i < |extra| ==> extra[i].target != t
    ensures VoteCount(rows + extra, t) == VoteCount(rows, t)
  {
    VoteCountIsSignedSum(rows + extra, t);
    VoteCountIsSignedSum(rows, t);
    SignedSumAppend(rows, extra, t);
    SignedSumElsewhere(extra, t);
  }

  lemma {:induction false} SignedSumAppend(xs: seq<VoteRow>, ys: seq<VoteRow>, t: ContentRef)
    ensures SignedSum(xs + ys, t) == SignedSum(xs, t) + SignedSum(ys, t)
  {
    if xs == [] {
      assert xs + ys == ys;
    } else {
      assert (xs + ys)[1..] == xs[1..] + ys;
      SignedSumAppend(xs[1..], ys, t);
    }
  }

  lemma {:induction false} SignedSumElsewhere(xs: seq<VoteRow>, t: ContentRef)
    requires forall i :: 0 <= i < |xs| ==> xs[i].target != t
    ensures SignedSum(xs, t) == 0
  {
    if xs != [] {
      SignedSumElsewhere(xs[1..], t);
    }
  }

  // ---------------------------------------------------------------------
  // Reports share the compound-key constraint

  datatype ReportRow = ReportRow(user: UserId, target: ContentRef, reason: string)

  predicate ReportKeysUnique(rows: seq<ReportRow>) {
    forall i, j :: 0 <= i < j < |rows| ==>
      (rows[i].user, rows[i].target) != (rows[j].user, rows[j].target)
  }

  function InsertReport(rows: seq<ReportRow>, row: ReportRow): (r: Option<seq<ReportRow>>)
    ensures r.None? <==> exists i :: 0 <= i < |rows| && rows[i].user == row.user && rows[i].target == row.target
    ensures r.Some? ==> r.value == rows + [row]
    ensures ReportKeysUnique(rows) && r.Some? ==> ReportKeysUnique(r.value)
  {
    if exists i :: 0 <= i < |rows| && rows[i].user == row.user && rows[i].target == row.target then None
    else Some(rows + [row])
  }

  // ---------------------------------------------------------------------
  // Per-kind tables with 'up'/'down' values

  /** The declared choices of the abstract `Vote.vote` field. */
  datatype Polarity = UpWord | DownWord

  /** One row of ExerciseVote, CommentVote or SolutionVote; `target` is the
      exercise, comment or solution id. */
  datatype KindVote = KindVote(user: UserId, target: nat, vote: Polarity)

  predicate KindKeysUnique(rows: seq<KindVote>) {
    forall i, j :: 0 <= i < j < |rows| ==>
      (rows[i].user, rows[i].target) != (rows[j].user, rows[j].target)
  }

  predicate HasKindKey(rows: seq<KindVote>, u: UserId, t: nat) {
    exists i :: 0 <= i < |rows| && rows[i].user == u && rows[i].target == t
  }

  function InsertKindVote(rows: seq<KindVote>, row: KindVote): (r: Option<seq<KindVote>>)
    ensures r.None? <==> HasKindKey(rows, row.user, row.target)
    ensures r.Some? ==> r.value == rows + [row]
    ensures KindKeysUnique(rows) && r.Some? ==> KindKeysUnique(r.value)
  {
    if HasKindKey(rows, row.user, row.target) then None else Some(rows + [row])
  }

  /** `get_vote_count` of the comment, solution and exercise serializers. */
  function SerializedVoteCount(rows: seq<KindVote>, t: nat): int {
    Count(rows, (r: KindVote) => r.target == t && r.vote == UpWord)
      - Count(rows, (r: KindVote) => r.target == t && r.vote == DownWord)
  }

  /** The first row of `rows` on target `t` by user `u`. */
  function FirstVoteBy(rows: seq<KindVote>, u: UserId, t: nat): (r: Option<KindVote>)
    ensures r.None? <==> !HasKindKey(rows, u, t)
    ensures r.Some? ==> r.value in rows && r.value.user == u && r.value.target == t
  {
    if rows == [] then None
    else if rows[0].user == u && rows[0].target == t then Some(rows[0])
    else
      var rest := FirstVoteBy(rows[1..], u, t);
      assert HasKindKey(rows, u, t) ==> HasKindKey(rows[1..], u, t) by {
        if HasKindKey(rows, u, t) {
          var i :| 0 <= i < |rows| && rows[i].user == u && rows[i].target == t;
          assert i > 0 && rows[1..][i - 1] == rows[i];
        }
      }
      rest
  }

  /** `get_user_vote`: None for an anonymous caller; otherwise the caller's
      stored word, or None when they have no row. */
  function SerializedUserVote(rows: seq<KindVote>, t: nat, viewer: Option<UserId>): (r: Option<Polarity>)
    ensures viewer.None? ==> r.None?
    ensures viewer.Some? && KindKeysUnique(rows) ==>
      forall i :: 0 <= i < |rows| && rows[i].user == viewer.value && rows[i].target == t ==>
        r == Some(rows[i].vote)
    ensures viewer.Some? ==> (r.None? <==> !HasKindKey(rows, viewer.value, t))
  {
    match viewer
    case None => None
    case Some(u) =>
      match FirstVoteBy(rows, u, t)
      case None => None
      case Some(row) => Some(row.vote)
  }

  /** The same score rule serves comments, solutions and exercises, and the
      score moves by exactly one when a voter's first row is inserted. */
  lemma {:induction false} InsertMovesScoreByOne(rows: seq<KindVote>, row: KindVote)
    requires !HasKindKey(rows, row.user, row.target)
    ensures SerializedVoteCount(InsertKindVote(rows, row).value, row.target)
      == SerializedVoteCount(rows, row.target) + (if row.vote == UpWord then 1 else -1)
  {
    var p := (r: KindVote) => r.target == row.target && r.vote == UpWord;
    var q := (r: KindVote) => r.target == row.target && r.vote == DownWord;
    CountAppend(rows, [row], p);
    CountAppend(rows, [row], q);
  }
}

=== FILE: vote_sets.dfy ===
/** The server-side vote rule shared by the exercise, solution and comment
    `vote` actions: each votable target keeps two many-to-many user sets,
    `upvotes` and `downvotes`, and a request carries a vote type string.
    Also the write permission that guards every such action. */
module VoteSets {
  import opened Common

  const BadRequest: int := 400
  const NotFound: int := 404
  const Ok: int := 200

  /** A requested vote type: 'up', 'down' or 'none'. */
  datatype VoteType = Up | Down | Clear

  /** The two user sets of one votable row. */
  datatype Ballots = Ballots(upvotes: set<UserId>, downvotes: set<UserId>)

  /** Where a single user stands on a target. */
  datatype Standing = Upvoted | Downvoted | NoVote

  /** No user is in both sets. */
  predicate Disjoint(b: Ballots) {
    b.upvotes !! b.downvotes
  }

  function StandingOf(b: Ballots, u: UserId): Standing {
    if u in b.upvotes then Upvoted else if u in b.downvotes then Downvoted else NoVote
  }

  /** The request's `type` field; anything but the three accepted words fails. */
  function ParseVoteType(raw: string): (r: Option<VoteType>)
    ensures r == Some(Up) <==> raw == "up"
    ensures r == Some(Down) <==> raw == "down"
    ensures r == Some(Clear) <==> raw == "none"
  {
    if raw == "up" then Some(Up)
    else if raw == "down" then Some(Down)
    else if raw == "none" then Some(Clear)
    else None
  }

  /** Record prior membership, remove the user from both sets, then add the
      user to the requested set only if they were not already in it. */
  function ApplyVote(b: Ballots, u: UserId, t: VoteType): (r: Ballots)
    ensures !(u in r.upvotes && u in r.downvotes)
    ensures Disjoint(b) ==> Disjoint(r)
    ensures forall v :: v != u ==> (v in r.upvotes <==> v in b.upvotes)
    ensures forall v :: v != u ==> (v in r.downvotes <==> v in b.downvotes)
  {
    var hasUpvoted := u in b.upvotes;
    var hasDownvoted := u in b.downvotes;
    var cleared := Ballots(b.upvotes - {u}, b.downvotes - {u});
    if t == Up && !hasUpvoted then cleared.(upvotes := cleared.upvotes + {u})
    else if t == Down && !hasDownvoted then cleared.(downvotes := cleared.downvotes + {u})
    else cleared
  }

  /** The intended 3x3 transition table, written independently of the sets. */
  function Transition(s: Standing, t: VoteType): Standing {
    match (s, t)
    case (NoVote, Up) => Upvoted
    case (NoVote, Down) => Downvoted
    case (NoVote, Clear) => NoVote
    case (Upvoted, Up) => NoVote
    case (Upvoted, Down) => Downvoted
    case (Upvoted, Clear) => NoVote
    case (Downvoted, Up) => Upvoted
    case (Downvoted, Down) => NoVote
    case (Downvoted, Clear) => NoVote
  }

  /** On disjoint sets the rule follows the transition table exactly. */
  lemma ApplyVoteFollowsTable(b: Ballots, u: UserId, t: VoteType)
    requires Disjoint(b)
    ensures StandingOf(ApplyVote(b, u, t), u) == Transition(StandingOf(b, u), t)
  {
  }

  /** From no vote or the opposite vote, 'up'/'down' lands in exactly the
      requested set; 'none' always lands in neither. */
  lemma ApplyVoteOutcomes(b: Ballots, u: UserId, t: VoteType)
    requires Disjoint(b)
    ensures t == Up && u !in b.upvotes ==>
      u in ApplyVote(b, u, t).upvotes && u !in ApplyVote(b, u, t).downvotes
    ensures t == Down && u !in b.downvotes ==>
      u in ApplyVote(b, u, t).downvotes && u !in ApplyVote(b, u, t).upvotes
    ensures t == Clear ==>
      u !in ApplyVote(b, u, t).upvotes && u !in ApplyVote(b, u, t).downvotes
  {
  }

  /** Repeating the vote one already holds removes it: a toggle. */
  lemma RepeatTogglesOff(b: Ballots, u: UserId, t: VoteType)
    requires Disjoint(b) && t != Clear
    ensures var once := ApplyVote(b, u, t);
            var twice := ApplyVote(once, u, t);
            StandingOf(once, u) != NoVote <==> StandingOf(twice, u) == NoVote
  {
    ApplyVoteFollowsTable(b, u, t);
    ApplyVoteFollowsTable(ApplyVote(b, u, t), u, t);
  }

  /** Hence the rule is not idempotent. */
  lemma NotIdempotent()
    ensures exists b: Ballots, u: UserId, t: VoteType ::
      ApplyVote(ApplyVote(b, u, t), u, t) != ApplyVote(b, u, t)
  {
    var b := Ballots({}, {});
    assert 0 in ApplyVote(b, 0, Up).upvotes;
    assert 0 !in ApplyVote(ApplyVote(b, 0, Up), 0, Up).upvotes;
  }

  /** The response of a `vote` action: a status and the sets it leaves behind. */
  datatype Response = Response(status: int, ballots: Ballots)

  /** `SolutionViewSet.vote` / `CommentViewSet.vote`: an unknown type is
      rejected before any set changes. */
  function VoteOnTarget(b: Ballots, u: UserId, raw: string): (r: Response)
    ensures ParseVoteType(raw) == None <==> r.status == BadRequest
    ensures r.status == BadRequest ==> r.ballots == b
    ensures r.status != BadRequest ==> r.status == Ok
    ensures r.status == Ok ==> !(u in r.ballots.upvotes && u in r.ballots.downvotes)
  {
    match ParseVoteType(raw)
    case None => Response(BadRequest, b)
    case Some(t) => Response(Ok, ApplyVote(b, u, t))
  }

  /** The votable state reached from one exercise: its own sets and the sets
      of its solutions, in primary-key order. */
  datatype ExerciseBallots = ExerciseBallots(exercise: Ballots, solutions: seq<Ballots>)

  datatype ExerciseResponse = ExerciseResponse(status: int, state: ExerciseBallots)

  /** `ExerciseViewSet.vote`: the type is validated first; a 'solution' target
      votes on the first solution and fails when there is none; any other
      target votes on the exercise itself. */
  function VoteOnExercise(e: ExerciseBallots, u: UserId, raw: string, target: string): (r: ExerciseResponse)
    ensures ParseVoteType(raw) == None ==> r.status == BadRequest && r.state == e
    ensures ParseVoteType(raw) != None && target == "solution" && e.solutions == [] ==>
      r.status == NotFound && r.state == e
    ensures r.status == Ok && target == "solution" ==>
      |e.solutions| > 0 && r.state.exercise == e.exercise &&
      |r.state.solutions| == |e.solutions| &&
      r.state.solutions[1..] == e.solutions[1..] &&
      r.state.solutions[0] == ApplyVote(e.solutions[0], u, ParseVoteType(raw).value)
    ensures r.status == Ok && target != "solution" ==>
      r.state.solutions == e.solutions &&
      r.state.exercise == ApplyVote(e.exercise, u, ParseVoteType(raw).value)
    ensures r.status in {Ok, BadRequest, NotFound}
    ensures r.status == Ok <==> ParseVoteType(raw) != None && !(target == "solution" && e.solutions == [])
  {
    match ParseVoteType(raw)
    case None => ExerciseResponse(BadRequest, e)
    case Some(t) =>
      if target == "solution" then
        if e.solutions == [] then ExerciseResponse(NotFound, e)
        else ExerciseResponse(Ok, e.(solutions := [ApplyVote(e.solutions[0], u, t)] + e.solutions[1..]))
      else
        ExerciseResponse(Ok, e.(exercise := ApplyVote(e.exercise, u, t)))
  }

  /** The methods DRF treats as read-only. */
  predicate IsSafeMethod(m: string) {
    m == "GET" || m == "HEAD" || m == "OPTIONS"
  }

  /** `IsAuthenticatedForWriting.has_permission`. */
  function HasPermission(m: string, authenticated: bool): bool {
    IsSafeMethod(m) || authenticated
  }

  /** Safe methods always pass; POST, PUT, PATCH and DELETE need a user. */
  lemma PermissionCases(authenticated: bool)
    ensures HasPermission("GET", false) && HasPermission("HEAD", false) && HasPermission("OPTIONS", false)
    ensures HasPermission("POST", authenticated) <==> authenticated
    ensures HasPermission("DELETE", authenticated) <==> authenticated
    ensures HasPermission("PUT", authenticated) <==> authenticated
    ensures HasPermission("PATCH", authenticated) <==> authenticated
  {
    assert "POST" != "GET" && "POST" != "HEAD" && "POST" != "OPTIONS";
    assert "PUT" != "GET" && "PUT" != "HEAD" && "PUT" != "OPTIONS";
    assert "PATCH" != "GET" && "PATCH" != "HEAD" && "PATCH" != "OPTIONS";
    assert "DELETE" != "GET" && "DELETE" != "HEAD" && "DELETE" != "OPTIONS";
  }
}

=== FILE: vote_widgets.dfy ===
/** The two client vote widgets. `VoteButtons` keeps a vote word and an
    optimistic score that moves by one or two on each click;
    `VoteButtonsComment` keeps a numeric vote and never touches its score.
    A click by a signed-out visitor only redirects to the login page. */
module VoteWidgets {
  import opened Common

  /** The state both widgets keep: the vote shown and the displayed score. */
  datatype Widget<V> = Widget(vote: V, score: int)

  /** The two prop effects both widgets have: a changed `initialVotes`
      (Some) resets the score, a changed `userVote` prop resets the vote;
      an unchanged prop (None) leaves its field alone. */
  function SyncProps<V>(s: Widget<V>, initialVotes: Option<int>, initialUserVote: Option<V>): (r: Widget<V>)
    ensures initialVotes.Some? ==> r.score == initialVotes.value
    ensures initialVotes.None? ==> r.score == s.score
    ensures initialUserVote.Some? ==> r.vote == initialUserVote.value
    ensures initialUserVote.None? ==> r.vote == s.vote
  {
    var scored := if initialVotes.Some? then s.(score := initialVotes.value) else s;
    if initialUserVote.Some? then scored.(vote := initialUserVote.value) else scored
  }

  // ---------------------------------------------------------------------
  // VoteButtons

  datatype Vote = Up | Down | NoVote

  /** The two buttons. */
  datatype Button = UpButton | DownButton

  function VoteOf(b: Button): Vote {
    if b == UpButton then Up else Down
  }

  /** How much a vote weighs in the displayed score. */
  function Weight(v: Vote): int {
    match v
    case Up => 1
    case Down => -1
    case NoVote => 0
  }

  type ButtonsState = Widget<Vote>

  /** The outcome of one click: the new state, the vote handed to `onVote`
      (None when it is not called) and whether the visitor is sent to log in. */
  datatype ButtonsClick = ButtonsClick(state: ButtonsState, emitted: Option<Vote>, toLogin: bool)

  /** Initial state: the prop `userVote` defaults to 'none'. */
  function InitButtons(initialVotes: int, userVote: Option<Vote>): (s: ButtonsState)
    ensures s.score == initialVotes
    ensures userVote.None? ==> s.vote == NoVote
    ensures userVote.Some? ==> s.vote == userVote.value
  {
    Widget(match userVote case None => NoVote case Some(v) => v, initialVotes)
  }

  /** `handleVote`. */
  function ClickButton(s: ButtonsState, authenticated: bool, b: Button): (r: ButtonsClick)
    ensures !authenticated ==> r.state == s && r.emitted.None? && r.toLogin
    ensures authenticated ==> !r.toLogin && r.emitted == Some(r.state.vote)
    ensures authenticated && s.vote == VoteOf(b) ==> r.state.vote == NoVote
    ensures authenticated && s.vote != VoteOf(b) ==> r.state.vote == VoteOf(b)
    ensures r.state.score - Weight(r.state.vote) == s.score - Weight(s.vote)
  {
    if !authenticated then ButtonsClick(s, None, true)
    else
      var (newVote, delta) :=
        if s.vote == VoteOf(b) then (NoVote, if b == UpButton then -1 else 1)
        else if s.vote == NoVote then (VoteOf(b), if b == UpButton then 1 else -1)
        else (VoteOf(b), if b == UpButton then 2 else -2);
      ButtonsClick(Widget(newVote, s.score + delta), Some(newVote), false)
  }

  /** From no vote, two clicks on the same button restore vote and score. */
  lemma TwoClicksRestore(s: ButtonsState, b: Button)
    requires s.vote == NoVote
    ensures ClickButton(ClickButton(s, true, b).state, true, b).state == s
  {
  }

  /** A new `userVote` prop after a click replaces the vote but keeps the
      score the click moved, so score minus vote weight shifts by the
      difference between the clicked vote's weight and the new vote's. */
  lemma ButtonsPropAfterClick(s: ButtonsState, b: Button, u: Vote)
    ensures var c := ClickButton(s, true, b).state;
      var r := SyncProps(c, None, Some(u));
      r.vote == u && r.score == c.score &&
      r.score - Weight(r.vote) == s.score - Weight(s.vote) + Weight(c.vote) - Weight(u)
  {
  }

  // ---------------------------------------------------------------------
  // VoteButtonsComment

  /** The numeric vote: 1, -1 or 0. */
  type CommentVote = v: int | v == 1 || v == -1 || v == 0

  /** The value a button sends: 1 or -1. */
  type ClickValue = v: int | v == 1 || v == -1 witness 1

  type CommentWidget = Widget<CommentVote>

  datatype CommentClick = CommentClick(state: CommentWidget, emitted: Option<CommentVote>, toLogin: bool)

  /** `handleVote`: the clicked value, or 0 when it repeats the current vote. */
  function ClickComment(s: CommentWidget, authenticated: bool, v: ClickValue): (r: CommentClick)
    ensures !authenticated ==> r.state == s && r.emitted.None? && r.toLogin
    ensures authenticated ==> !r.toLogin && r.emitted == Some(r.state.vote)
    ensures authenticated ==> (r.state.vote == 0 <==> s.vote == v)
    ensures authenticated && s.vote != v ==> r.state.vote == v
    ensures r.state.score == s.score
  {
    if !authenticated then CommentClick(s, None, true)
    else
      var newVote: CommentVote := if s.vote == v then 0 else v;
      CommentClick(s.(vote := newVote), Some(newVote), false)
  }

  /** Two clicks on the same value end at 0 from any other vote, and back at
      the value when it was already held. */
  lemma CommentTwoClicks(s: CommentWidget, v: ClickValue)
    ensures var twice := ClickComment(ClickComment(s, true, v).state, true, v).state;
            (s.vote != v ==> twice.vote == 0) && (s.vote == v ==> twice.vote == v)
  {
  }

  /** A click is local: the next `userVote` prop from the parent overwrites
      whatever the click chose, and the click never moved the score. */
  lemma PropOverridesClick(s: CommentWidget, v: ClickValue, u: CommentVote)
    ensures var clicked := ClickComment(s, true, v).state;
            SyncProps(clicked, None, Some(u)) == s.(vote := u)
  {
  }
}
